=== FILE: README.md ===
# Job-hunting calendar: a Dafny model of its core logic

This project models, in Dafny, the logic behind a job-hunting calendar web app written in TypeScript and React, and proves properties of that model. The app shows a month grid and a day sheet of events. Events may recur, may carry preparation dates and a deadline, and may have reminders. The app also keeps a notebook per company: selection steps, progress, memos, reference sites and free-form fields.

The model covers:

- **The occurrence engine** (modules `CivilDates`, `Recurrence`, `DayOccurrences`, `MonthLayout`).
  - `isRecurringEventOnDate`: the anchor cut-off, the end date, the end count with its forward-stepping loop and JavaScript's `setMonth`/`setFullYear` overflow, and the daily, weekly, monthly and yearly rules.
  - The per-day merge of normal, preparation and deadline entries and its stable sort. It is built once with a flag for the day sheet's `originalId`, and the two views are proved to agree.
  - The month grid: weeks, the per-cell budget with its "+N" badge, padding cells, and the swipe to the next or previous month.
- **Reminders** (`Notifications`, `NotificationEditor`): when each reminder fires, which timers are set, and the reminder editor's handlers.
- **The editors.**
  - `RecurrenceEditor`: weekday conventions, toggles, steppers and end-type switching.
  - `AddEvent`: start moves that keep the duration, the preparation slots, and the saved record.
  - `DateFormat`: the `YYYY-MM-DD` and `YYYY-MM-DDTHH:MM` formats and their read-back.
  - `SelectionTab`: the step form with its remembered length and end-time rollover, the submit checks, track split and "completed" test.
  - `EditLabels`: the label editor's drag reorder, relabel, save and close, as a class.
- **The list reducers after storage calls.**
  - `AppState`: colour maps, click resolution, and event save/update/delete.
  - `CompanyNotePage`: steps, progress, memos and sites.
  - `CompaniesList`: latest progress per company, search, add and delete.
  - The company note blocks: `CustomFields` (both field blocks, as classes), `ReferenceSites` and `CompanyMemos`.
- **Shared helpers**: `Lists` (`filter`, `find`, update and delete by id, removal by index), `Sorting` (a stable sort by a two-part key), `Text` (`trim`, `toLowerCase`, `includes`) and `Arith` (division facts).

Conventions:

- A date is a civil triple with months 1..12.
- A time of day is a minute count.
- An instant is a millisecond count on the local clock.
- Storage answers (the rows returned, and whether a call reported an error) are parameters.
- So are the clock reading, the notification permission and the `confirm` answer.
- Source cells below are paths in the app's repository.

## Model

| member | source | states |
|---|---|---|
| CivilDates.DaysInMonth | src/components/CalendarGrid.tsx:226 | a month has 28 to 31 days, and 31 exactly outside February, April, June, September and November |
| CivilDates.Weekday | src/components/CalendarGrid.tsx:88 | `getDay` lies in 0..6 |
| CivilDates.KnownMonday | src/components/CalendarGrid.tsx:23 | the weekday count agrees with the real calendar: 1 January 2024 is a Monday |
| CivilDates.NextMonth | src/components/CalendarGrid.tsx:66 | the following month is a month 1..12 one place later in the consecutive month count |
| CivilDates.YearLength | src/components/CalendarGrid.tsx:77 | the day numbers of consecutive New Year's days differ by 366 in a leap year and 365 otherwise |
| CivilDates.MonthLength | src/components/CalendarGrid.tsx:62 | the first of the next month is numbered right after the last day of this one |
| CivilDates.WithinYear | src/components/CalendarGrid.tsx:77 | a real date is numbered within its own year |
| CivilDates.MonthsOrdered | src/components/CalendarGrid.tsx:77 | an earlier month of the same year ends before a later one begins |
| CivilDates.YearsOrdered | src/components/CalendarGrid.tsx:77 | an earlier year ends before a later one begins |
| CivilDates.Earlier | src/components/CalendarGrid.tsx:42 | a calendar day earlier by year, month and day has the smaller day number |
| CivilDates.OrdinalOrder | src/components/CalendarGrid.tsx:42-48 | comparing two midnights (`<`, `>`) is comparing their calendar days, and equal numbers mean the same day |
| CivilDates.Normalize | src/components/CalendarGrid.tsx:62 | `new Date(y, m, dd)` with an overflowing day gives a real date `dd - 1` days after the first of the month, never in an earlier month, and the date itself when it fits |
| CivilDates.AddDays | src/components/CalendarGrid.tsx:62-64 | `setDate(getDate() + k)` gives the real date exactly `k` days later |
| CivilDates.ShiftMonths | src/components/CalendarGrid.tsx:66 | lands exactly `day - 1` days after the first of the month `n` months on, so a day the target month lacks overflows into the next month as `setMonth` does |
| CivilDates.ShiftYears | src/components/CalendarGrid.tsx:68 | `setFullYear(getFullYear() + n)` keeps month and day, except that 29 February rolls to 1 March |
| Recurrence.Step | src/components/CalendarGrid.tsx:62-68 | the step of `recurrence_interval \|\| 1` is at least 1 and equals the interval when one is set |
| Recurrence.Advance | src/components/CalendarGrid.tsx:61-69 | one advance of the count loop's cursor, by days, weeks, months or years, stays a real calendar date |
| Recurrence.Simulate | src/components/CalendarGrid.tsx:55-70 | the counting loop ends on a real calendar date |
| Recurrence.CountExhaustedLoop | src/components/CalendarGrid.tsx:53-75 | the `while` loop with its mutable count and cursor decides exactly the count gate of the specification function |
| Recurrence.IsRecurringEventOnDate | src/components/CalendarGrid.tsx:33-110 | the predicate with its early returns decides exactly `OccursOn` (the same code is at src/components/DayEventsSheet.tsx:21-97) |
| Recurrence.NeverBeforeStartNorUnset | src/components/CalendarGrid.tsx:34-44 | no occurrence before the anchor day, and none for an unset, `none` or `custom` type |
| Recurrence.DailyRule | src/components/CalendarGrid.tsx:77-81 | without end conditions a daily event occurs exactly on the days a multiple of the step after the anchor |
| Recurrence.SameWeekday | src/components/CalendarGrid.tsx:88 | `getDay` agrees on two days exactly when they lie a multiple of 7 days apart |
| Recurrence.WeeklyRule | src/components/CalendarGrid.tsx:83-89 | without end conditions a weekly event occurs exactly on the days a multiple of 7 times the step after the anchor |
| Recurrence.MonthlyRule | src/components/CalendarGrid.tsx:91-98 | without end conditions a monthly event occurs exactly on the anchor's day of the month, every step months, from the anchor on |
| Recurrence.MonthlyOnThe31st | src/components/CalendarGrid.tsx:91-98 | an event anchored on the 31st never occurs monthly in a month of fewer days |
| Recurrence.YearlyRule | src/components/CalendarGrid.tsx:100-107 | without end conditions a yearly event occurs exactly on the anchor's month and day, every step years, from the anchor on |
| Recurrence.EndDateIsInclusive | src/components/CalendarGrid.tsx:46-51 | with an end date, nothing occurs after it; on the end date and before it the event occurs exactly as with no end condition |
| Recurrence.SimulateByDays | src/components/CalendarGrid.tsx:55-70 | for daily and weekly rules the loop's count is `min(count, d / u + 1)` and its cursor lies that many units after the anchor |
| Recurrence.CountGateByDays | src/components/CalendarGrid.tsx:72-74 | for daily and weekly rules the count gate shuts exactly when `count` steps fit before the checked day |
| Recurrence.DailyCountRule | src/components/CalendarGrid.tsx:53-81 | a daily event limited to N occurrences occurs exactly on the days `start + k * interval` with `k < N` |
| Recurrence.WeeklyCountRule | src/components/CalendarGrid.tsx:53-89 | a weekly event limited to N occurrences occurs exactly on the days `start + k * 7 * interval` with `k < N` |
| Recurrence.DriftFirstStep | src/components/CalendarGrid.tsx:66 | `setMonth` on 31 January 2024 lands on 2 March |
| Recurrence.DriftSecondStep | src/components/CalendarGrid.tsx:66 | `setMonth` on 2 March 2024 lands on 2 April |
| Recurrence.DriftThirdStep | src/components/CalendarGrid.tsx:66 | `setMonth` on 2 April 2024 lands on 2 May |
| Recurrence.DriftCountByMarch | src/components/CalendarGrid.tsx:55-70 | checking 31 March, the loop stops after two occurrences at 2 April |
| Recurrence.DriftCountByMay | src/components/CalendarGrid.tsx:55-70 | checking 31 May, the loop spends its budget of three at 2 May |
| Recurrence.DriftKeepsMarch | src/components/CalendarGrid.tsx:53-98 | the monthly series from 31 January 2024, limited to 3, occurs on 31 March |
| Recurrence.DriftCutsMay | src/components/CalendarGrid.tsx:53-98 | the same series does not occur on 31 May, its third real occurrence |
| Recurrence.MonthlyCountDrift | src/components/CalendarGrid.tsx:53-98 | the count gate counts steps of the cursor, not real occurrences: March is kept and May is cut off |
| DayOccurrences.CollectAdditional | src/components/DayEventsSheet.tsx:110-151 | the nested `forEach`/`push` loops build exactly the specification list of synthetic entries |
| DayOccurrences.MainEntriesCharacterised | src/components/DayEventsSheet.tsx:99-108 | the normal entries come from events that start or recur on the day, every such event is listed, and each input occurrence yields exactly one entry even when both tests hold |
| DayOccurrences.PrepEntriesAreFromPreps | src/components/DayEventsSheet.tsx:113-131 | one event's preparation entries are exactly those of its preparation dates on the day |
| DayOccurrences.PrepEntriesCharacterised | src/components/DayEventsSheet.tsx:113-131 | every preparation date on the day is listed, and each preparation entry has id `prep-<id>`, the event as origin in the day sheet, the prep title or else the event title, start and end at the prep date, and is timed |
| DayOccurrences.PrepEntriesArePreps | src/components/DayEventsSheet.tsx:127 | a preparation entry is flagged as one |
| DayOccurrences.DeadlineEntriesCounted | src/components/DayEventsSheet.tsx:134-150 | each input occurrence of an event whose deadline falls on the day yields exactly one deadline entry |
| DayOccurrences.DeadlineEntriesFromEvents | src/components/DayEventsSheet.tsx:134-150 | each deadline entry comes from an event whose deadline is on the day, with id `deadline-<event id>`, that event as origin in the day sheet, all-day, start and end at the deadline |
| DayOccurrences.DayEntriesOrdered | src/components/DayEventsSheet.tsx:153-157 | the sorted list is a permutation of the normal and synthetic entries, all-day entries first, each group by ascending start, equal keys in collection order |
| DayOccurrences.DividerSplits | src/components/DayEventsSheet.tsx:270-271 | in a list with all-day entries first the divider sits at most once, at the boundary between the groups |
| DayOccurrences.DividerAtMostOnce | src/components/DayEventsSheet.tsx:269-271 | in the day sheet the divider is drawn at most once, between the all-day and the timed entries |
| DayOccurrences.EraseAdditional | src/components/CalendarGrid.tsx:124-164 | the month grid's synthetic entries are the day sheet's without `originalId` |
| DayOccurrences.ErasePrepEntries | src/components/CalendarGrid.tsx:124-164 | the same for one event's preparation entries |
| DayOccurrences.EraseMain | src/components/CalendarGrid.tsx:112-122 | normal entries carry no `originalId` in either view |
| DayOccurrences.ViewsAgree | src/components/CalendarGrid.tsx:112-171 | for every day the month grid and the day sheet list the same entries in the same order, apart from `originalId` |
| MonthLayout.TotalWeeks | src/components/CalendarGrid.tsx:30 | the number of grid rows is the least number of whole weeks covering the leading blanks and the month, between 4 and 6 |
| MonthLayout.MaxEventsPerDay | src/components/CalendarGrid.tsx:31 | a cell shows 4 entries in a six-week month, 5 in a five-week one and 6 otherwise |
| MonthLayout.CellContents | src/components/CalendarGrid.tsx:247-249 | a cell shows the first entries of the day up to the budget, and the "+N" badge appears exactly when some are hidden, counting exactly those |
| MonthLayout.TrailingCount | src/components/CalendarGrid.tsx:321-322 | the next month's blanks number 0 to 6 and complete the last week |
| MonthLayout.PrevMonth | src/components/CalendarGrid.tsx:26 | the month before is a month 1..12 one place earlier in the consecutive month count |
| MonthLayout.StartDay | src/components/CalendarGrid.tsx:21-23 | the first of the month falls on a weekday 0..6 |
| MonthLayout.LaidOutGrows | src/components/CalendarGrid.tsx:242-319 | appending the next grid cell keeps the laid-out prefix correct |
| MonthLayout.PushLeading | src/components/CalendarGrid.tsx:233-240 | the first loop lays out the last `startDay` days of the previous month, in order |
| MonthLayout.PushMonthDays | src/components/CalendarGrid.tsx:242-319 | the second loop adds one cell per day of the month, each holding that day's entries cut to the budget |
| MonthLayout.PushTrailing | src/components/CalendarGrid.tsx:321-330 | the third loop completes the grid with the next month's first days |
| MonthLayout.RenderCalendarDays | src/components/CalendarGrid.tsx:230-333 | the grid is whole weeks (`7 * totalWeeks` cells), and every cell is the previous month's tail, a day of the month with its entries, or the next month's head, in order |
| MonthLayout.WeeksExtremes | src/components/CalendarGrid.tsx:30-31 | a 28-day month from Sunday fills four weeks with 6 slots per cell; a 31-day month from Friday needs six weeks with 4 slots |
| MonthLayout.SwipeStep | src/components/CalendarGrid.tsx:207-224 | a finished swipe moves one month forward or back, or not at all |
| MonthLayout.StepMonth | src/components/CalendarGrid.tsx:218-221 | `new Date(year, month ± 1, 1)` is the month `step` places away in the consecutive month count |
| MonthLayout.SwipeDecision | src/components/CalendarGrid.tsx:211-224 | the month changes exactly when the swipe is mostly horizontal and longer than 50 pixels; leftward means next, and the reverse swipe means previous |
| MonthLayout.StepMonthRoundTrip | src/components/CalendarGrid.tsx:216-224 | swiping forward then back, or back then forward, returns to the month shown before |
| Notifications.CalculateNotificationTime | src/lib/notifications.ts:37-77 | the fire time is the reference instant for `at_time`, 10 minutes or one hour before it for the presets, the custom lead time before it for a custom reminder with a value and unit, and the reference instant for a custom one lacking either |
| Notifications.CustomFiresEarlier | src/lib/notifications.ts:57-74 | a custom reminder with a positive value fires at least a minute before its reference instant |
| Notifications.ScheduleEventNotifications | src/lib/notifications.ts:79-109 | no timer without permission or without reminders; otherwise the loop sets up exactly the specification's delays, in reminder order |
| Notifications.PendingSplit | src/lib/notifications.ts:91-108 | the number of future reminders of two lists together is the sum of both |
| Notifications.ScheduledDelays | src/lib/notifications.ts:91-108 | one timer per reminder still in the future and none for a past one; every delay is 1 to 2147483647 ms and every future reminder's capped wait is among them |
| NotificationEditor.TogglePreset | src/components/NotificationModal.tsx:40-47 | a preset that is present leaves exactly `WithoutType` of the list (every entry of its type gone, the others in order); an absent one is appended measuring from the start |
| NotificationEditor.WithoutType | src/components/NotificationModal.tsx:43 | only entries of the list with another type remain |
| NotificationEditor.WithoutTypeConcat | src/components/NotificationModal.tsx:43 | dropping a type works part by part, so the remaining entries keep their order |
| NotificationEditor.WithoutTypeMultiset | src/components/NotificationModal.tsx:43 | each entry of another type stays exactly as often as it occurred; none of the type stays |
| NotificationEditor.ToggleTwiceRestores | src/components/NotificationModal.tsx:40-47 | pressing an absent preset twice gives back the list as it was |
| NotificationEditor.AddCustom | src/components/NotificationModal.tsx:49-61 | the custom reminder from the form is appended after the existing ones, and the form resets to 1 minute before the start |
| NotificationEditor.AddedCustomFiresEarlier | src/components/NotificationModal.tsx:49-61 | a reminder added with a clamped value fires strictly before its reference instant |
| NotificationEditor.ChangeReference | src/components/NotificationModal.tsx:97-101 | entries of the type now measure from the chosen instant; all others are unchanged |
| NotificationEditor.ChangeReferenceFiltered | src/components/NotificationModal.tsx:97-101 | entries of other types are untouched, in the same order |
| NotificationEditor.ReferenceChangeIsLocal | src/components/NotificationModal.tsx:97-101 | a reference change keeps every entry's type, value and unit, and the entries of other types |
| NotificationEditor.ClampCustomValue | src/components/NotificationModal.tsx:128 | the custom value input yields at least 1: the parsed number when it is 1 or more, else 1 |
| RecurrenceEditor.GetDateInfo | src/components/RecurrenceModal.tsx:39-47 | without a start date the 1st, Monday, first week; otherwise the start's day of month, a weekday 0..6 and the week of the month 1..5 that holds the day |
| RecurrenceEditor.WeekdayConventions | src/components/RecurrenceModal.tsx:43 | the editor's Monday-based weekday and `getDay()` name the same day |
| RecurrenceEditor.HandleTypeSelect | src/components/RecurrenceModal.tsx:52-64 | choosing "custom" opens the custom editor with the day unit and saves nothing; any other type is saved at once with the editor left as it was; only type and unit change |
| RecurrenceEditor.HandleCustomTypeChange | src/components/RecurrenceModal.tsx:66-72 | the unit is set; switching to weeks with no chosen days picks the start's weekday; nothing else changes |
| RecurrenceEditor.Without | src/components/RecurrenceModal.tsx:82 | `filter(d => d !== dayIndex)` keeps exactly the other indices |
| RecurrenceEditor.ToggleDay | src/components/RecurrenceModal.tsx:79-85 | toggling a weekday sets the day list and changes nothing else |
| RecurrenceEditor.ToggleDayFlips | src/components/RecurrenceModal.tsx:79-85 | the toggled index flips membership, every other index keeps it, and an added index joins a sorted permutation of the old list plus itself |
| RecurrenceEditor.ToggleTwice | src/components/RecurrenceModal.tsx:79-85 | toggling a chosen index off and on gives back the chosen indices, sorted |
| RecurrenceEditor.DecrementInterval | src/components/RecurrenceModal.tsx:156 | the minus button lowers the interval by one above 1 and leaves exactly 1 at or below 1 (`Math.max(1, interval - 1)`); nothing else changes |
| RecurrenceEditor.IncrementInterval | src/components/RecurrenceModal.tsx:163 | the plus button raises the interval by one; nothing else changes |
| RecurrenceEditor.IntervalStepperRoundTrip | src/components/RecurrenceModal.tsx:156-163 | plus then minus restores a valid interval, minus at 1 leaves the interval at 1, and repeated minus stays at 1 or more |
| RecurrenceEditor.EndCountOrDefault | src/components/RecurrenceModal.tsx:285 | an absent or zero count reads as 10, any other count as itself |
| RecurrenceEditor.DecrementEndCount | src/components/RecurrenceModal.tsx:280 | the count minus button gives one less than the shown count (default 10) when that is above 1, and exactly 1 otherwise (`Math.max(1, (endCount \|\| 10) - 1)`); nothing else changes |
| RecurrenceEditor.IncrementEndCount | src/components/RecurrenceModal.tsx:287 | the count plus button gives the shown count (default 10) plus one |
| RecurrenceEditor.EndCountStepper | src/components/RecurrenceModal.tsx:280-287 | with no count the buttons give 11 and 9; plus then minus gives back the shown count |
| RecurrenceEditor.ChooseNever | src/components/RecurrenceModal.tsx:247 | the end type becomes "never" with both the count and the date cleared, and nothing else changes |
| RecurrenceEditor.ChooseCount | src/components/RecurrenceModal.tsx:262 | the end type becomes "count" with the count entered, or 10 without one (`endCount \|\| 10`), and the end date cleared; nothing else changes |
| RecurrenceEditor.ChooseDate | src/components/RecurrenceModal.tsx:300-304 | the end type becomes "date" with the date entered or the given default, and the count cleared; nothing else changes |
| RecurrenceEditor.EditEndDate | src/components/RecurrenceModal.tsx:322 | the date input sets the end date and nothing else |
| RecurrenceEditor.EndTypeSwitching | src/components/RecurrenceModal.tsx:247-322 | each end-type choice leaves only its own field set, keeps an entered count or date, and the steppers and date input keep the end fields in agreement |
| RecurrenceEditor.ChooseDayOfMonth | src/components/RecurrenceModal.tsx:198 | the monthly basis becomes the start's day of month; nothing else changes |
| RecurrenceEditor.ChooseNthWeekday | src/components/RecurrenceModal.tsx:211 | the monthly basis becomes the start's week of month and weekday; nothing else changes |
| RecurrenceEditor.ChooseLastWeekday | src/components/RecurrenceModal.tsx:224 | the monthly basis becomes the last such weekday (-1); nothing else changes |
| RecurrenceEditor.MonthlyChoicesDistinct | src/components/RecurrenceModal.tsx:211-226 | the n-th-weekday and last-weekday choices are told apart by the day field, as the buttons' highlight assumes |
| AddEvent.StartDateChange | src/components/AddEventModal.tsx:199-219 | the start takes the new value; an all-day event or an emptied start leaves the end alone; a timed event with a new start always gets an end |
| AddEvent.StartChangeKeepsDuration | src/components/AddEventModal.tsx:202-217 | moving a timed start keeps the old length when both ends were set and gives one hour otherwise; moving twice ends where one move to the final start would |
| AddEvent.AllDayStartChange | src/components/AddEventModal.tsx:202 | in all-day mode a start change never touches the end |
| AddEvent.DiffOrDefault | src/components/AddEventModal.tsx:658 | a slot's remembered length, or 60 minutes when it has none |
| AddEvent.HourStart | src/components/AddEventModal.tsx:605-607 | the start of the hour holding `now`: on a whole hour, at most `now`, less than an hour before it |
| AddEvent.NewDraft | src/components/AddEventModal.tsx:604-614 | the added slot runs one hour from the start of the current hour, remembers 60 minutes and carries the event's title |
| AddEvent.WithStart | src/components/AddEventModal.tsx:652-664 | a slot's start input is set; a non-empty start moves the end to start plus the remembered length (or 60); title and length are kept |
| AddEvent.WithEnd | src/components/AddEventModal.tsx:673-687 | a slot's end input is set; the length is remembered exactly when the slot has a start and the new end lies after it |
| AddEvent.EndThenStartKeepsLength | src/components/AddEventModal.tsx:652-687 | after setting an end, moving the start carries that length along when it was positive, and the earlier length otherwise |
| AddEvent.NewDraftLength | src/components/AddEventModal.tsx:604-664 | a freshly added slot moved to any start still lasts one hour |
| AddEvent.PreparationDrafts.constructor | src/components/AddEventModal.tsx:28 | the editor opens with no preparation slots |
| AddEvent.PreparationDrafts.Add | src/components/AddEventModal.tsx:604-614 | exactly one new slot is appended, the others are unchanged |
| AddEvent.PreparationDrafts.Remove | src/components/AddEventModal.tsx:637-640 | exactly the slot at the index is removed and the others keep their order |
| AddEvent.PreparationDrafts.EditTitle | src/components/AddEventModal.tsx:629-633 | only the title of the slot at the index changes |
| AddEvent.PreparationDrafts.EditStart | src/components/AddEventModal.tsx:652-664 | only the slot at the index changes, as the start rule says |
| AddEvent.PreparationDrafts.EditEnd | src/components/AddEventModal.tsx:673-687 | only the slot at the index changes, as the end rule says |
| AddEvent.OrUndefined | src/components/AddEventModal.tsx:236-241 | an empty text field is left out of the record, any other is kept as it is |
| AddEvent.SavePreps | src/components/AddEventModal.tsx:252-258 | one saved preparation date per kept slot, in the same order |
| AddEvent.HandleSave | src/components/AddEventModal.tsx:227-267 | nothing is saved exactly when the title, start, end or colour is empty; the record goes out as an update exactly when an event with an id is being edited and an update handler exists |
| AddEvent.SavedRecord | src/components/AddEventModal.tsx:230-259 | the record carries the form's title, start and end; a deadline exactly when the toggle is on and a date is given; one preparation date per slot with a start, in order, titled by the slot or else the event, tied to the edited event's id |
| SelectionTab.TimeDiffOnEdit | src/components/jobhunting/SelectionTab.tsx:144-152 | the remembered length lies in 1..1440 and the stored start plus it reaches the stored end time modulo a day, so an end at or before the start is read as on the next day |
| SelectionTab.EndFromStart | src/components/jobhunting/SelectionTab.tsx:900-916 | the end fields are a valid clock and a valid date lying exactly `timeDiff` minutes after the start; the end date stays the start date exactly when the end stays within the day |
| SelectionTab.FocusStart | src/components/jobhunting/SelectionTab.tsx:871-888 | focusing an empty start time starts on the current hour, ends on a valid clock, and has an end date exactly when there is a start date |
| SelectionTab.FocusStartIsOneHour | src/components/jobhunting/SelectionTab.tsx:871-888 | the focus rule agrees with the general end rule at a length of one hour, including the move to the next day after 23:00 |
| SelectionTab.PositiveDiff | src/components/jobhunting/SelectionTab.tsx:949-961 | a length is produced exactly when the end lies after the start, and it is the distance between them |
| SelectionTab.ScheduleForm.constructor | src/components/jobhunting/SelectionTab.tsx:46-68 | empty inputs and a remembered length of 60 minutes |
| SelectionTab.ScheduleForm.Load | src/components/jobhunting/SelectionTab.tsx:140-168 | the inputs take the stored step's values; the remembered length is recomputed only when both times are stored |
| SelectionTab.ScheduleForm.FocusStartTime | src/components/jobhunting/SelectionTab.tsx:871-888 | a filled start input is left alone; an empty one takes the focus rule's start, end time and end date, nothing else changes |
| SelectionTab.ScheduleForm.ChangeStartTime | src/components/jobhunting/SelectionTab.tsx:889-917 | the start time is set; with a start date the end moves to exactly the remembered length after the new start, otherwise the end is untouched |
| SelectionTab.ScheduleForm.ChangeEndDate | src/components/jobhunting/SelectionTab.tsx:945-965 | the end date is set and the remembered length becomes the new positive length, if there is one |
| SelectionTab.ScheduleForm.ChangeEndTime | src/components/jobhunting/SelectionTab.tsx:1011-1029 | the end time is set and the remembered length becomes the new positive length, if there is one |
| SelectionTab.ScheduleForm.FocusEndTime | src/components/jobhunting/SelectionTab.tsx:988-1010 | a filled end input is left alone; an empty one follows the start at the remembered length, or takes the current hour without a start |
| SelectionTab.NewLength | src/components/jobhunting/SelectionTab.tsx:949-961 | the remembered length stays at least one minute |
| SelectionTab.EndThenStartKeepsLength | src/components/jobhunting/SelectionTab.tsx:889-1029 | after choosing an end later than the start, moving the start carries the end along at the same distance |
| SelectionTab.WithForm | src/components/jobhunting/SelectionTab.tsx:96-110 | a submit keeps the step's id and calendar link and writes the title, date type and track |
| SelectionTab.HandleAddEvent | src/components/jobhunting/SelectionTab.tsx:92-110 | a step is produced exactly when the title is not blank and the dates its date type needs are present |
| SelectionTab.HandleUpdateEvent | src/components/jobhunting/SelectionTab.tsx:170-190 | an update is produced exactly when a step is being edited and the form is complete, and it carries that step's id, the submitted form, date type and track |
| SelectionTab.SubmitMatchesGuard | src/components/jobhunting/SelectionTab.tsx:710-715 | the submit button is enabled exactly when adding, and updating, goes through, and then the title is not blank |
| SelectionTab.TracksPartition | src/components/jobhunting/SelectionTab.tsx:427-428 | every step is in exactly one of the intern and full-time lists, the two lengths add up, and the filter keeps order over concatenation |
| SelectionTab.CompletedIsBefore | src/components/jobhunting/SelectionTab.tsx:567-578 | a step is greyed out exactly when its listed day is earlier in the calendar than today |
| DateFormat.DigitRoundTrip | src/components/AddEventModal.tsx:49-55 | a digit character reads back as its digit |
| DateFormat.Decimal | src/components/AddEventModal.tsx:50 | `String(year)` is a non-empty run of digits |
| DateFormat.Pad2 | src/components/AddEventModal.tsx:51-54 | `padStart(2, '0')` of a value below 100 has two characters |
| DateFormat.Pad2Digits | src/components/AddEventModal.tsx:51-54 | the two characters are the tens and the units digit |
| DateFormat.FourDigits | src/components/AddEventModal.tsx:50 | a four-digit year is written as its thousands, hundreds, tens and units digits |
| DateFormat.DigitsOfFour | src/components/AddEventModal.tsx:55 | four digits in a row read back as their positional value |
| DateFormat.DigitsOfTwo | src/components/AddEventModal.tsx:55 | a two-digit padded field reads back as its value |
| DateFormat.DateOnlyShape | src/components/AddEventModal.tsx:58-63 | `YYYY-MM-DD` has ten characters, hyphens at 4 and 7, and the year, month and day fields in place |
| DateFormat.FormatDateOnly | src/components/AddEventModal.tsx:58-63 | the year in decimal, a hyphen, the month as two digits, a hyphen, the day as two digits (read back by `DateOnlyRoundTrip`) |
| DateFormat.FormatDateTimeLocal | src/components/AddEventModal.tsx:49-56 | the date as `FormatDateOnly` writes it, `T`, the hour and the minute as two digits with a colon (read back by `DateTimeLocalRoundTrip`) |
| DateFormat.DecimalPlaces | src/components/AddEventModal.tsx:50 | a four-digit year is the sum of its place values |
| DateFormat.ParseDateOnlyOf | src/components/AddEventModal.tsx:58-63 | a well-shaped string whose fields read as a real date parses to it |
| DateFormat.DateOnlyRoundTrip | src/components/AddEventModal.tsx:58-63 | a date with a four-digit year reads back from its `YYYY-MM-DD` form, which is ten characters long |
| DateFormat.DateTimeLocalRoundTrip | src/components/AddEventModal.tsx:49-56 | `YYYY-MM-DDTHH:MM` is sixteen characters and reads back to the same date, hour and minute |
| Lists.Filter | src/App.tsx:205 | `filter` keeps exactly the elements passing the test and never lengthens the list |
| Lists.FilterMultiset | src/App.tsx:205 | `filter` keeps each passing element exactly as often as the list holds it and no failing one |
| Lists.FilterConcat | src/App.tsx:205 | filtering a concatenation filters each part |
| Lists.FilterAll | src/App.tsx:205 | a list whose elements all pass is kept whole |
| Lists.FilterNone | src/App.tsx:205 | a list whose elements all fail is emptied |
| Lists.FilterSplits | src/components/jobhunting/SelectionTab.tsx:427-428 | two complementary filters split the list: their lengths add up to the whole |
| Lists.Find | src/App.tsx:217 | `find` returns a passing element of the list, and nothing exactly when none passes |
| Lists.FindIsFirst | src/components/jobhunting/CompanyMemosBlock.tsx:29 | the element found is the first that passes |
| Lists.WithoutIndex | src/components/NotificationModal.tsx:63-65 | `filter((_, i) => i !== index)` removes the entry at an index inside the list, shifting the later ones down, and removes nothing otherwise |
| Lists.WithoutIndexCount | src/components/jobhunting/CustomFieldsBlock.tsx:26-28 | exactly the entry at the index goes |
| Lists.UpdateWhere | src/pages/CompanyNotePage.tsx:135 | `map(m => m.id === id ? patched : m)` patches every element with the id and leaves the others in place |
| Lists.RemoveWhere | src/pages/CompanyNotePage.tsx:184 | `filter(x => x.id !== id)` keeps exactly the elements with other ids and never lengthens the list; order and multiplicity by the lemmas below |
| Lists.RemoveWhereSingle | src/pages/CompanyNotePage.tsx:184 | one element stays exactly when its id differs |
| Lists.RemoveWhereConcat | src/pages/CompanyNotePage.tsx:184 | deleting from a concatenation deletes from each part in turn, so the rest keep their order |
| Lists.RemoveWhereMultiset | src/pages/CompanyNotePage.tsx:184 | every element with another id stays exactly as often as it occurred; none with the id stays |
| Lists.RemoveWhereCount | src/pages/CompanyNotePage.tsx:184 | the kept elements and those with the id add up to the whole list |
| Lists.RemoveAbsent | src/pages/CompanyNotePage.tsx:184 | deleting an id no element has changes nothing |
| Lists.RemoveAfterUpdate | src/pages/CompanyNotePage.tsx:135-184 | deleting by id after an update by the same id is the same as deleting at once |
| Lists.RemoveFresh | src/pages/CompanyNotePage.tsx:125 | deleting a just-prepended element whose id no other element has restores the list |
| Lists.UpdateAbsent | src/pages/CompanyNotePage.tsx:135 | an update by an id nobody has changes nothing |
| Sorting.WithKeyCons | src/components/DayEventsSheet.tsx:153-157 | the elements of a given key in a list with a new head are the head (when it has the key) followed by the rest's |
| Sorting.Insert | src/components/DayEventsSheet.tsx:153-157 | inserting adds exactly the one element |
| Sorting.InsertSorted | src/components/DayEventsSheet.tsx:153-157 | insertion into a sorted list keeps it sorted |
| Sorting.InsertKeepsBound | src/components/DayEventsSheet.tsx:153-157 | a lower bound of the list and the new element bounds the result |
| Sorting.InsertWithKey | src/components/DayEventsSheet.tsx:153-157 | insertion puts the element before the earlier ones with its key and after none of them, so equal keys keep their order |
| Sorting.SortBy | src/components/DayEventsSheet.tsx:153-157 | the stable `sort`: ordered by the key, a permutation of the input, with equal-key elements in input order |
| Sorting.Map | src/pages/CompaniesListPage.tsx:77-86 | `map` applies the function at each position |
| Sorting.MapConcat | src/pages/CompaniesListPage.tsx:77-86 | mapping a concatenation maps each part |
| Sorting.InsertMap | src/components/CalendarGrid.tsx:166-170 | inserting and then mapping is mapping and then inserting, when the map keeps the key |
| Sorting.SortByMap | src/components/CalendarGrid.tsx:166-170 | sorting commutes with a map that keeps the key |
| Text.TrimStart | src/components/jobhunting/ReferenceSitesBlock.tsx:24 | removes exactly the leading white space |
| Text.TrimEnd | src/components/jobhunting/ReferenceSitesBlock.tsx:24 | removes exactly the trailing white space |
| Text.Trim | src/components/jobhunting/ReferenceSitesBlock.tsx:24-25 | `trim()` is the slice of the text between white space at its start and white space at its end, never longer than the text, with no white space at either end |
| Text.TrimEmptyIffBlank | src/components/jobhunting/ReferenceSitesBlock.tsx:24 | `trim()` is empty (falsy) exactly when the input is all white space |
| Text.TrimIdempotent | src/components/jobhunting/ReferenceSitesBlock.tsx:39-43 | trimming a trimmed string changes nothing |
| Text.Lower | src/pages/CompaniesListPage.tsx:129 | `toLowerCase()` maps each character, keeping the length |
| Text.ContainsTrivial | src/pages/CompaniesListPage.tsx:128-130 | every string includes the empty query and itself |
| Text.LowerIdempotent | src/pages/CompaniesListPage.tsx:129 | lowercasing twice is lowercasing once |
| EditLabels.Ids | src/components/EditLabelsModal.tsx:185-192 | the ids of the presets, position by position |
| EditLabels.Move | src/components/EditLabelsModal.tsx:42-44 | the two `splice` calls keep the length and put the dragged item at the target slot |
| EditLabels.MovePermutes | src/components/EditLabelsModal.tsx:42-44 | the move loses and invents nothing |
| EditLabels.MoveKeepsIds | src/components/EditLabelsModal.tsx:42-44 | the moved list holds the same preset ids |
| EditLabels.MoveKeepsOthers | src/components/EditLabelsModal.tsx:42-44 | the other items keep their relative order |
| EditLabels.MoveBack | src/components/EditLabelsModal.tsx:42-44 | dragging the item back to where it came from restores the list |
| EditLabels.IdsMove | src/components/EditLabelsModal.tsx:42-44 | moving presets moves their ids the same way |
| EditLabels.Target | src/components/EditLabelsModal.tsx:33-51 | the slot found is another slot of the list whose 60-pixel band holds the dragged item's centre |
| EditLabels.TargetUnique | src/components/EditLabelsModal.tsx:36-41 | any other slot whose band holds the centre is that slot: the loop can stop at only one `i` |
| EditLabels.Numbered | src/components/EditLabelsModal.tsx:185-192 | each preset is saved with its position as `order_index` and nothing else changed |
| EditLabels.LabelEditor.constructor | src/components/EditLabelsModal.tsx:18-24 | the editor opens on the presets as given, nothing dragged |
| EditLabels.LabelEditor.Press | src/components/EditLabelsModal.tsx:133-148 | pressing an item starts dragging it from the pointer position with no offset |
| EditLabels.LabelEditor.Drag | src/components/EditLabelsModal.tsx:26-52 | with no drag in progress nothing changes; otherwise the offset follows the pointer and, when the centre enters another slot, the item moves there once, the drag restarts from that slot, and the presets are kept by id |
| EditLabels.LabelEditor.Release | src/components/EditLabelsModal.tsx:54-58 | releasing ends the drag and clears the offset, keeping the list |
| EditLabels.LabelEditor.ChangeLabel | src/components/EditLabelsModal.tsx:125-131 | only the caption of the preset with the id changes, in place |
| EditLabels.LabelEditor.Save | src/components/EditLabelsModal.tsx:185-192 | the list handed over is the edited order, each preset numbered by its position, holding the opened presets by id |
| EditLabels.LabelEditor.Close | src/components/EditLabelsModal.tsx:117-123 | the edits are dropped, the opened presets come back and the drag and modal gesture state are cleared |
| AppState.BuildIndex | src/App.tsx:92-100 | the `reduce` loop builds exactly the specification's index |
| AppState.ColorMap | src/App.tsx:92-95 | `colorMap` is the index of preset colours |
| AppState.ColorMapWithLabel | src/App.tsx:97-100 | `colorMapWithLabel` is the index of colours with labels |
| AppState.IndexIsLastWins | src/App.tsx:92-100 | the keys are exactly the preset ids, and a key's value is that of the last preset with the id |
| AppState.EventClick | src/App.tsx:214-227 | a click on an entry with a non-empty `originalId` selects the stored event with that id when there is one; otherwise the clicked entry itself |
| AppState.EventClickIsFirst | src/App.tsx:217 | the stored event selected is the first with the id, as `find` returns |
| AppState.ClickFindsOrigin | src/App.tsx:214-227 | clicking a day-sheet preparation or deadline entry selects the event it came from, when that is the only stored event with its id |
| AppState.WithPreps | src/App.tsx:123-141 | a saved event carries the inserted preparation rows (none when the insert returned none, and none when the form had none), and otherwise the stored row |
| AppState.SaveEvent | src/App.tsx:112-146 | a stored event is appended with its preparation rows; a failed insert changes nothing |
| AppState.UpdateEvent | src/App.tsx:148-195 | after a successful update the event with the id is replaced in place and becomes the selected one; a failed one changes nothing |
| AppState.DeleteEvent | src/App.tsx:197-207 | after a successful delete the result is `RemoveWhere` of the list: exactly the events with other ids remain, in their order and multiplicity; a failed one changes nothing |
| AppState.SaveThenDelete | src/App.tsx:112-207 | saving an event with a new id and deleting it gives back the list |
| CompanyNotePage.AddEvent | src/pages/CompanyNotePage.tsx:148-164 | after a failed insert the steps are unchanged; otherwise they are the old steps plus the stored one, reordered |
| CompanyNotePage.EventPairOrder | src/pages/CompanyNotePage.tsx:156-160 | two dated steps in comparator order have the earlier (or same) date first |
| CompanyNotePage.AddedEventsByDate | src/pages/CompanyNotePage.tsx:156-160 | after an add the dated steps run from the earliest `deadline_date || start_date` to the latest |
| CompanyNotePage.UpdateEvent | src/pages/CompanyNotePage.tsx:166-175 | after a successful update only the step with the id takes the edited fields, in place; a failed one changes nothing |
| CompanyNotePage.DeleteEvent | src/pages/CompanyNotePage.tsx:177-186 | after a successful delete the result is `RemoveWhere` of the list: exactly the steps with other ids remain, in their order and multiplicity; a failed one changes nothing |
| CompanyNotePage.DeleteAfterUpdate | src/pages/CompanyNotePage.tsx:166-186 | deleting a step after updating it is the same as deleting it at once |
| CompanyNotePage.SortedProgressOrdered | src/pages/CompanyNotePage.tsx:196-200 | a list sorted by the comparator runs from the latest passed date, later creations first on a tie |
| CompanyNotePage.AddProgress | src/pages/CompanyNotePage.tsx:188-202 | after a successful insert the entries are the stored one plus the old ones, newest passed date first, newest creation first on a tie |
| CompanyNotePage.UpdateProgress | src/pages/CompanyNotePage.tsx:204-218 | after a successful update the entries are the patched list, re-sorted the same way; a failed one changes nothing |
| CompanyNotePage.DeleteProgress | src/pages/CompanyNotePage.tsx:220-229 | after a successful delete the result is `RemoveWhere` of the list: exactly the entries with other ids remain, in their order and multiplicity; a failed one changes nothing |
| CompanyNotePage.AddStored | src/pages/CompanyNotePage.tsx:115-126 | a stored memo (and, by `handleAddSite` at CompanyNotePage.tsx:231-245, a stored site) goes in front of the others, which keep their order; a failed insert changes nothing |
| CompanyNotePage.UpdateMemo | src/pages/CompanyNotePage.tsx:128-138 | only the memo with the id takes the changes, in place |
| CompanyNotePage.SoftDeleteRestore | src/pages/CompanyNotePage.tsx:140-146 | deleting a memo only marks it, keeping its place; restoring it gives back the list as it was |
| CompanyNotePage.DeleteMemo | src/pages/CompanyNotePage.tsx:140-142 | after a successful delete the memo with the id is marked deleted in its place and nothing else changes |
| CompanyNotePage.RestoreMemo | src/pages/CompanyNotePage.tsx:144-146 | after a successful restore the memo with the id is unmarked in its place and nothing else changes |
| CompanyNotePage.UpdateSite | src/pages/CompanyNotePage.tsx:247-260 | the site with the edited site's id is replaced by it, in place |
| CompanyNotePage.DeleteSite | src/pages/CompanyNotePage.tsx:262-271 | after a successful delete the result is `RemoveWhere` of the list: exactly the sites with other ids remain, in their order and multiplicity; a failed one changes nothing |
| CompanyNotePage.AddThenDeleteSite | src/pages/CompanyNotePage.tsx:231-271 | adding a site with a new id and deleting it gives back the list |
| CompaniesList.NoteIndex | src/pages/CompaniesListPage.tsx:61 | every note id is a key, every key maps to the company of a note with that id, and the final note wins |
| CompaniesList.NoteIndexLastWins | src/pages/CompaniesListPage.tsx:61 | for every note id, the company recorded is that of the last note carrying the id |
| CompaniesList.LatestProgress | src/pages/CompaniesListPage.tsx:64-74 | the `forEach` loop builds exactly the specification's grouping |
| CompaniesList.GroupedIsLatest | src/pages/CompaniesListPage.tsx:66-74 | each company kept has an entry of its own from the input, and no entry of it was created later |
| CompaniesList.GroupedKeepsFirst | src/pages/CompaniesListPage.tsx:71 | among a company's entries created at the same latest time, the first visited is kept (the comparison is strict) |
| CompaniesList.Combine | src/pages/CompaniesListPage.tsx:77-86 | each company keeps its place and has a summary exactly when an entry was kept for it, made of that entry's track and stage |
| CompaniesList.WithoutProgress | src/pages/CompaniesListPage.tsx:43-45 | the companies are listed without summaries |
| CompaniesList.FetchCompanies | src/pages/CompaniesListPage.tsx:27-89 | a failed company query leaves the list; a failed note or progress query lists the companies without summaries; otherwise each company with its latest entry's summary |
| CompaniesList.FetchedSummaries | src/pages/CompaniesListPage.tsx:61-86 | after a full fetch a company has a summary exactly when one of its notes has progress, and it is that of an entry of the company created last |
| CompaniesList.Search | src/pages/CompaniesListPage.tsx:128-130 | exactly the companies whose lower-cased name includes the lower-cased query are listed |
| CompaniesList.EmptyQueryKeepsAll | src/pages/CompaniesListPage.tsx:128-130 | an empty query lists every company, in order |
| CompaniesList.SearchIgnoresCase | src/pages/CompaniesListPage.tsx:128-130 | searching for the lower-cased query gives the same list |
| CompaniesList.NameToInsert | src/pages/CompaniesListPage.tsx:91-97 | nothing is inserted for a blank name; otherwise the trimmed name is |
| CompaniesList.AddCompany | src/pages/CompaniesListPage.tsx:91-109 | a stored company goes in front without summary and the form is cleared and closed; a blank name or a failed insert changes nothing |
| CompaniesList.DeleteCompany | src/pages/CompaniesListPage.tsx:111-126 | only when confirmed and successful the result is `RemoveWhere` of the list: exactly the companies with other ids remain, in their order and multiplicity |
| CompaniesList.AddThenDelete | src/pages/CompaniesListPage.tsx:91-126 | deleting a company just added with a new id gives back the list |
| ReferenceSites.AddNewSite | src/components/jobhunting/ReferenceSitesBlock.tsx:23-30 | with both inputs filled the trimmed name and URL are handed over and the inputs cleared; otherwise nothing happens |
| ReferenceSites.EditSite | src/components/jobhunting/ReferenceSitesBlock.tsx:32-36 | the inputs take the site's name and URL and the site is being edited |
| ReferenceSites.UpdateSite | src/components/jobhunting/ReferenceSitesBlock.tsx:38-49 | with a site being edited and both inputs filled that site is handed over with the trimmed values and the form cleared; otherwise nothing happens |
| ReferenceSites.Cancel | src/components/jobhunting/ReferenceSitesBlock.tsx:51-56 | the form is closed and its inputs cleared |
| ReferenceSites.EditThenUpdateUnchanged | src/components/jobhunting/ReferenceSitesBlock.tsx:32-49 | editing a site and saving untouched inputs hands back the same site |
| ReferenceSites.UpdateIsStable | src/components/jobhunting/ReferenceSitesBlock.tsx:38-49 | saving the same edit again hands over the same site |
| ReferenceSites.OpenUrl | src/components/jobhunting/ReferenceSitesBlock.tsx:58-63 | nothing opens for an empty URL; a URL starting with `http` opens as it is, any other with `https://` in front |
| ReferenceSites.OpenUrlIdempotent | src/components/jobhunting/ReferenceSitesBlock.tsx:58-63 | completing a completed address changes nothing |
| CompanyMemos.MemoForCategory | src/components/jobhunting/CompanyMemosBlock.tsx:28-30 | the memo found is a live memo of the category, and there is none exactly when no live memo has it |
| CompanyMemos.MemoForCategoryIsFirst | src/components/jobhunting/CompanyMemosBlock.tsx:28-30 | the memo found is the first live one of the category |
| CompanyMemos.CustomMemos | src/components/jobhunting/CompanyMemosBlock.tsx:32-34 | exactly the live memos of the categories outside the three fixed ones, as an order-keeping filter of the list (`FilterConcat`, `FilterMultiset`) |
| CompanyMemos.Tiles | src/components/jobhunting/CompanyMemosBlock.tsx:12 | one tile per fixed category, in the fixed order, each opening that category's memo |
| CompanyMemos.TilesAndCustomsSplit | src/components/jobhunting/CompanyMemosBlock.tsx:12-34 | no memo appears both behind a tile and among the custom ones, and every live memo is of a fixed category or listed |
| CompanyMemos.AddNewMemo | src/components/jobhunting/CompanyMemosBlock.tsx:36-42 | a title other than white space is handed over trimmed and the form reset; a blank one changes nothing |
| CustomFields.AddField | src/components/jobhunting/CustomFieldsBlock.tsx:21-24 | an empty field is appended only while fewer than four exist |
| CustomFields.AddingStaysBounded | src/components/jobhunting/CustomFieldsBlock.tsx:21-24 | however often "add" is pressed the list never passes four fields (or its own longer length) and what was there stays in front |
| CustomFields.SetField | src/components/jobhunting/CustomFieldsBlock.tsx:30-38 | only the chosen key of the chosen field changes |
| CustomFields.SetFieldTwice | src/components/jobhunting/CustomFieldsBlock.tsx:30-38 | writing a key twice keeps only the second write |
| CustomFields.CustomFieldsBlock.constructor | src/components/jobhunting/CustomFieldsBlock.tsx:12-14 | the block opens on the note's fields (none when absent), not editing |
| CustomFields.CustomFieldsBlock.Add | src/components/jobhunting/CustomFieldsBlock.tsx:21-24 | the fields become `AddField` of the old ones |
| CustomFields.CustomFieldsBlock.Remove | src/components/jobhunting/CustomFieldsBlock.tsx:26-28 | the field at the index is removed |
| CustomFields.CustomFieldsBlock.Update | src/components/jobhunting/CustomFieldsBlock.tsx:30-38 | one key of one field is set |
| CustomFields.CustomFieldsBlock.HeaderButton | src/components/jobhunting/CustomFieldsBlock.tsx:45 | in edit mode (`handleSave`, lines 16-19) the custom fields are saved and edit mode ends; otherwise edit mode starts and nothing is saved |
| CustomFields.BasicInfoBlock.constructor | src/components/jobhunting/BasicInfoBlock.tsx:12-25 | the block opens on the note's fixed and custom fields, with the dialog closed |
| CustomFields.BasicInfoBlock.Add | src/components/jobhunting/BasicInfoBlock.tsx:35-38 | the custom fields become `AddField` of the old ones |
| CustomFields.BasicInfoBlock.Remove | src/components/jobhunting/BasicInfoBlock.tsx:40-42 | the custom field at the index is removed |
| CustomFields.BasicInfoBlock.Update | src/components/jobhunting/BasicInfoBlock.tsx:44-52 | one key of one custom field is set |
| CustomFields.BasicInfoBlock.Save | src/components/jobhunting/BasicInfoBlock.tsx:27-33 | the fixed and custom fields are handed over together and the dialog closes |

## Left out

- Storage calls (Supabase queries, inserts, updates and deletes) are not modelled. Their results and error flags are parameters, and only the list updates that follow them are modelled.
- The follow-up inserts whose results the page ignores are left out. These are the company note row created with a new company and the preparation-date delete before an update.
- Browser APIs are left out: `Notification`, the permission request, the service worker and `setTimeout` itself. The model stops at the delays computed. Also left out are `cancelEventNotifications`, `showNotification`, `window.open` (the model returns the address), `confirm` (a parameter), `localStorage`, the clipboard and the DOM.
- Time zones and daylight saving are left out. A day is 1440 minutes. `new Date('YYYY-MM-DD')` is read as a local date, so its UTC parsing and the day shift it causes west of UTC are not modelled. This includes `isCompleted`, which compares a date-only string parsed as UTC with a local midnight.
- Each handler reads the clock once, as a `now`/`today` parameter, where the source may call `new Date()` more than once.
- Invalid dates (`NaN` times) are left out. The sort comparators are meaningless on them, so `CompanyNotePage.AddedEventsByDate` and the progress ordering require dated entries.
- `Text.Lower` lower-cases only the ASCII letters. Other scripts' case mappings are not modelled.
- `DateFormat.DateOnlyRoundTrip` and `DateFormat.DateTimeLocalRoundTrip` are stated for four-digit years. `DateFormat.Decimal` has no sign, so negative years are not modelled.
- The random ids (`crypto.randomUUID`) that `handleSave` gives saved preparation dates are left out: a saved preparation date has no id field.
- Aliasing is left out: preparation-slot edits and `newFields[index][key] = value` assign into objects shared with the previous state's shallow copy. The model gives the new list value semantics.
- The recurrence fields `recurrence_days`, `recurrence_monthly_type`, `recurrence_monthly_day` and `recurrence_monthly_weekday` are edited and stored but never evaluated by the app, so the evaluator gives them no meaning. A `custom` rule never occurs.
- Negative recurrence intervals and end counts cannot be entered, and are not modelled: an interval or count is a natural number, with 0 standing for "absent".
- `RecurrenceEditor.ToggleDay` sorts numerically. The source's `.sort()` compares the indices as strings, which gives the same order for 0..6.
- `handleAllDayToggle` of the event editor is not modelled. Its round trip through ISO strings is treated as keeping the date.
- SelectionTab's progress form (`handleAddProgress`, `handleUpdateProgress` and their inputs) is modelled only by the page-level reducers in `CompanyNotePage`.
- `handleUpdateNote`, the memo editor page and its autosave are outside this model.
- Rendering is left out: JSX, colours and the per-modal drag-to-close gesture. `LabelEditor.Close` only resets that gesture's state. Presentational files (header, navigation, pickers, detail modal, tabs) and the basic information block's fixed-field inputs and dialog toggling are also left out.
- `getPreviewText` of the memo block reads the DOM and is not modelled.

=== FILE: add_event.dfy ===
/**
 * The event editor (`AddEventModal`): keeping the length of an event when its
 * start moves, the list of preparation slots edited in place, and the record
 * `handleSave` hands on.  A `datetime-local` input is represented by the local
 * minute it denotes (`None` for an empty input); in all-day mode the start and
 * end inputs hold a day number instead.
 */
module AddEvent {
  import opened Wrappers
  import opened Lists
  import RecurrenceEditor
  import Notifications

  /**
   * `handleStartDateChange`: the start takes the new value; for a timed event
   * with a new start the end follows it, keeping the old length when both old
   * values were set and one hour after the start otherwise.  Returns the new
   * start and end.
   */
  function StartDateChange(allDay: bool, start: Option<int>, end: Option<int>, newStart: Option<int>): (r: (Option<int>, Option<int>))
    ensures r.0 == newStart
    ensures allDay || newStart.None? ==> r.1 == end
    ensures !allDay && newStart.Some? ==> r.1.Some?
  {
    if !allDay && newStart.Some? then
      if end.Some? && start.Some? then
        var durationMinutes := end.value - start.value;
        (newStart, Some(newStart.value + durationMinutes))
      else
        (newStart, Some(newStart.value + 60))
    else (newStart, end)
  }

  /**
   * Moving the start of a timed event keeps its length when both ends were set,
   * and otherwise gives it a length of one hour; moving it twice ends where
   * moving it once to the final start would.
   */
  lemma StartChangeKeepsDuration(start: Option<int>, end: Option<int>, s1: int, s2: int)
    ensures var r := StartDateChange(false, start, end, Some(s1));
      r.1.value - r.0.value == if start.Some? && end.Some? then end.value - start.value else 60
    ensures var r := StartDateChange(false, start, end, Some(s1));
      StartDateChange(false, r.0, r.1, Some(s2)) == StartDateChange(false, start, end, Some(s2))
  {
  }

  /** An all-day event's end is untouched by a start change, whatever the new start. */
  lemma AllDayStartChange(start: Option<int>, end: Option<int>, newStart: Option<int>)
    ensures StartDateChange(true, start, end, newStart) == (newStart, end)
  {
  }

  /** One preparation slot being edited: start, end, title and the remembered length in minutes (0 when unset). */
  datatype Draft = Draft(date: Option<int>, endDate: Option<int>, title: string, timeDiff: int)

  /** `timeDiff || 60`. */
  function DiffOrDefault(timeDiff: int): (m: int)
    ensures timeDiff != 0 ==> m == timeDiff
    ensures timeDiff == 0 ==> m == 60
  {
    if timeDiff != 0 then timeDiff else 60
  }

  /** The start of the hour that contains `now` (`setMinutes(0, 0, 0)`). */
  function HourStart(now: int): (h: int)
    ensures h <= now < h + 60 && h % 60 == 0
  {
    now - now % 60
  }

  /** The slot the plus button adds: from the current hour for an hour, titled with the event's title. */
  function NewDraft(now: int, eventTitle: string): (d: Draft)
    ensures d.date.Some? && d.endDate.Some? && d.endDate.value == d.date.value + d.timeDiff
    ensures d.timeDiff == 60 && d.title == eventTitle
    ensures d.date.value <= now < d.date.value + 60
  {
    var startTime := HourStart(now);
    Draft(Some(startTime), Some(startTime + 60), eventTitle, 60)
  }

  /** A slot after its start input changed to `value`. */
  function WithStart(d: Draft, value: Option<int>): (r: Draft)
    ensures r.date == value && r.title == d.title && r.timeDiff == d.timeDiff
    ensures value.Some? ==> r.endDate == Some(value.value + DiffOrDefault(d.timeDiff))
    ensures value.None? ==> r.endDate == d.endDate
  {
    if value.Some? then Draft(value, Some(value.value + DiffOrDefault(d.timeDiff)), d.title, d.timeDiff)
    else d.(date := value)
  }

  /** A slot after its end input changed to `value`: the length is remembered only when it is positive. */
  function WithEnd(d: Draft, value: Option<int>): (r: Draft)
    ensures r.endDate == value && r.date == d.date && r.title == d.title
    ensures value.Some? && d.date.Some? && value.value - d.date.value > 0 ==> r.timeDiff == value.value - d.date.value
    ensures !(value.Some? && d.date.Some? && value.value - d.date.value > 0) ==> r.timeDiff == d.timeDiff
  {
    var d' := d.(endDate := value);
    if value.Some? && d'.date.Some? then
      var diff := value.value - d'.date.value;
      if diff > 0 then d'.(timeDiff := diff) else d'
    else d'
  }

  /**
   * Setting an end after the start and then moving the start carries the same
   * length along; an end at or before the start leaves the remembered length
   * (or the one-hour default) in force.
   */
  lemma EndThenStartKeepsLength(d: Draft, end: int, newStart: int)
    requires d.date.Some?
    ensures var r := WithStart(WithEnd(d, Some(end)), Some(newStart));
      r.endDate.value - r.date.value ==
        if end > d.date.value then end - d.date.value else DiffOrDefault(d.timeDiff)
  {
  }

  /** A fresh slot moved to a new start keeps its one-hour length. */
  lemma NewDraftLength(now: int, title: string, newStart: int)
    ensures WithStart(NewDraft(now, title), Some(newStart)).endDate == Some(newStart + 60)
  {
  }

  /** The preparation slots of the open editor, edited in place. */
  class PreparationDrafts {
    var drafts: seq<Draft>

    constructor ()
      ensures drafts == []
    {
      drafts := [];
    }

    /** The plus button: append a slot for the current hour. */
    method Add(now: int, eventTitle: string)
      modifies this
      ensures drafts == old(drafts) + [NewDraft(now, eventTitle)]
    {
      var startTime := now - now % 60;
      var endTime := startTime + 60;
      drafts := drafts + [Draft(Some(startTime), Some(endTime), eventTitle, 60)];
    }

    /** The bin button of slot `index`. */
    method Remove(index: nat)
      requires index < |drafts|
      modifies this
      ensures |drafts| == |old(drafts)| - 1
      ensures drafts == old(drafts[..index] + drafts[index + 1..])
    {
      drafts := drafts[..index] + drafts[index + 1..];
    }

    /** The title input of slot `index`. */
    method EditTitle(index: nat, title: string)
      requires index < |drafts|
      modifies this
      ensures drafts == old(drafts)[index := old(drafts)[index].(title := title)]
    {
      var d := drafts[index];
      d := d.(title := title);
      drafts := drafts[index := d];
    }

    /** The start input of slot `index`: a non-empty start moves the end along. */
    method EditStart(index: nat, value: Option<int>)
      requires index < |drafts|
      modifies this
      ensures drafts == old(drafts)[index := WithStart(old(drafts)[index], value)]
    {
      var d := drafts[index];
      d := d.(date := value);
      if value.Some? {
        var timeDiff := if d.timeDiff != 0 then d.timeDiff else 60;
        d := d.(endDate := Some(value.value + timeDiff));
      }
      drafts := drafts[index := d];
    }

    /** The end input of slot `index`: a positive new length is remembered. */
    method EditEnd(index: nat, value: Option<int>)
      requires index < |drafts|
      modifies this
      ensures drafts == old(drafts)[index := WithEnd(old(drafts)[index], value)]
    {
      var d := drafts[index];
      d := d.(endDate := value);
      if value.Some? && d.date.Some? {
        var diff := value.value - d.date.value;
        if diff > 0 {
          d := d.(timeDiff := diff);
        }
      }
      drafts := drafts[index := d];
    }
  }

  /** The editor's fields at the moment of saving. */
  datatype Form = Form(
    title: string,
    eventType: string,
    colorId: string,
    allDay: bool,
    start: Option<int>,
    end: Option<int>,
    companyName: string,
    hasDeadline: bool,
    deadlineAt: string,
    meetingUrl: string,
    location: string,
    memo: string,
    recurrence: RecurrenceEditor.RecurrenceConfig,
    notifications: seq<Notifications.NotificationConfig>,
    drafts: seq<Draft>)

  /** A saved `PreparationDate` (its random id left out). */
  datatype SavedPrep = SavedPrep(eventId: string, date: int, endDate: Option<int>, title: string)

  /** The event record `handleSave` assembles; optional text fields are `None` when left blank. */
  datatype EventData = EventData(
    title: string,
    startAt: int,
    endAt: int,
    allDay: bool,
    colorId: string,
    eventType: Option<string>,
    companyName: Option<string>,
    deadlineAt: Option<string>,
    meetingUrl: Option<string>,
    location: Option<string>,
    memo: Option<string>,
    recurrence: RecurrenceEditor.RecurrenceConfig,
    notifications: seq<Notifications.NotificationConfig>,
    preps: seq<SavedPrep>)

  /** `onSave(eventData)` for a new event, `onUpdate({...eventData, id})` for an edited one. */
  datatype SaveAction = Create(data: EventData) | Update(id: string, data: EventData)

  /** `s || undefined`. */
  function OrUndefined(s: string): (r: Option<string>)
    ensures r.None? <==> s == ""
    ensures r.Some? ==> r.value == s
  {
    if s == "" then None else Some(s)
  }

  /** The slots with a start, in their order (`filter(d => d.date)`). */
  function Dated(drafts: seq<Draft>): seq<Draft> {
    Filter(drafts, (d: Draft) => d.date.Some?)
  }

  /** The `map` that turns a kept slot into a saved preparation date. */
  function SavePrep(d: Draft, eventId: string, eventTitle: string): SavedPrep
    requires d.date.Some?
  {
    SavedPrep(eventId, d.date.value, d.endDate, if d.title != "" then d.title else eventTitle)
  }

  function SavePreps(kept: seq<Draft>, eventId: string, eventTitle: string): (r: seq<SavedPrep>)
    requires forall d | d in kept :: d.date.Some?
    ensures |r| == |kept|
    ensures forall k | 0 <= k < |r| :: r[k] == SavePrep(kept[k], eventId, eventTitle)
  {
    if kept == [] then [] else [SavePrep(kept[0], eventId, eventTitle)] + SavePreps(kept[1..], eventId, eventTitle)
  }

  /**
   * `handleSave`: nothing without a title, a start, an end and a colour;
   * otherwise the assembled record, sent as an update when an event with an id
   * is being edited and an update handler exists.
   */
  function HandleSave(f: Form, editingId: Option<string>, hasOnUpdate: bool): (r: Option<SaveAction>)
    ensures r.None? <==> f.title == "" || f.start.None? || f.end.None? || f.colorId == ""
    ensures r.Some? ==> (r.value.Update? <==> editingId.Some? && editingId.value != "" && hasOnUpdate)
  {
    if f.title == "" || f.start.None? || f.end.None? || f.colorId == "" then None
    else
      var eventId := if editingId.Some? then editingId.value else "";
      var data := EventData(
        f.title, f.start.value, f.end.value, f.allDay, f.colorId,
        OrUndefined(f.eventType), OrUndefined(f.companyName),
        if f.hasDeadline && f.deadlineAt != "" then Some(f.deadlineAt) else None,
        OrUndefined(f.meetingUrl), OrUndefined(f.location), OrUndefined(f.memo),
        f.recurrence, f.notifications,
        SavePreps(Dated(f.drafts), eventId, f.title));
      if editingId.Some? && editingId.value != "" && hasOnUpdate then Some(Update(editingId.value, data))
      else Some(Create(data))
  }

  /**
   * What a save records: the deadline only when the toggle is on and a date is
   * given; one preparation date per slot with a start, in order, titled with the
   * slot's title or else the event's, and tied to the edited event's id.
   */
  lemma SavedRecord(f: Form, editingId: Option<string>, hasOnUpdate: bool)
    requires HandleSave(f, editingId, hasOnUpdate).Some?
    ensures var data := HandleSave(f, editingId, hasOnUpdate).value.data;
      && data.title == f.title && data.startAt == f.start.value && data.endAt == f.end.value
      && (data.deadlineAt.Some? <==> f.hasDeadline && f.deadlineAt != "")
      && (data.deadlineAt.Some? ==> data.deadlineAt.value == f.deadlineAt)
      && |data.preps| == |Dated(f.drafts)|
      && forall k | 0 <= k < |data.preps| ::
        && Dated(f.drafts)[k].date == Some(data.preps[k].date)
        && data.preps[k].endDate == Dated(f.drafts)[k].endDate
        && data.preps[k].title == (if Dated(f.drafts)[k].title == "" then f.title else Dated(f.drafts)[k].title)
        && data.preps[k].eventId == (if editingId.Some? then editingId.value else "")
  {
    var kept := Dated(f.drafts);
    forall k | 0 <= k < |kept| ensures kept[k].date.Some? {
      assert kept[k] in kept;
    }
  }
}

=== FILE: app_state.dfy ===
/**
 * The calendar state kept by the top-level component (`App`): the colour maps
 * derived from the presets, which event a click on a listed entry selects, and
 * the event list after a save, an update or a delete reported by storage.
 */
module AppState {
  import opened Wrappers
  import opened Lists
  import opened EditLabels
  import opened DayOccurrences

  /** The `{ color, label }` value of `colorMapWithLabel`. */
  datatype ColorLabel = ColorLabel(color: string, caption: string)

  /** What the `reduce` leaves for `presets` and the value `value` it stores per preset. */
  function Index<V>(presets: seq<ColorPreset>, value: ColorPreset -> V): map<string, V> {
    if presets == [] then map[]
    else
      var last := presets[|presets| - 1];
      Index(presets[..|presets| - 1], value)[last.id := value(last)]
  }

  /** The `reduce` over the presets that assigns `acc[preset.id]` in turn. */
  method BuildIndex<V>(presets: seq<ColorPreset>, value: ColorPreset -> V) returns (acc: map<string, V>)
    ensures acc == Index(presets, value)
  {
    acc := map[];
    for i := 0 to |presets|
      invariant acc == Index(presets[..i], value)
    {
      assert presets[..i + 1][..i] == presets[..i];
      acc := acc[presets[i].id := value(presets[i])];
    }
    assert presets[..|presets|] == presets;
  }

  /** `colorMap`. */
  method ColorMap(presets: seq<ColorPreset>) returns (m: map<string, string>)
    ensures m == Index(presets, (p: ColorPreset) => p.color)
  {
    m := BuildIndex(presets, (p: ColorPreset) => p.color);
  }

  /** `colorMapWithLabel`. */
  method ColorMapWithLabel(presets: seq<ColorPreset>) returns (m: map<string, ColorLabel>)
    ensures m == Index(presets, (p: ColorPreset) => ColorLabel(p.color, p.caption))
  {
    m := BuildIndex(presets, (p: ColorPreset) => ColorLabel(p.color, p.caption));
  }

  /**
   * Every preset id is a key, and nothing else is; the value stored for an id
   * is that of the last preset carrying it.
   */
  lemma {:induction false} IndexIsLastWins<V>(presets: seq<ColorPreset>, value: ColorPreset -> V)
    ensures forall id :: id in Index(presets, value) <==> exists p | p in presets :: p.id == id
    ensures forall k | 0 <= k < |presets| && (forall j | k < j < |presets| :: presets[j].id != presets[k].id) ::
      Index(presets, value)[presets[k].id] == value(presets[k])
  {
    if presets != [] {
      var init := presets[..|presets| - 1];
      IndexIsLastWins(init, value);
      assert presets == init + [presets[|presets| - 1]];
      forall k | 0 <= k < |presets| - 1 && (forall j | k < j < |presets| :: presets[j].id != presets[k].id)
        ensures Index(presets, value)[presets[k].id] == value(presets[k])
      {
        assert init[k] == presets[k];
      }
    }
  }

  /** What a click shows: a stored event, or the clicked entry itself. */
  datatype Selection = Stored(event: Event) | Shown(entry: Entry)

  function HasId(id: string): Event -> bool {
    (e: Event) => e.id == id
  }

  /** `handleEventClick`. */
  function EventClick(events: seq<Event>, clicked: Entry): (r: Selection)
    ensures r.Stored? <==> (
      && clicked.originalId.Some? && clicked.originalId.value != ""
      && exists e | e in events :: e.id == clicked.originalId.value)
    ensures r.Stored? ==> r.event in events && r.event.id == clicked.originalId.value
    ensures r.Shown? ==> r.entry == clicked
  {
    if clicked.originalId.Some? && clicked.originalId.value != "" then
      match Find(events, HasId(clicked.originalId.value))
      case Some(e) => Stored(e)
      case None => Shown(clicked)
    else Shown(clicked)
  }

  /** The stored event a click selects is the first one with the id, as `find` returns. */
  lemma EventClickIsFirst(events: seq<Event>, clicked: Entry)
    requires EventClick(events, clicked).Stored?
    ensures exists k | 0 <= k < |events| ::
      && events[k] == EventClick(events, clicked).event
      && forall j | 0 <= j < k :: events[j].id != clicked.originalId.value
  {
    FindIsFirst(events, HasId(clicked.originalId.value));
  }

  /**
   * Clicking a preparation or deadline entry of the day sheet selects the event
   * it was made from, when that event is stored and no other stored event has
   * its id.
   */
  lemma ClickFindsOrigin(events: seq<Event>, e: Event, clicked: Entry)
    requires e in events && e.id != ""
    requires forall x | x in events && x.id == e.id :: x == e
    requires (exists p :: clicked == PrepEntry(e, p, true))
      || (e.deadline.Some? && clicked == DeadlineEntry(e, true))
    ensures EventClick(events, clicked) == Stored(e)
  {
  }

  /** What the storage calls return when an event is saved. */
  function WithPreps(e: Event, given: seq<PrepDate>, inserted: Option<seq<PrepDate>>): (r: Event)
    ensures r.preps == if given == [] then [] else inserted.GetOr([])
    ensures r.(preps := e.preps) == e
  {
    e.(preps := if given == [] then [] else inserted.GetOr([]))
  }

  /**
   * `handleSaveEvent`: `stored` is the row the insert returned (`None` on an
   * error), `given` the preparation dates of the form and `inserted` the rows
   * their insert returned.  One event is appended.
   */
  function SaveEvent(events: seq<Event>, stored: Option<Event>, given: seq<PrepDate>, inserted: Option<seq<PrepDate>>): (r: seq<Event>)
    ensures stored.None? ==> r == events
    ensures stored.Some? ==> |r| == |events| + 1 && r[..|events|] == events
    ensures stored.Some? ==> r[|events|] == WithPreps(stored.value, given, inserted)
    ensures stored.Some? && given == [] ==> r[|events|].preps == []
  {
    if stored.Some? then events + [WithPreps(stored.value, given, inserted)] else events
  }

  /**
   * `handleUpdateEvent`: after a successful update the event with the id is
   * replaced by the updated one (with the re-inserted preparation dates), and
   * that event becomes the selected one.
   */
  function UpdateEvent(ok: bool, events: seq<Event>, updated: Event, inserted: Option<seq<PrepDate>>): (r: (seq<Event>, Option<Event>))
    ensures !ok ==> r == (events, None)
    ensures ok ==> r.1 == Some(WithPreps(updated, updated.preps, inserted))
    ensures ok ==> |r.0| == |events|
    ensures ok ==> forall k | 0 <= k < |events| ::
      r.0[k] == if events[k].id == updated.id then WithPreps(updated, updated.preps, inserted) else events[k]
  {
    if ok then
      var final := WithPreps(updated, updated.preps, inserted);
      (UpdateWhere(events, updated.id, (e: Event) => e.id, (_: Event) => final), Some(final))
    else (events, None)
  }

  function IdOf(e: Event): string { e.id }

  /** `handleDeleteEvent`: the events with the id go and the rest keep their order. */
  function DeleteEvent(ok: bool, events: seq<Event>, id: string): (r: seq<Event>)
    ensures !ok ==> r == events
    ensures ok ==> r == RemoveWhere(events, id, IdOf)
    ensures ok ==> forall e | e in r :: e in events && e.id != id
    ensures ok ==> forall e | e in events && e.id != id :: e in r
  {
    if ok then RemoveWhere(events, id, IdOf) else events
  }

  /** An event saved and then deleted by its (new) id leaves the list as it was. */
  lemma SaveThenDelete(events: seq<Event>, stored: Event, given: seq<PrepDate>, inserted: Option<seq<PrepDate>>)
    requires forall e | e in events :: e.id != stored.id
    ensures DeleteEvent(true, SaveEvent(events, Some(stored), given, inserted), stored.id) == events
  {
    RemoveWhereConcat(events, [WithPreps(stored, given, inserted)], stored.id, IdOf);
    RemoveAbsent(events, stored.id, IdOf);
    RemoveWhereSingle(WithPreps(stored, given, inserted), stored.id, IdOf);
  }
}

=== FILE: arith.dfy ===
/** Facts about multiplication and Euclidean division that the solver does not find unaided. */
module Arith {

  lemma MulAtLeast(k: int, z: int)
    requires k >= 1 && z >= 1
    ensures k * z >= k
  {
    assert k * z == k * (z - 1) + k;
    assert k * (z - 1) >= 0;
  }

  /** Division is exact on a multiple. */
  lemma DivExact(a: int, k: int, t: int)
    requires k >= 1 && a == k * t
    ensures a / k == t && a % k == 0
  {
    var q, r := a / k, a % k;
    assert a == k * q + r && 0 <= r < k;
    var z := t - q;
    assert k * z == r;
    if z >= 1 {
      MulAtLeast(k, z);
    } else if z <= -1 {
      MulAtLeast(k, -z);
    }
  }

  /** `n` whole units fit below `d` exactly when `n` does not exceed the quotient. */
  lemma UnitsBelow(n: int, d: int, u: int)
    requires u >= 1 && n >= 0
    ensures n * u <= d <==> n <= d / u
  {
    var q, r := d / u, d % u;
    assert d == u * q + r && 0 <= r < u;
    if n <= q {
      assert u * q - u * n == u * (q - n);
      assert u * (q - n) >= 0;
    } else {
      MulAtLeast(u, n - q);
      assert u * n - u * q == u * (n - q);
    }
  }

  /** For a whole number of weeks: a multiple of `s` weeks is a multiple of `7 * s` days. */
  lemma WeeksMultiple(d: int, s: int)
    requires d >= 0 && s >= 1 && d % 7 == 0
    ensures (d / 7) % s == 0 <==> d % (7 * s) == 0
  {
    var q := d / 7;
    assert d == 7 * q;
    if q % s == 0 {
      var t := q / s;
      assert q == s * t;
      assert d == (7 * s) * t;
      DivExact(d, 7 * s, t);
    } else if d % (7 * s) == 0 {
      var t := d / (7 * s);
      assert d == (7 * s) * t;
      assert q == s * t;
      DivExact(q, s, t);
    }
  }

  /** A multiple of `s` whole weeks, counted in days, is a multiple of `7 * s` days, and conversely. */
  lemma WholeWeeksMultiple(d: int, s: int)
    requires d >= 0 && s >= 1
    ensures ((d / 7) % s == 0 && d % 7 == 0) <==> d % (7 * s) == 0
  {
    if d % 7 == 0 {
      WeeksMultiple(d, s);
    } else if d % (7 * s) == 0 {
      var t := d / (7 * s);
      DivExact(d, 7 * s, t);
      assert d == 7 * (s * t);
      DivExact(d, 7, s * t);
    }
  }

  /** Stepping from `y - 1` to `y` raises the quotient by `k` exactly when `y` is a multiple of `k`. */
  lemma DivStep(y: int, k: int)
    requires k >= 1
    ensures y / k - (y - 1) / k == if y % k == 0 then 1 else 0
  {
    if y % k == 0 {
      DivModUnique(y - 1, k, y / k - 1, k - 1);
    } else {
      DivModUnique(y - 1, k, y / k, y % k - 1);
    }
  }

  /** Quotient and remainder are the only such pair. */
  lemma DivModUnique(a: int, k: int, q: int, r: int)
    requires k >= 1 && a == k * q + r && 0 <= r < k
    ensures a / k == q && a % k == r
  {
    var q', r' := a / k, a % k;
    assert k * (q - q') == r' - r;
    if q - q' >= 1 {
      MulAtLeast(k, q - q');
    } else if q' - q >= 1 {
      MulAtLeast(k, q' - q);
    }
  }

  /** The clock reading `HH:MM` of a minute count: hours wrap at 24, and the whole days are what is left. */
  lemma ClockOfDay(total: int)
    requires total >= 0
    ensures (total / 60) % 24 * 60 + total % 60 == total % 1440
    ensures total == total / 1440 * 1440 + total % 1440
  {
    var h, m := total / 60, total % 60;
    var q, r := h / 24, h % 24;
    assert total == 1440 * q + (60 * r + m);
    DivModUnique(total, 1440, q, 60 * r + m);
  }
}

=== FILE: civil_dates.dfy ===
/**
 * Local calendar dates as the browser's `Date` object sees them once the time of
 * day is stripped: a year, a month (1..12 here, where JavaScript counts 0..11) and
 * a day of the month, in the proleptic Gregorian calendar.
 *
 * `Ordinal` numbers the days consecutively (0 is 0001-01-01), which is what
 * comparing two midnight `Date`s with `<` or subtracting their `getTime()` values
 * amounts to once daylight-saving shifts are ignored.
 *
 * `Normalize` is the overflow rule of the `Date(year, month, day)` constructor and
 * of `setDate`/`setMonth`/`setFullYear`: a day past the end of its month rolls
 * forward into the following months.
 */
module CivilDates {
  import Arith

  datatype Date = Date(year: int, month: int, day: int)

  predicate IsLeap(y: int) {
    y % 4 == 0 && (y % 100 != 0 || y % 400 == 0)
  }

  function DaysInMonth(y: int, m: int): (n: int)
    ensures 28 <= n <= 31
    ensures n == 31 <==> m != 2 && m != 4 && m != 6 && m != 9 && m != 11
  {
    if m == 2 then (if IsLeap(y) then 29 else 28)
    else if m == 4 || m == 6 || m == 9 || m == 11 then 30
    else 31
  }

  /** A date that names a real calendar day. */
  predicate Valid(d: Date) {
    1 <= d.month <= 12 && 1 <= d.day <= DaysInMonth(d.year, d.month)
  }

  /** Days in the years 1 .. y-1 (Euclidean division makes this hold for every y). */
  function DaysBeforeYear(y: int): int {
    365 * (y - 1) + (y - 1) / 4 - (y - 1) / 100 + (y - 1) / 400
  }

  /** Days in the months 1 .. m-1 of year y. */
  function DaysBeforeMonth(y: int, m: int): int
    requires 1 <= m <= 12
  {
    var table := [0, 31, 59, 90, 120, 151, 181, 212, 243, 273, 304, 334];
    table[m - 1] + (if m > 2 && IsLeap(y) then 1 else 0)
  }

  /** Consecutive day number; 0001-01-01 is day 0. */
  function Ordinal(d: Date): int
    requires 1 <= d.month <= 12
  {
    DaysBeforeYear(d.year) + DaysBeforeMonth(d.year, d.month) + d.day - 1
  }

  /** `getDay()`: 0 is Sunday .. 6 is Saturday (0001-01-01 was a Monday). */
  function Weekday(d: Date): (w: int)
    requires 1 <= d.month <= 12
    ensures 0 <= w < 7
  {
    (Ordinal(d) + 1) % 7
  }

  /** The weekday count is anchored in the real calendar: 1 January 2024 was a Monday. */
  lemma KnownMonday()
    ensures Weekday(Date(2024, 1, 1)) == 1
  {
  }

  /** Months counted consecutively, so that month offsets are plain differences. */
  function MonthIndex(d: Date): int {
    12 * d.year + d.month - 1
  }

  function NextMonth(y: int, m: int): (r: (int, int))
    requires 1 <= m <= 12
    ensures 1 <= r.1 <= 12
    ensures 12 * r.0 + r.1 == 12 * y + m + 1
  {
    if m == 12 then (y + 1, 1) else (y, m + 1)
  }

  lemma YearLength(y: int)
    ensures DaysBeforeYear(y + 1) == DaysBeforeYear(y) + (if IsLeap(y) then 366 else 365)
  {
    Arith.DivStep(y, 4);
    Arith.DivStep(y, 100);
    Arith.DivStep(y, 400);
    assert y % 400 == 0 ==> y % 100 == 0 && y % 4 == 0;
    assert y % 100 == 0 ==> y % 4 == 0;
  }

  /** The first day of the next month follows the last day of this one. */
  lemma MonthLength(y: int, m: int)
    requires 1 <= m <= 12
    ensures var n := NextMonth(y, m);
      Ordinal(Date(n.0, n.1, 1)) == Ordinal(Date(y, m, 1)) + DaysInMonth(y, m)
  {
    if m == 12 {
      YearLength(y);
    }
  }

  /** `a` is an earlier calendar day than `b`: by year, then month, then day. */
  predicate Before(a: Date, b: Date) {
    || a.year < b.year
    || (a.year == b.year && a.month < b.month)
    || (a.year == b.year && a.month == b.month && a.day < b.day)
  }

  lemma WithinYear(d: Date)
    requires Valid(d)
    ensures DaysBeforeYear(d.year) <= Ordinal(d) < DaysBeforeYear(d.year + 1)
  {
    YearLength(d.year);
  }

  lemma MonthsOrdered(y: int, m1: int, m2: int)
    requires 1 <= m1 < m2 <= 12
    ensures DaysBeforeMonth(y, m1) + DaysInMonth(y, m1) <= DaysBeforeMonth(y, m2)
  {
  }

  lemma {:induction false} YearsOrdered(y1: int, y2: int)
    requires y1 < y2
    ensures DaysBeforeYear(y1 + 1) <= DaysBeforeYear(y2)
    decreases y2 - y1
  {
    if y1 + 1 < y2 {
      YearsOrdered(y1 + 1, y2);
      YearLength(y1 + 1);
    }
  }

  lemma Earlier(a: Date, b: Date)
    requires Valid(a) && Valid(b) && Before(a, b)
    ensures Ordinal(a) < Ordinal(b)
  {
    if a.year < b.year {
      WithinYear(a);
      WithinYear(b);
      YearsOrdered(a.year, b.year);
    } else if a.month < b.month {
      MonthsOrdered(a.year, a.month, b.month);
    }
  }

  /**
   * Day numbers order dates as the calendar does, and name each day once:
   * comparing two midnights is comparing year, month and day in turn.
   */
  lemma OrdinalOrder(a: Date, b: Date)
    requires Valid(a) && Valid(b)
    ensures Ordinal(a) < Ordinal(b) <==> Before(a, b)
    ensures Ordinal(a) == Ordinal(b) <==> a == b
  {
    if Before(a, b) {
      Earlier(a, b);
    } else if Before(b, a) {
      Earlier(b, a);
    }
  }

  /**
   * `new Date(y, m, dd)` for a day `dd >= 1` that may run past the end of month m:
   * the surplus rolls into the following months.
   */
  function Normalize(y: int, m: int, dd: int): (r: Date)
    requires 1 <= m <= 12 && dd >= 1
    ensures Valid(r)
    ensures Ordinal(r) == Ordinal(Date(y, m, 1)) + dd - 1
    ensures 12 * y + m - 1 <= MonthIndex(r)
    ensures dd <= DaysInMonth(y, m) ==> r == Date(y, m, dd)
    decreases dd
  {
    if dd <= DaysInMonth(y, m) then Date(y, m, dd)
    else
      var n := NextMonth(y, m);
      MonthLength(y, m);
      Normalize(n.0, n.1, dd - DaysInMonth(y, m))
  }

  /** `d.setDate(d.getDate() + k)` for k >= 0. */
  function AddDays(d: Date, k: nat): (r: Date)
    requires Valid(d)
    ensures Valid(r)
    ensures Ordinal(r) == Ordinal(d) + k
  {
    Normalize(d.year, d.month, d.day + k)
  }

  /** `d.setMonth(d.getMonth() + n)`: same day of the month, rolling over when the target month is too short. */
  function ShiftMonths(d: Date, n: int): (r: Date)
    requires Valid(d)
    ensures Valid(r)
    ensures MonthIndex(d) + n <= MonthIndex(r) <= MonthIndex(d) + n + 1
    ensures d.day <= DaysInMonth(r.year, r.month) && MonthIndex(r) == MonthIndex(d) + n ==> r.day == d.day
    ensures var t := MonthIndex(d) + n; Ordinal(r) == Ordinal(Date(t / 12, t % 12 + 1, 1)) + d.day - 1
  {
    var target := MonthIndex(d) + n;
    var y, m := target / 12, target % 12 + 1;
    var r := Normalize(y, m, d.day);
    if d.day <= DaysInMonth(y, m) then r
    else
      MonthLength(y, m);
      var nx := NextMonth(y, m);
      assert r == Normalize(nx.0, nx.1, d.day - DaysInMonth(y, m));
      r
  }

  /** `d.setFullYear(d.getFullYear() + n)`: only 29 February can roll over (into 1 March). */
  function ShiftYears(d: Date, n: int): (r: Date)
    requires Valid(d)
    ensures Valid(r)
    ensures || (r.year == d.year + n && r.month == d.month && r.day == d.day)
            || (d.month == 2 && d.day == 29 && r == Date(d.year + n, 3, 1))
  {
    Normalize(d.year + n, d.month, d.day)
  }
}

=== FILE: companies_list.dfy ===
/**
 * The company list page (`CompaniesListPage`): the latest progress shown for
 * each company, the name search, and the list updates after adding or deleting
 * a company.  The rows the storage queries return are parameters, and so is
 * whether each query reported an error.
 */
module CompaniesList {
  import opened Wrappers
  import opened Lists
  import opened Text
  import opened CompanyTypes

  /** A row of `company_notes`: the note `id` belongs to the company `companyId`. */
  datatype Note = Note(id: string, companyId: string)

  /** The `{ trackType, stage }` summary shown under a company's name. */
  datatype Latest = Latest(track: Track, stage: string)

  /** `CompanyWithProgress`. */
  datatype Listed = Listed(company: Company, latest: Option<Latest>)

  /** `new Map(notes.map(n => [n.id, n.company_id]))`: a later note with the same id overwrites. */
  function NoteIndex(notes: seq<Note>): (r: map<string, string>)
    ensures forall n | n in notes :: n.id in r
    ensures forall id | id in r :: Note(id, r[id]) in notes
    ensures notes != [] ==> r[notes[|notes| - 1].id] == notes[|notes| - 1].companyId
  {
    if notes == [] then map[]
    else
      var last := notes[|notes| - 1];
      NoteIndex(notes[..|notes| - 1])[last.id := last.companyId]
  }

  /** For every note id, the company recorded is that of the last note with the id. */
  lemma {:induction false} NoteIndexLastWins(notes: seq<Note>)
    ensures forall k | 0 <= k < |notes| && (forall j | k < j < |notes| :: notes[j].id != notes[k].id) ::
      NoteIndex(notes)[notes[k].id] == notes[k].companyId
  {
    if notes != [] {
      var init := notes[..|notes| - 1];
      NoteIndexLastWins(init);
      forall k | 0 <= k < |notes| - 1 && (forall j | k < j < |notes| :: notes[j].id != notes[k].id)
        ensures NoteIndex(notes)[notes[k].id] == notes[k].companyId
      {
        assert init[k] == notes[k];
        assert forall j | k < j < |init| :: init[j] == notes[j];
      }
    }
  }

  /** The company a progress entry counts for: none when its note is unknown or maps to an empty id. */
  function Owner(index: map<string, string>, p: SelectionProgress): Option<string> {
    if p.noteId in index && index[p.noteId] != "" then Some(index[p.noteId]) else None
  }

  /**
   * The dictionary the `forEach` leaves after visiting `progress` in order: an
   * entry replaces the one kept for its company only when it was created strictly
   * later.
   */
  function Grouped(progress: seq<SelectionProgress>, index: map<string, string>): map<string, SelectionProgress> {
    if progress == [] then map[]
    else
      var m := Grouped(progress[..|progress| - 1], index);
      var p := progress[|progress| - 1];
      match Owner(index, p)
      case None => m
      case Some(c) => if c !in m || p.createdAt > m[c].createdAt then m[c := p] else m
  }

  /** The grouping loop of `fetchCompanies`. */
  method LatestProgress(progress: seq<SelectionProgress>, index: map<string, string>) returns (m: map<string, SelectionProgress>)
    ensures m == Grouped(progress, index)
  {
    m := map[];
    var i := 0;
    while i < |progress|
      invariant 0 <= i <= |progress|
      invariant m == Grouped(progress[..i], index)
    {
      assert progress[..i + 1][..i] == progress[..i];
      var p := progress[i];
      var owner := Owner(index, p);
      if owner.Some? {
        var c := owner.value;
        if c !in m || p.createdAt > m[c].createdAt {
          m := m[c := p];
        }
      }
      i := i + 1;
    }
    assert progress[..|progress|] == progress;
  }

  /**
   * Each company with a known entry gets one, taken from the input and
   * belonging to it, and no entry of that company was created later; companies
   * without entries get none.
   */
  lemma {:induction false} GroupedIsLatest(progress: seq<SelectionProgress>, index: map<string, string>)
    ensures var m := Grouped(progress, index);
      forall c | c in m :: m[c] in progress && Owner(index, m[c]) == Some(c)
    ensures var m := Grouped(progress, index);
      forall p | p in progress && Owner(index, p).Some? ::
        Owner(index, p).value in m && p.createdAt <= m[Owner(index, p).value].createdAt
  {
    if progress != [] {
      var init := progress[..|progress| - 1];
      GroupedIsLatest(init, index);
      assert progress == init + [progress[|progress| - 1]];
    }
  }

  /**
   * Among the entries of a company created at the latest time, the kept one is
   * the first visited: the comparison is strict.
   */
  lemma {:induction false} GroupedKeepsFirst(progress: seq<SelectionProgress>, index: map<string, string>, c: string)
    requires c in Grouped(progress, index)
    ensures exists k | 0 <= k < |progress| ::
      && progress[k] == Grouped(progress, index)[c]
      && forall j | 0 <= j < k && Owner(index, progress[j]) == Some(c) :: progress[j].createdAt < progress[k].createdAt
  {
    var init := progress[..|progress| - 1];
    var p := progress[|progress| - 1];
    var m := Grouped(init, index);
    var n := |progress| - 1;
    if Owner(index, p) == Some(c) && (c !in m || p.createdAt > m[c].createdAt) {
      forall j | 0 <= j < n && Owner(index, progress[j]) == Some(c)
        ensures progress[j].createdAt < p.createdAt
      {
        GroupedIsLatest(init, index);
        assert progress[j] == init[j] && init[j] in init;
      }
    } else {
      GroupedKeepsFirst(init, index, c);
      var k :| 0 <= k < |init| && init[k] == m[c]
        && forall j | 0 <= j < k && Owner(index, init[j]) == Some(c) :: init[j].createdAt < init[k].createdAt;
      assert progress[k] == m[c];
      assert forall j | 0 <= j < k :: progress[j] == init[j];
    }
  }

  /** `companies.map(...)` with the summary of each company's kept entry. */
  function Combine(companies: seq<Company>, latest: map<string, SelectionProgress>): (r: seq<Listed>)
    ensures |r| == |companies|
    ensures forall k | 0 <= k < |companies| :: r[k].company == companies[k]
    ensures forall k | 0 <= k < |companies| :: r[k].latest.Some? <==> companies[k].id in latest
    ensures forall k | 0 <= k < |companies| && companies[k].id in latest ::
      r[k].latest.value == Latest(latest[companies[k].id].track, latest[companies[k].id].stage)
  {
    if companies == [] then []
    else
      var c := companies[0];
      var head := if c.id in latest then Some(Latest(latest[c.id].track, latest[c.id].stage)) else None;
      [Listed(c, head)] + Combine(companies[1..], latest)
  }

  function WithoutProgress(companies: seq<Company>): (r: seq<Listed>)
    ensures |r| == |companies|
    ensures forall k | 0 <= k < |companies| :: r[k] == Listed(companies[k], None)
  {
    Combine(companies, map[])
  }

  /**
   * `fetchCompanies`: `None` when the company query fails (the list is left as
   * it was); the companies without summaries when the note or progress query
   * fails; otherwise each company with the summary of its latest entry.
   */
  method FetchCompanies(companies: Option<seq<Company>>, notes: Option<seq<Note>>, progress: Option<seq<SelectionProgress>>)
    returns (r: Option<seq<Listed>>)
    ensures companies.None? ==> r.None?
    ensures companies.Some? ==> r.Some? && |r.value| == |companies.value|
    ensures companies.Some? ==> forall k | 0 <= k < |companies.value| :: r.value[k].company == companies.value[k]
    ensures companies.Some? && (notes.None? || progress.None?) ==> forall k | 0 <= k < |r.value| :: r.value[k].latest.None?
    ensures companies.Some? && notes.Some? && progress.Some? ==>
      r == Some(Combine(companies.value, Grouped(progress.value, NoteIndex(notes.value))))
  {
    if companies.None? {
      return None;
    }
    if notes.None? || progress.None? {
      return Some(WithoutProgress(companies.value));
    }
    var latest := LatestProgress(progress.value, NoteIndex(notes.value));
    r := Some(Combine(companies.value, latest));
  }

  /**
   * What the page shows after a successful fetch: a company has a summary
   * exactly when one of its notes has progress, and the summary is that of an
   * entry of the company created last.
   */
  lemma FetchedSummaries(companies: seq<Company>, notes: seq<Note>, progress: seq<SelectionProgress>, k: int)
    requires 0 <= k < |companies|
    ensures var index := NoteIndex(notes);
      var r := Combine(companies, Grouped(progress, index));
      && (r[k].latest.Some? <==> exists p | p in progress :: Owner(index, p) == Some(companies[k].id))
      && (r[k].latest.Some? ==> exists p | p in progress ::
            && Owner(index, p) == Some(companies[k].id)
            && r[k].latest.value == Latest(p.track, p.stage)
            && forall q | q in progress && Owner(index, q) == Some(companies[k].id) :: q.createdAt <= p.createdAt)
  {
    var index := NoteIndex(notes);
    var m := Grouped(progress, index);
    var r := Combine(companies, m);
    var id := companies[k].id;
    GroupedIsLatest(progress, index);
    if id in m {
      var p := m[id];
      assert p in progress && Owner(index, p) == Some(id);
      assert companies[k].id in m && r[k].latest.Some?;
      assert r[k].latest.value == Latest(p.track, p.stage);
      forall q | q in progress && Owner(index, q) == Some(id) ensures q.createdAt <= p.createdAt {
        assert Owner(index, q).value == id;
      }
    }
  }

  /** The search: the lower-cased name contains the lower-cased query. */
  function Matches(query: string): Listed -> bool {
    (x: Listed) => Contains(Lower(x.company.name), Lower(query))
  }

  /** `filteredCompanies`. */
  function Search(companies: seq<Listed>, query: string): (r: seq<Listed>)
    ensures forall x | x in r :: x in companies && Contains(Lower(x.company.name), Lower(query))
    ensures forall x | x in companies && Contains(Lower(x.company.name), Lower(query)) :: x in r
  {
    Filter(companies, Matches(query))
  }

  /** An empty query keeps every company, in order. */
  lemma EmptyQueryKeepsAll(companies: seq<Listed>)
    ensures Search(companies, "") == companies
  {
    forall x | x in companies ensures Matches("")(x) {
      ContainsTrivial(Lower(x.company.name));
    }
    FilterAll(companies, Matches(""));
  }

  /** The search ignores the case of ASCII letters on both sides. */
  lemma SearchIgnoresCase(companies: seq<Listed>, query: string)
    ensures Search(companies, Lower(query)) == Search(companies, query)
  {
    LowerIdempotent(query);
  }

  /** The state `handleAddCompany` touches. */
  datatype AddState = AddState(companies: seq<Listed>, newName: string, showAdd: bool)

  /** The name inserted: the trimmed input, unless it is blank. */
  function NameToInsert(input: string): (r: Option<string>)
    ensures r.None? <==> Blank(input)
    ensures r.Some? ==> r.value == Trim(input)
  {
    TrimEmptyIffBlank(input);
    if Trim(input) == [] then None else Some(Trim(input))
  }

  /**
   * `handleAddCompany`: `stored` is the row the insert of `NameToInsert(s.newName)`
   * returned, `None` on an error.  A stored row goes first, without summary,
   * and the form is closed and cleared.
   */
  function AddCompany(s: AddState, stored: Option<Company>): (r: AddState)
    ensures NameToInsert(s.newName).None? || stored.None? ==> r == s
    ensures NameToInsert(s.newName).Some? && stored.Some? ==>
      r == AddState([Listed(stored.value, None)] + s.companies, "", false)
  {
    if NameToInsert(s.newName).None? then s
    else if stored.Some? then AddState([Listed(stored.value, None)] + s.companies, "", false)
    else s
  }

  function ListedId(x: Listed): string { x.company.id }

  /**
   * `handleDeleteCompany`: only once confirmed and when the delete reported no
   * error; the companies with the id go and the rest keep their order.
   */
  function DeleteCompany(confirmed: bool, ok: bool, companies: seq<Listed>, id: string): (r: seq<Listed>)
    ensures !(confirmed && ok) ==> r == companies
    ensures confirmed && ok ==> r == RemoveWhere(companies, id, ListedId)
    ensures confirmed && ok ==> forall x | x in r :: x in companies && x.company.id != id
    ensures confirmed && ok ==> forall x | x in companies && x.company.id != id :: x in r
  {
    if confirmed && ok then RemoveWhere(companies, id, ListedId) else companies
  }

  /** Deleting a company just added (with an id no listed company has) gives back the list. */
  lemma AddThenDelete(companies: seq<Listed>, c: Company)
    requires forall x | x in companies :: x.company.id != c.id
    ensures DeleteCompany(true, true, [Listed(c, None)] + companies, c.id) == companies
  {
    RemoveFresh(companies, Listed(c, None), c.id, ListedId);
  }
}

=== FILE: company_memos.dfy ===
/**
 * The preparation memo block (`CompanyMemosBlock`): one tile for each of the
 * three fixed categories, showing the first live memo of that category, then the
 * live memos of other categories, and a form that starts a memo with a new title.
 */
module CompanyMemos {
  import opened Wrappers
  import opened Lists
  import opened Text
  import opened CompanyTypes

  /** `fixedCategories`: company research, interview preparation, entry sheet. */
  const FixedCategories: seq<string> := ["企業研究", "面接対策", "ES"]

  function InCategory(category: string): CompanyMemo -> bool {
    (m: CompanyMemo) => m.category == category && !m.isDeleted
  }

  /** `getMemoForCategory`. */
  function MemoForCategory(memos: seq<CompanyMemo>, category: string): (r: Option<CompanyMemo>)
    ensures r.Some? ==> r.value in memos && r.value.category == category && !r.value.isDeleted
    ensures r.None? <==> forall m | m in memos :: m.category != category || m.isDeleted
  {
    Find(memos, InCategory(category))
  }

  /** The memo of a category is the first live one: every live memo of it comes no earlier. */
  lemma MemoForCategoryIsFirst(memos: seq<CompanyMemo>, category: string)
    requires MemoForCategory(memos, category).Some?
    ensures exists k | 0 <= k < |memos| ::
      && memos[k] == MemoForCategory(memos, category).value
      && forall j | 0 <= j < k :: memos[j].category != category || memos[j].isDeleted
  {
    FindIsFirst(memos, InCategory(category));
  }

  predicate IsCustom(m: CompanyMemo) {
    m.category !in FixedCategories && !m.isDeleted
  }

  /**
   * `customMemos`: the live memos outside the fixed categories, in their order
   * in the list (an order-keeping filter, `FilterConcat`, `FilterMultiset`).
   */
  function CustomMemos(memos: seq<CompanyMemo>): (r: seq<CompanyMemo>)
    ensures r == Filter(memos, IsCustom)
    ensures forall m | m in r :: m in memos && IsCustom(m)
    ensures forall m | m in memos && IsCustom(m) :: m in r
  {
    Filter(memos, IsCustom)
  }

  /** A fixed tile: its category and the memo it opens, if any. */
  datatype Tile = Tile(category: string, memo: Option<CompanyMemo>)

  /** The three fixed tiles, always listed once each, in the fixed order. */
  function Tiles(memos: seq<CompanyMemo>): (r: seq<Tile>)
    ensures |r| == |FixedCategories|
    ensures forall k | 0 <= k < |r| :: r[k].category == FixedCategories[k]
    ensures forall k | 0 <= k < |r| :: r[k].memo == MemoForCategory(memos, FixedCategories[k])
  {
    seq(|FixedCategories|, k requires 0 <= k < |FixedCategories| =>
      Tile(FixedCategories[k], MemoForCategory(memos, FixedCategories[k])))
  }

  /**
   * No memo is shown twice: a memo behind a fixed tile is not among the custom
   * memos; and every live memo is either of a fixed category or listed.
   */
  lemma TilesAndCustomsSplit(memos: seq<CompanyMemo>)
    ensures forall t | t in Tiles(memos) && t.memo.Some? :: t.memo.value !in CustomMemos(memos)
    ensures forall m | m in memos && !m.isDeleted :: m.category in FixedCategories || m in CustomMemos(memos)
  {
  }

  /** The state of the new-memo form. */
  datatype NewMemoForm = NewMemoForm(isAddingNew: bool, title: string)

  /**
   * `handleAddNewMemo`: for a title other than white space, `onSelectMemo`
   * receives no memo and the trimmed title, and the form is reset; otherwise
   * nothing happens.
   */
  function AddNewMemo(f: NewMemoForm): (r: (NewMemoForm, Option<string>))
    ensures !Blank(f.title) ==> r == (NewMemoForm(false, ""), Some(Trim(f.title)))
    ensures Blank(f.title) ==> r == (f, None)
  {
    TrimEmptyIffBlank(f.title);
    if Trim(f.title) != [] then (NewMemoForm(false, ""), Some(Trim(f.title))) else (f, None)
  }
}

=== FILE: company_note_page.dfy ===
/**
 * The list updates of the company note page (`CompanyNotePage`) once a storage
 * call has answered.  `ok` is "the call reported no error (and returned the
 * row)": without it no list changes.  The rows a call returns are parameters.
 */
module CompanyNotePage {
  import opened Wrappers
  import opened CivilDates
  import opened Sorting
  import opened Lists
  import opened CompanyTypes
  import SelectionTab

  /** The date a step is ordered by: `deadline_date || start_date`. */
  function SortDate(e: SelectionEvent): Option<Date> {
    if e.deadlineDate.Some? then e.deadlineDate else e.startDate
  }

  /** Steps whose sort date is a real day (the comparator is meaningless otherwise). */
  predicate Dated(events: seq<SelectionEvent>) {
    forall e | e in events :: SortDate(e).Some? && Valid(SortDate(e).value)
  }

  function EventKey(e: SelectionEvent): Key {
    if SortDate(e).Some? && 1 <= SortDate(e).value.month <= 12 then Key(Ordinal(SortDate(e).value), 0)
    else Key(0, 0)
  }

  /** `handleAddEvent`: append the stored step and sort by date, earliest first. */
  function AddEvent(ok: bool, events: seq<SelectionEvent>, added: SelectionEvent): (r: seq<SelectionEvent>)
    ensures !ok ==> r == events
    ensures ok ==> multiset(r) == multiset(events) + multiset{added}
  {
    if ok then SortBy(events + [added], EventKey) else events
  }

  /** No step is listed after a step with a later date. */
  predicate EventsByDate(s: seq<SelectionEvent>) {
    forall i, j | 0 <= i < j < |s| && SortDate(s[i]).Some? && SortDate(s[j]).Some? ::
      !Before(SortDate(s[j]).value, SortDate(s[i]).value)
  }

  lemma EventPairOrder(x: SelectionEvent, y: SelectionEvent)
    requires Dated([x, y]) && KeyLe(EventKey(x), EventKey(y))
    ensures !Before(SortDate(y).value, SortDate(x).value)
  {
    assert x in [x, y] && y in [x, y];
    OrdinalOrder(SortDate(y).value, SortDate(x).value);
  }

  /** After an add the steps run from the earliest date to the latest. */
  lemma AddedEventsByDate(events: seq<SelectionEvent>, added: SelectionEvent)
    requires Dated(events + [added])
    ensures EventsByDate(AddEvent(true, events, added))
  {
    var s := events + [added];
    var r := AddEvent(true, events, added);
    forall i, j | 0 <= i < j < |r| && SortDate(r[i]).Some? && SortDate(r[j]).Some?
      ensures !Before(SortDate(r[j]).value, SortDate(r[i]).value)
    {
      assert r[i] in multiset(s) && r[j] in multiset(s);
      assert r[i] in s && r[j] in s;
      assert Dated([r[i], r[j]]);
      EventPairOrder(r[i], r[j]);
    }
  }

  /** `handleUpdateEvent`: the fields of the edited step, merged into that step only. */
  function UpdateEvent(ok: bool, events: seq<SelectionEvent>, u: SelectionTab.EventUpdate): (r: seq<SelectionEvent>)
    ensures !ok ==> r == events
    ensures ok ==> |r| == |events|
    ensures ok ==> forall k | 0 <= k < |events| ::
      r[k] == if events[k].id == u.id then SelectionTab.WithForm(events[k], u.form, u.dateType, u.track) else events[k]
  {
    if ok then UpdateWhere(events, u.id, EventId, (e: SelectionEvent) => SelectionTab.WithForm(e, u.form, u.dateType, u.track))
    else events
  }

  /**
   * `handleDeleteEvent`: the steps with the id go and the rest keep their order
   * (`RemoveWhereConcat`, `RemoveWhereMultiset`).
   */
  function DeleteEvent(ok: bool, events: seq<SelectionEvent>, id: string): (r: seq<SelectionEvent>)
    ensures !ok ==> r == events
    ensures ok ==> r == RemoveWhere(events, id, EventId)
    ensures ok ==> forall e | e in r :: e in events && e.id != id
    ensures ok ==> forall e | e in events && e.id != id :: e in r
  {
    if ok then RemoveWhere(events, id, EventId) else events
  }

  /** An update keeps the ids, so deleting after updating is deleting. */
  lemma DeleteAfterUpdate(events: seq<SelectionEvent>, u: SelectionTab.EventUpdate)
    ensures DeleteEvent(true, UpdateEvent(true, events, u), u.id) == DeleteEvent(true, events, u.id)
  {
    RemoveAfterUpdate(events, u.id, EventId, (e: SelectionEvent) => SelectionTab.WithForm(e, u.form, u.dateType, u.track));
  }

  /** Progress order: latest passed date first, then latest created first. */
  function ProgressKey(p: SelectionProgress): Key {
    if 1 <= p.passedDate.month <= 12 then Key(-Ordinal(p.passedDate), -p.createdAt) else Key(0, -p.createdAt)
  }

  predicate ProgressOrdered(s: seq<SelectionProgress>) {
    forall i, j | 0 <= i < j < |s| ::
      || Before(s[j].passedDate, s[i].passedDate)
      || (s[i].passedDate == s[j].passedDate && s[i].createdAt >= s[j].createdAt)
  }

  predicate ProgressDated(s: seq<SelectionProgress>) {
    forall p | p in s :: Valid(p.passedDate)
  }

  /** A list sorted by `ProgressKey` runs from the latest passed date, later creations first on a tie. */
  lemma SortedProgressOrdered(s: seq<SelectionProgress>)
    requires ProgressDated(s) && SortedBy(s, ProgressKey)
    ensures ProgressOrdered(s)
  {
    forall i, j | 0 <= i < j < |s|
      ensures || Before(s[j].passedDate, s[i].passedDate)
              || (s[i].passedDate == s[j].passedDate && s[i].createdAt >= s[j].createdAt)
    {
      assert s[i] in s && s[j] in s;
      assert KeyLe(ProgressKey(s[i]), ProgressKey(s[j]));
      OrdinalOrder(s[j].passedDate, s[i].passedDate);
    }
  }

  /** `handleAddProgress`: prepend the stored entry and sort. */
  function AddProgress(ok: bool, progress: seq<SelectionProgress>, added: SelectionProgress): (r: seq<SelectionProgress>)
    ensures !ok ==> r == progress
    ensures ok ==> multiset(r) == multiset{added} + multiset(progress)
    ensures ok && ProgressDated([added] + progress) ==> ProgressOrdered(r)
  {
    if ok then
      var r := SortBy([added] + progress, ProgressKey);
      assert ProgressDated([added] + progress) ==> ProgressDated(r) by {
        forall p | p in r ensures p in [added] + progress {
          assert p in multiset(r);
        }
      }
      if ProgressDated([added] + progress) then
        SortedProgressOrdered(r);
        r
      else r
    else progress
  }

  /** `handleUpdateProgress`: merge the changes into the entry with the id, then sort. */
  function UpdateProgress(ok: bool, progress: seq<SelectionProgress>, id: string, patch: SelectionProgress -> SelectionProgress): (r: seq<SelectionProgress>)
    ensures !ok ==> r == progress
    ensures ok ==> multiset(r) == multiset(UpdateWhere(progress, id, ProgressId, patch))
    ensures ok && ProgressDated(UpdateWhere(progress, id, ProgressId, patch)) ==> ProgressOrdered(r)
  {
    if ok then
      var updated := UpdateWhere(progress, id, ProgressId, patch);
      var r := SortBy(updated, ProgressKey);
      assert ProgressDated(updated) ==> ProgressDated(r) by {
        forall p | p in r ensures p in updated {
          assert p in multiset(r);
        }
      }
      if ProgressDated(updated) then
        SortedProgressOrdered(r);
        r
      else r
    else progress
  }

  /** `handleDeleteProgress`: the entries with the id go and the rest keep their order. */
  function DeleteProgress(ok: bool, progress: seq<SelectionProgress>, id: string): (r: seq<SelectionProgress>)
    ensures !ok ==> r == progress
    ensures ok ==> r == RemoveWhere(progress, id, ProgressId)
    ensures ok ==> forall p | p in r :: p in progress && p.id != id
    ensures ok ==> forall p | p in progress && p.id != id :: p in r
  {
    if ok then RemoveWhere(progress, id, ProgressId) else progress
  }

  /**
   * `handleAddMemo` and `handleAddSite`: once storage reports no error, the
   * stored row goes in front of the others, which keep their order.
   */
  function AddStored<T>(ok: bool, rows: seq<T>, added: T): (r: seq<T>)
    ensures !ok ==> r == rows
    ensures ok ==> |r| == |rows| + 1 && r[0] == added && r[1..] == rows
  {
    if ok then [added] + rows else rows
  }

  /** `handleUpdateMemo`: merge the changes into the memo with the id. */
  function UpdateMemo(ok: bool, memos: seq<CompanyMemo>, id: string, patch: CompanyMemo -> CompanyMemo): (r: seq<CompanyMemo>)
    ensures !ok ==> r == memos
    ensures ok ==> |r| == |memos|
    ensures ok ==> forall k | 0 <= k < |memos| :: r[k] == if memos[k].id == id then patch(memos[k]) else memos[k]
  {
    if ok then UpdateWhere(memos, id, MemoId, patch) else memos
  }

  function SetDeleted(flag: bool): CompanyMemo -> CompanyMemo {
    (m: CompanyMemo) => m.(isDeleted := flag)
  }

  /** `handleDeleteMemo`: a soft delete that only marks the memo, which keeps its place. */
  function DeleteMemo(ok: bool, memos: seq<CompanyMemo>, id: string): (r: seq<CompanyMemo>)
    ensures !ok ==> r == memos
    ensures ok ==> |r| == |memos|
    ensures ok ==> forall k | 0 <= k < |memos| ::
      r[k] == if memos[k].id == id then memos[k].(isDeleted := true) else memos[k]
  {
    UpdateMemo(ok, memos, id, SetDeleted(true))
  }

  /** `handleRestoreMemo`: the memo is unmarked in place. */
  function RestoreMemo(ok: bool, memos: seq<CompanyMemo>, id: string): (r: seq<CompanyMemo>)
    ensures !ok ==> r == memos
    ensures ok ==> |r| == |memos|
    ensures ok ==> forall k | 0 <= k < |memos| ::
      r[k] == if memos[k].id == id then memos[k].(isDeleted := false) else memos[k]
  {
    UpdateMemo(ok, memos, id, SetDeleted(false))
  }

  /**
   * Deleting a memo keeps it in the list, marked; restoring it afterwards gives
   * back the list as it was when the memo had not been deleted before.
   */
  lemma SoftDeleteRestore(memos: seq<CompanyMemo>, id: string)
    requires forall m | m in memos && m.id == id :: !m.isDeleted
    ensures |DeleteMemo(true, memos, id)| == |memos|
    ensures forall k | 0 <= k < |memos| && memos[k].id == id :: DeleteMemo(true, memos, id)[k] == memos[k].(isDeleted := true)
    ensures RestoreMemo(true, DeleteMemo(true, memos, id), id) == memos
  {
    var d := DeleteMemo(true, memos, id);
    var r := RestoreMemo(true, d, id);
    forall k | 0 <= k < |memos| ensures r[k] == memos[k] {
      assert memos[k] in memos;
    }
  }

  /** `handleUpdateSite`: the site with the edited site's id is replaced by it. */
  function UpdateSite(ok: bool, sites: seq<ReferenceSite>, site: ReferenceSite): (r: seq<ReferenceSite>)
    ensures !ok ==> r == sites
    ensures ok ==> |r| == |sites|
    ensures ok ==> forall k | 0 <= k < |sites| :: r[k] == if sites[k].id == site.id then site else sites[k]
  {
    if ok then UpdateWhere(sites, site.id, SiteId, (_: ReferenceSite) => site) else sites
  }

  /** `handleDeleteSite`: the sites with the id go and the rest keep their order. */
  function DeleteSite(ok: bool, sites: seq<ReferenceSite>, id: string): (r: seq<ReferenceSite>)
    ensures !ok ==> r == sites
    ensures ok ==> r == RemoveWhere(sites, id, SiteId)
    ensures ok ==> forall s | s in r :: s in sites && s.id != id
    ensures ok ==> forall s | s in sites && s.id != id :: s in r
  {
    if ok then RemoveWhere(sites, id, SiteId) else sites
  }

  /** A site just added and then deleted by its id leaves the list as it was, when the id was new. */
  lemma AddThenDeleteSite(sites: seq<ReferenceSite>, added: ReferenceSite)
    requires forall s | s in sites :: s.id != added.id
    ensures DeleteSite(true, AddStored(true, sites, added), added.id) == sites
  {
    RemoveFresh(sites, added, added.id, SiteId);
  }
}

=== FILE: company_types.dfy ===
/**
 * The records of the job-hunting notebook (`src/types/company.ts`).  Dates are
 * civil dates, times of day are minutes after midnight, and the `created_at`
 * timestamps are instants (an integer count of milliseconds).  An optional text
 * field that the pages store as `undefined` or an empty string is `None`.
 */
module CompanyTypes {
  import opened Wrappers
  import opened CivilDates

  datatype Track = Intern | Fulltime
  datatype DateType = DeadlineDate | Schedule
  datatype Status = Pending | Completed

  /** `SelectionEvent`: a step of a selection process, either a deadline or a scheduled slot. */
  datatype SelectionEvent = SelectionEvent(
    id: string,
    track: Track,
    eventType: string,
    title: string,
    dateType: DateType,
    deadlineDate: Option<Date>,
    deadlineTime: Option<int>,
    startDate: Option<Date>,
    startTime: Option<int>,
    endDate: Option<Date>,
    endTime: Option<int>,
    status: Status,
    memo: string,
    calendarEventId: Option<string>)

  /** `SelectionProgress`: a stage passed on a given date. */
  datatype SelectionProgress = SelectionProgress(
    id: string,
    noteId: string,
    track: Track,
    stage: string,
    passedDate: Date,
    notes: string,
    createdAt: int)

  /** `CompanyMemo`; the category is free text, three fixed names of which get their own tiles. */
  datatype CompanyMemo = CompanyMemo(
    id: string,
    category: string,
    title: string,
    content: string,
    isDeleted: bool,
    createdAt: int)

  /** `ReferenceSite`. */
  datatype ReferenceSite = ReferenceSite(id: string, name: string, url: string)

  /** `CustomField`; `caption` is its `label`. */
  datatype CustomField = CustomField(caption: string, value: string)

  /** `Company`. */
  datatype Company = Company(id: string, name: string, createdAt: int)

  function EventId(e: SelectionEvent): string { e.id }
  function ProgressId(p: SelectionProgress): string { p.id }
  function MemoId(m: CompanyMemo): string { m.id }
  function SiteId(s: ReferenceSite): string { s.id }
  function CompanyId(c: Company): string { c.id }
}

=== FILE: custom_fields.dfy ===
/**
 * The company note's free-form fields, edited in two places: the basic
 * information block (`BasicInfoBlock`, together with eight fixed fields) and the
 * custom fields block (`CustomFieldsBlock`).  Both keep at most four fields
 * through adding, remove by position and change one key of one field.
 */
module CustomFields {
  import opened Wrappers
  import opened Lists
  import opened CompanyTypes

  const MaxFields := 4

  /** The `'label' | 'value'` key an input edits. */
  datatype FieldKey = Caption | Value

  const EmptyField := CustomField("", "")

  /** `handleAddField`: an empty field is appended only while fewer than four exist. */
  function AddField(fields: seq<CustomField>): (r: seq<CustomField>)
    ensures |fields| < MaxFields ==> r == fields + [EmptyField]
    ensures |fields| >= MaxFields ==> r == fields
  {
    if |fields| >= MaxFields then fields else fields + [EmptyField]
  }

  /** `n` presses of the add button. */
  function AddMany(fields: seq<CustomField>, n: nat): seq<CustomField> {
    if n == 0 then fields else AddField(AddMany(fields, n - 1))
  }

  /**
   * However often the add button is pressed, adding never takes the list past
   * four fields, nor past its own length when it already held more; and what
   * was there stays in front.
   */
  lemma {:induction false} AddingStaysBounded(fields: seq<CustomField>, n: nat)
    ensures |AddMany(fields, n)| <= if |fields| > MaxFields then |fields| else MaxFields
    ensures |fields| <= |AddMany(fields, n)| && AddMany(fields, n)[..|fields|] == fields
  {
    if n > 0 {
      AddingStaysBounded(fields, n - 1);
      var before := AddMany(fields, n - 1);
      assert AddField(before)[..|before|] == before;
      assert AddField(before)[..|fields|] == before[..|fields|];
    }
  }

  /** The edit `newFields[index][key] = value`. */
  function SetField(fields: seq<CustomField>, index: nat, key: FieldKey, value: string): (r: seq<CustomField>)
    requires index < |fields|
    ensures |r| == |fields|
    ensures forall k | 0 <= k < |fields| && k != index :: r[k] == fields[k]
    ensures key == Caption ==> r[index].caption == value && r[index].value == fields[index].value
    ensures key == Value ==> r[index].value == value && r[index].caption == fields[index].caption
  {
    fields[index := match key
      case Caption => fields[index].(caption := value)
      case Value => fields[index].(value := value)]
  }

  /** Writing a key twice keeps only the second write. */
  lemma SetFieldTwice(fields: seq<CustomField>, index: nat, key: FieldKey, first: string, second: string)
    requires index < |fields|
    ensures SetField(SetField(fields, index, key, first), index, key, second) == SetField(fields, index, key, second)
  {
  }

  /** The eight fixed fields of the basic information block. */
  datatype BasicInfo = BasicInfo(
    industry: string,
    jobType: string,
    location: string,
    employeeCount: string,
    listingStatus: string,
    baseSalary: string,
    webTest: string,
    workingHours: string)

  /** The partial note update a block hands to `onUpdate`. */
  datatype NoteUpdate = NoteUpdate(basic: Option<BasicInfo>, customFields: seq<CustomField>)

  /** The custom fields block: its fields and whether it is in edit mode. */
  class CustomFieldsBlock {
    var fields: seq<CustomField>
    var isEditing: bool

    /** Opened on a note: its fields (`custom_fields || []`), not editing. */
    constructor (noteFields: Option<seq<CustomField>>)
      ensures fields == noteFields.GetOr([]) && !isEditing
    {
      fields := noteFields.GetOr([]);
      isEditing := false;
    }

    method Add()
      modifies this
      ensures fields == AddField(old(fields)) && isEditing == old(isEditing)
    {
      fields := AddField(fields);
    }

    /** `handleRemoveField`. */
    method Remove(index: int)
      modifies this
      ensures fields == WithoutIndex(old(fields), index) && isEditing == old(isEditing)
    {
      fields := WithoutIndex(fields, index);
    }

    /** `handleUpdateField`, on a field the block lists. */
    method Update(index: nat, key: FieldKey, value: string)
      requires index < |fields|
      modifies this
      ensures fields == SetField(old(fields), index, key, value) && isEditing == old(isEditing)
    {
      fields := SetField(fields, index, key, value);
    }

    /**
     * The header button: in edit mode it saves (`handleSave`, which hands over
     * only the custom fields) and leaves edit mode; otherwise it enters edit mode.
     */
    method HeaderButton() returns (update: Option<NoteUpdate>)
      modifies this
      ensures old(isEditing) ==> update == Some(NoteUpdate(None, fields)) && !isEditing
      ensures !old(isEditing) ==> update.None? && isEditing
      ensures fields == old(fields)
    {
      if isEditing {
        update := Some(NoteUpdate(None, fields));
        isEditing := false;
      } else {
        update := None;
        isEditing := true;
      }
    }
  }

  /** The basic information block: the fixed fields, the custom fields and the edit dialog's visibility. */
  class BasicInfoBlock {
    var form: BasicInfo
    var fields: seq<CustomField>
    var isEditing: bool

    constructor (basic: BasicInfo, noteFields: Option<seq<CustomField>>)
      ensures form == basic && fields == noteFields.GetOr([]) && !isEditing
    {
      form := basic;
      fields := noteFields.GetOr([]);
      isEditing := false;
    }

    /** `handleAddCustomField`. */
    method Add()
      modifies this
      ensures fields == AddField(old(fields)) && form == old(form) && isEditing == old(isEditing)
    {
      fields := AddField(fields);
    }

    /** `handleRemoveCustomField`. */
    method Remove(index: int)
      modifies this
      ensures fields == WithoutIndex(old(fields), index) && form == old(form) && isEditing == old(isEditing)
    {
      fields := WithoutIndex(fields, index);
    }

    /** `handleUpdateCustomField`, on a field the dialog lists. */
    method Update(index: nat, key: FieldKey, value: string)
      requires index < |fields|
      modifies this
      ensures fields == SetField(old(fields), index, key, value) && form == old(form) && isEditing == old(isEditing)
    {
      fields := SetField(fields, index, key, value);
    }

    /** `handleSave`: the fixed fields with the custom fields, and the dialog closes. */
    method Save() returns (update: NoteUpdate)
      modifies this
      ensures update == NoteUpdate(Some(form), fields)
      ensures !isEditing && form == old(form) && fields == old(fields)
    {
      update := NoteUpdate(Some(form), fields);
      isEditing := false;
    }
  }
}

=== FILE: date_format.dfy ===
/**
 * `formatDateOnly` and `formatDateTimeLocal` of the event editor: the year as
 * `String(year)` and the other fields padded to two digits with `padStart(2, '0')`,
 * giving `YYYY-MM-DD` and `YYYY-MM-DDTHH:MM`.  The parsers here are the inverse
 * the browser applies when such a string is fed back to `new Date(...)`.
 */
module DateFormat {
  import opened Wrappers
  import opened CivilDates
  import Arith

  function DigitChar(d: int): char
    requires 0 <= d < 10
  {
    "0123456789"[d]
  }

  predicate IsDigit(c: char) {
    '0' <= c <= '9'
  }

  function DigitValue(c: char): int
    requires IsDigit(c)
  {
    c as int - '0' as int
  }

  lemma DigitRoundTrip(d: int)
    requires 0 <= d < 10
    ensures IsDigit(DigitChar(d)) && DigitValue(DigitChar(d)) == d
  {
  }

  /** `String(n)` for a non-negative integer. */
  function Decimal(n: nat): (s: string)
    ensures |s| >= 1
    ensures forall i | 0 <= i < |s| :: IsDigit(s[i])
  {
    if n < 10 then [DigitChar(n)] else Decimal(n / 10) + [DigitChar(n % 10)]
  }

  /** `String(n).padStart(2, '0')` for 0 <= n < 100. */
  function Pad2(n: nat): (s: string)
    requires n < 100
    ensures |s| == 2
  {
    if n < 10 then ['0', DigitChar(n)]
    else
      assert Decimal(n / 10) == [DigitChar(n / 10)];
      Decimal(n)
  }

  lemma Pad2Digits(n: nat)
    requires n < 100
    ensures Pad2(n) == [DigitChar(n / 10), DigitChar(n % 10)]
  {
    if n >= 10 {
      assert Decimal(n / 10) == [DigitChar(n / 10)];
    }
  }

  lemma FourDigits(y: nat)
    requires 1000 <= y <= 9999
    ensures Decimal(y) == [DigitChar(y / 1000), DigitChar(y / 100 % 10), DigitChar(y / 10 % 10), DigitChar(y % 10)]
  {
    assert y / 10 / 10 == y / 100;
    assert y / 100 / 10 == y / 1000;
    assert Decimal(y) == Decimal(y / 10) + [DigitChar(y % 10)];
    assert Decimal(y / 10) == Decimal(y / 100) + [DigitChar(y / 10 % 10)];
    assert Decimal(y / 100) == Decimal(y / 1000) + [DigitChar(y / 100 % 10)];
    assert Decimal(y / 1000) == [DigitChar(y / 1000)];
  }

  /**
   * `formatDateOnly` for years from 0 on: the year in decimal, then the month and
   * the day as two digits each, separated by hyphens.
   */
  function FormatDateOnly(d: Date): (r: string)
    requires Valid(d) && d.year >= 0
    ensures |r| == |Decimal(d.year)| + 6 && r[..|r| - 6] == Decimal(d.year)
    ensures r[|r| - 6] == '-' && r[|r| - 3] == '-'
    ensures r[|r| - 5..|r| - 3] == Pad2(d.month) && r[|r| - 2..] == Pad2(d.day)
  {
    Decimal(d.year) + "-" + Pad2(d.month) + "-" + Pad2(d.day)
  }

  /** `formatDateTimeLocal`: the date, `T`, the hour and the minute. */
  function FormatDateTimeLocal(d: Date, hour: int, minute: int): (r: string)
    requires Valid(d) && d.year >= 0 && 0 <= hour < 24 && 0 <= minute < 60
    ensures |r| == |FormatDateOnly(d)| + 6 && r[..|r| - 6] == FormatDateOnly(d)
    ensures r[|r| - 6] == 'T' && r[|r| - 3] == ':'
    ensures r[|r| - 5..|r| - 3] == Pad2(hour) && r[|r| - 2..] == Pad2(minute)
  {
    FormatDateOnly(d) + "T" + Pad2(hour) + ":" + Pad2(minute)
  }

  /** The value of a run of `n` digits starting at `i`. */
  function DigitsAt(s: string, i: nat, n: nat): Option<int>
    decreases n
  {
    if n == 0 then Some(0)
    else if i + n > |s| || !IsDigit(s[i + n - 1]) then None
    else
      match DigitsAt(s, i, n - 1)
      case None => None
      case Some(v) => Some(10 * v + DigitValue(s[i + n - 1]))
  }

  /** Reads `YYYY-MM-DD` (four-digit year). */
  function ParseDateOnly(s: string): Option<Date> {
    if |s| != 10 || s[4] != '-' || s[7] != '-' then None
    else
      match (DigitsAt(s, 0, 4), DigitsAt(s, 5, 2), DigitsAt(s, 8, 2))
      case (Some(y), Some(m), Some(d)) =>
        if Valid(Date(y, m, d)) then Some(Date(y, m, d)) else None
      case _ => None
  }

  /** Reads `YYYY-MM-DDTHH:MM` as a date, an hour and a minute. */
  function ParseDateTimeLocal(s: string): Option<(Date, int, int)> {
    if |s| != 16 || s[10] != 'T' || s[13] != ':' then None
    else
      match (ParseDateOnly(s[..10]), DigitsAt(s, 11, 2), DigitsAt(s, 14, 2))
      case (Some(d), Some(h), Some(mi)) =>
        if h < 24 && mi < 60 then Some((d, h, mi)) else None
      case _ => None
  }

  lemma {:induction false} DigitsOfFour(s: string, i: nat, a: int, b: int, c: int, d: int)
    requires 0 <= a < 10 && 0 <= b < 10 && 0 <= c < 10 && 0 <= d < 10
    requires i + 4 <= |s|
    requires s[i] == DigitChar(a) && s[i + 1] == DigitChar(b) && s[i + 2] == DigitChar(c) && s[i + 3] == DigitChar(d)
    ensures DigitsAt(s, i, 4) == Some(1000 * a + 100 * b + 10 * c + d)
  {
    DigitRoundTrip(a);
    DigitRoundTrip(b);
    DigitRoundTrip(c);
    DigitRoundTrip(d);
    assert DigitsAt(s, i, 1) == Some(a);
    assert DigitsAt(s, i, 2) == Some(10 * a + b);
    assert DigitsAt(s, i, 3) == Some(100 * a + 10 * b + c);
  }

  lemma {:induction false} DigitsOfTwo(s: string, i: nat, n: nat)
    requires n < 100 && i + 2 <= |s|
    requires s[i..i + 2] == Pad2(n)
    ensures DigitsAt(s, i, 2) == Some(n)
  {
    Pad2Digits(n);
    assert s[i] == s[i..i + 2][0] && s[i + 1] == s[i..i + 2][1];
    DigitRoundTrip(n / 10);
    DigitRoundTrip(n % 10);
    assert DigitsAt(s, i, 1) == Some(n / 10);
  }

  lemma DateOnlyShape(d: Date)
    requires Valid(d) && 1000 <= d.year <= 9999
    ensures var s := FormatDateOnly(d);
      && |s| == 10 && s[4] == '-' && s[7] == '-'
      && s[..4] == Decimal(d.year) && s[5..7] == Pad2(d.month) && s[8..10] == Pad2(d.day)
  {
    FourDigits(d.year);
  }

  lemma DecimalPlaces(y: int)
    requires 1000 <= y <= 9999
    ensures 1000 * (y / 1000) + 100 * (y / 100 % 10) + 10 * (y / 10 % 10) + y % 10 == y
    ensures 0 <= y / 1000 < 10
  {
    var a := y / 10;
    var b := a / 10;
    var c := b / 10;
    Arith.DivModUnique(y, 100, b, 10 * (a % 10) + y % 10);
    Arith.DivModUnique(y, 1000, c, 100 * (b % 10) + 10 * (a % 10) + y % 10);
  }

  lemma ParseDateOnlyOf(s: string, d: Date)
    requires |s| == 10 && s[4] == '-' && s[7] == '-' && Valid(d)
    requires DigitsAt(s, 0, 4) == Some(d.year) && DigitsAt(s, 5, 2) == Some(d.month) && DigitsAt(s, 8, 2) == Some(d.day)
    ensures ParseDateOnly(s) == Some(d)
  {
  }

  /** A four-digit-year date reads back from its `YYYY-MM-DD` form, which is ten characters with hyphens at 4 and 7. */
  lemma DateOnlyRoundTrip(d: Date)
    requires Valid(d) && 1000 <= d.year <= 9999
    ensures |FormatDateOnly(d)| == 10
    ensures ParseDateOnly(FormatDateOnly(d)) == Some(d)
  {
    var s := FormatDateOnly(d);
    var y := d.year;
    DateOnlyShape(d);
    FourDigits(y);
    DecimalPlaces(y);
    assert s[0] == s[..4][0] && s[1] == s[..4][1] && s[2] == s[..4][2] && s[3] == s[..4][3];
    DigitsOfFour(s, 0, y / 1000, y / 100 % 10, y / 10 % 10, y % 10);
    DigitsOfTwo(s, 5, d.month);
    DigitsOfTwo(s, 8, d.day);
    ParseDateOnlyOf(s, d);
  }

  /** `YYYY-MM-DDTHH:MM` reads back to the same date, hour and minute. */
  lemma DateTimeLocalRoundTrip(d: Date, hour: int, minute: int)
    requires Valid(d) && 1000 <= d.year <= 9999 && 0 <= hour < 24 && 0 <= minute < 60
    ensures |FormatDateTimeLocal(d, hour, minute)| == 16
    ensures ParseDateTimeLocal(FormatDateTimeLocal(d, hour, minute)) == Some((d, hour, minute))
  {
    var s := FormatDateTimeLocal(d, hour, minute);
    DateOnlyRoundTrip(d);
    assert s[..10] == FormatDateOnly(d);
    assert s[11..13] == Pad2(hour);
    assert s[14..16] == Pad2(minute);
    DigitsOfTwo(s, 11, hour);
    DigitsOfTwo(s, 14, minute);
  }
}

=== FILE: day_occurrences.dfy ===
/**
 * The entries shown for one calendar day: `getEventsForDate` of the month grid
 * and the `filteredEvents` list of the day sheet.  Both collect the events that
 * start on the day or recur on it ("normal" entries), then one synthetic entry per
 * preparation date on the day and one per deadline on the day, and sort the lot
 * with all-day entries first and then by start instant.  The two views differ only
 * in that the day sheet records the originating event's id on the synthetic
 * entries (`withOrigin`).
 */
module DayOccurrences {
  import opened Wrappers
  import opened CivilDates
  import opened Recurrence
  import opened Sorting

  /** A local date and a minute of that day. */
  datatype DateTime = DateTime(date: Date, minute: int)

  predicate ValidTime(t: DateTime) {
    Valid(t.date) && 0 <= t.minute < 1440
  }

  /** `getTime()`, in minutes. */
  function Instant(t: DateTime): int
    requires 1 <= t.date.month <= 12
  {
    Ordinal(t.date) * 1440 + t.minute
  }

  /** `PreparationDate`; an absent title is the empty string. */
  datatype PrepDate = PrepDate(id: string, eventId: string, date: DateTime, endDate: Option<DateTime>, title: string)

  /** `Event`, with the recurrence attributes gathered into a `Rule`. */
  datatype Event = Event(
    id: string,
    title: string,
    start: DateTime,
    end: DateTime,
    allDay: bool,
    colorId: string,
    deadline: Option<DateTime>,
    preps: seq<PrepDate>,
    rule: Rule)

  predicate WellFormed(e: Event) {
    && ValidTime(e.start) && ValidTime(e.end)
    && (e.deadline.Some? ==> ValidTime(e.deadline.value))
    && forall p | p in e.preps :: ValidTime(p.date)
  }

  predicate AllWellFormed(events: seq<Event>) {
    forall e | e in events :: WellFormed(e)
  }

  /** What the boolean flags `isPrepDate` / `isDeadline` distinguish. */
  datatype Kind = Normal | Prep | Deadline

  /**
   * One listed entry: the event spread into a new object (`source` keeps the
   * fields that are copied unchanged) with the overridden fields alongside.
   */
  datatype Entry = Entry(
    kind: Kind,
    id: string,
    originalId: Option<string>,
    title: string,
    start: DateTime,
    end: DateTime,
    allDay: bool,
    source: Event)

  /** Year, month and day agree; the time of day plays no part. */
  predicate SameDay(t: DateTime, day: Date) {
    t.date == day
  }

  function NormalEntry(e: Event): Entry {
    Entry(Normal, e.id, None, e.title, e.start, e.end, e.allDay, e)
  }

  function PrepEntry(e: Event, p: PrepDate, withOrigin: bool): Entry {
    Entry(Prep, "prep-" + p.id, if withOrigin then Some(e.id) else None,
          if p.title == "" then e.title else p.title, p.date, p.date, false, e)
  }

  function DeadlineEntry(e: Event, withOrigin: bool): Entry
    requires e.deadline.Some?
  {
    Entry(Deadline, "deadline-" + e.id, if withOrigin then Some(e.id) else None,
          e.title, e.deadline.value, e.deadline.value, true, e)
  }

  /** The filter that selects the normal entries. */
  predicate IsMain(e: Event, day: Date)
    requires WellFormed(e) && Valid(day)
  {
    SameDay(e.start, day) || OccursOn(e.rule, e.start.date, day)
  }

  predicate HasDeadlineOn(e: Event, day: Date) {
    e.deadline.Some? && SameDay(e.deadline.value, day)
  }

  /** `mainEvents`: the events that start on the day or recur on it, in order. */
  function MainEntries(events: seq<Event>, day: Date): seq<Entry>
    requires AllWellFormed(events) && Valid(day)
  {
    if events == [] then []
    else (if IsMain(events[0], day) then [NormalEntry(events[0])] else []) + MainEntries(events[1..], day)
  }

  /** The preparation entries of `e` among `preps` that fall on the day. */
  function PrepEntries(e: Event, preps: seq<PrepDate>, day: Date, withOrigin: bool): seq<Entry>
  {
    if preps == [] then []
    else
      var p := preps[|preps| - 1];
      PrepEntries(e, preps[..|preps| - 1], day, withOrigin)
      + (if SameDay(p.date, day) then [PrepEntry(e, p, withOrigin)] else [])
  }

  /** What one event pushes onto `additionalEvents`. */
  function Extras(e: Event, day: Date, withOrigin: bool): seq<Entry> {
    PrepEntries(e, e.preps, day, withOrigin)
    + (if HasDeadlineOn(e, day) then [DeadlineEntry(e, withOrigin)] else [])
  }

  /** `additionalEvents` after the `forEach` over `events`. */
  function Additional(events: seq<Event>, day: Date, withOrigin: bool): seq<Entry>
  {
    if events == [] then []
    else
      Additional(events[..|events| - 1], day, withOrigin) + Extras(events[|events| - 1], day, withOrigin)
  }

  /** The comparator's key: all-day before timed, then by start instant. */
  function EntryKey(x: Entry): Key {
    Key(if x.allDay then 0 else 1, if 1 <= x.start.date.month <= 12 then Instant(x.start) else 0)
  }

  /** The sorted list of the day's entries (`withOrigin` selects the day sheet's variant). */
  function DayEntries(events: seq<Event>, day: Date, withOrigin: bool): seq<Entry>
    requires AllWellFormed(events) && Valid(day)
  {
    SortBy(MainEntries(events, day) + Additional(events, day, withOrigin), EntryKey)
  }

  /** The `forEach` / `push` loops that build `additionalEvents`. */
  method CollectAdditional(events: seq<Event>, day: Date, withOrigin: bool) returns (additional: seq<Entry>)
    ensures additional == Additional(events, day, withOrigin)
  {
    additional := [];
    for i := 0 to |events|
      invariant additional == Additional(events[..i], day, withOrigin)
    {
      var e := events[i];
      for j := 0 to |e.preps|
        invariant additional == Additional(events[..i], day, withOrigin) + PrepEntries(e, e.preps[..j], day, withOrigin)
      {
        var p := e.preps[j];
        if SameDay(p.date, day) {
          additional := additional + [PrepEntry(e, p, withOrigin)];
        }
        assert e.preps[..j + 1][..j] == e.preps[..j];
      }
      assert e.preps[..|e.preps|] == e.preps;
      if HasDeadlineOn(e, day) {
        additional := additional + [DeadlineEntry(e, withOrigin)];
      }
      assert events[..i + 1][..i] == events[..i];
    }
    assert events[..|events|] == events;
  }

  // ---------------------------------------------------------------------------
  // Properties
  // ---------------------------------------------------------------------------

  /**
   * The normal entries are exactly one per selected event occurrence in the input:
   * an event that both starts on the day and recurs on it still yields one entry.
   */
  lemma {:induction false} MainEntriesCharacterised(events: seq<Event>, day: Date)
    requires AllWellFormed(events) && Valid(day)
    ensures forall x | x in MainEntries(events, day) ::
      x.kind == Normal && x.source in events && IsMain(x.source, day) && x == NormalEntry(x.source)
    ensures forall e | e in events && IsMain(e, day) :: NormalEntry(e) in MainEntries(events, day)
    ensures forall e ::
      multiset(MainEntries(events, day))[NormalEntry(e)] == (if e in events && IsMain(e, day) then multiset(events)[e] else 0)
  {
    if events != [] {
      MainEntriesCharacterised(events[1..], day);
      assert events == [events[0]] + events[1..];
      forall e
        ensures multiset(MainEntries(events, day))[NormalEntry(e)] ==
          (if e in events && IsMain(e, day) then multiset(events)[e] else 0)
      {
        if e !in events[1..] {
          assert multiset(events[1..])[e] == 0;
        }
      }
    }
  }

  lemma {:induction false} PrepEntriesAreFromPreps(e: Event, preps: seq<PrepDate>, day: Date, withOrigin: bool)
    ensures forall x | x in PrepEntries(e, preps, day, withOrigin) ::
      exists p :: p in preps && SameDay(p.date, day) && x == PrepEntry(e, p, withOrigin)
    ensures forall p | p in preps && SameDay(p.date, day) :: PrepEntry(e, p, withOrigin) in PrepEntries(e, preps, day, withOrigin)
  {
    if preps != [] {
      var init := preps[..|preps| - 1];
      PrepEntriesAreFromPreps(e, init, day, withOrigin);
      assert preps == init + [preps[|preps| - 1]];
    }
  }

  /**
   * A preparation entry is listed exactly for a preparation date on the day, with
   * id `prep-<prep id>`, the prep title (the event title when empty), start and
   * end at the prep date, timed, and the event's id as `originalId` in the day sheet.
   */
  lemma {:induction false} PrepEntriesCharacterised(events: seq<Event>, day: Date, withOrigin: bool)
    ensures forall e, p | e in events && p in e.preps && SameDay(p.date, day) ::
      PrepEntry(e, p, withOrigin) in Additional(events, day, withOrigin)
    ensures forall x | x in Additional(events, day, withOrigin) && x.kind == Prep ::
      exists e, p :: e in events && p in e.preps && SameDay(p.date, day)
        && x.id == "prep-" + p.id
        && x.originalId == (if withOrigin then Some(e.id) else None)
        && x.title == (if p.title == "" then e.title else p.title)
        && x.start == p.date && x.end == p.date && !x.allDay && x.source == e
  {
    if events != [] {
      var init, last := events[..|events| - 1], events[|events| - 1];
      PrepEntriesCharacterised(init, day, withOrigin);
      PrepEntriesAreFromPreps(last, last.preps, day, withOrigin);
      assert events == init + [last];
      var extras := Extras(last, day, withOrigin);
      assert Additional(events, day, withOrigin) == Additional(init, day, withOrigin) + extras;
      forall e, p | e in events && p in e.preps && SameDay(p.date, day)
        ensures PrepEntry(e, p, withOrigin) in Additional(events, day, withOrigin)
      {
        if e !in init {
          assert e == last;
          assert PrepEntry(e, p, withOrigin) in extras;
        }
      }
      forall x | x in Additional(events, day, withOrigin) && x.kind == Prep
        ensures exists e, p :: e in events && p in e.preps && SameDay(p.date, day) && x == PrepEntry(e, p, withOrigin)
      {
        if x in extras {
          assert x in PrepEntries(last, last.preps, day, withOrigin);
        }
      }
    }
  }

  lemma {:induction false} PrepEntriesArePreps(e: Event, preps: seq<PrepDate>, day: Date, withOrigin: bool)
    ensures forall x | x in PrepEntries(e, preps, day, withOrigin) :: x.kind == Prep
  {
    if preps != [] {
      PrepEntriesArePreps(e, preps[..|preps| - 1], day, withOrigin);
    }
  }

  /**
   * Each input occurrence of an event whose deadline falls on the day yields
   * exactly one deadline entry.
   */
  lemma {:induction false} DeadlineEntriesCounted(events: seq<Event>, day: Date, withOrigin: bool)
    ensures forall e | HasDeadlineOn(e, day) ::
      multiset(Additional(events, day, withOrigin))[DeadlineEntry(e, withOrigin)] == multiset(events)[e]
  {
    if events != [] {
      var init, last := events[..|events| - 1], events[|events| - 1];
      DeadlineEntriesCounted(init, day, withOrigin);
      PrepEntriesArePreps(last, last.preps, day, withOrigin);
      assert events == init + [last];
      assert Additional(events, day, withOrigin) == Additional(init, day, withOrigin) + Extras(last, day, withOrigin);
      forall e | HasDeadlineOn(e, day)
        ensures multiset(Additional(events, day, withOrigin))[DeadlineEntry(e, withOrigin)] == multiset(events)[e]
      {
        assert DeadlineEntry(e, withOrigin) !in PrepEntries(last, last.preps, day, withOrigin);
      }
    }
  }

  /**
   * A deadline entry comes from an event of the input whose deadline falls on
   * the day, with id `deadline-<event id>`, all-day, at the deadline.
   */
  lemma {:induction false} DeadlineEntriesFromEvents(events: seq<Event>, day: Date, withOrigin: bool)
    ensures forall x | x in Additional(events, day, withOrigin) && x.kind == Deadline ::
      && x.source in events && HasDeadlineOn(x.source, day)
      && x.id == "deadline-" + x.source.id
      && x.originalId == (if withOrigin then Some(x.source.id) else None)
      && x.allDay && x.start == x.source.deadline.value && x.end == x.source.deadline.value
  {
    if events != [] {
      var init, last := events[..|events| - 1], events[|events| - 1];
      DeadlineEntriesFromEvents(init, day, withOrigin);
      PrepEntriesArePreps(last, last.preps, day, withOrigin);
      assert events == init + [last];
      assert Additional(events, day, withOrigin) == Additional(init, day, withOrigin) + Extras(last, day, withOrigin);
    }
  }

  /**
   * The day's list holds exactly the normal and synthetic entries, all-day entries
   * first, each group by ascending start, with equal keys left in collection order.
   */
  lemma DayEntriesOrdered(events: seq<Event>, day: Date, withOrigin: bool)
    requires AllWellFormed(events) && Valid(day)
    ensures var r := DayEntries(events, day, withOrigin);
      && multiset(r) == multiset(MainEntries(events, day) + Additional(events, day, withOrigin))
      && (forall i, j | 0 <= i < j < |r| :: r[j].allDay ==> r[i].allDay)
      && (forall i, j | 0 <= i < j < |r| && r[i].allDay == r[j].allDay ::
            EntryKey(r[i]).minor <= EntryKey(r[j]).minor)
      && (forall k :: WithKey(r, EntryKey, k) == WithKey(MainEntries(events, day) + Additional(events, day, withOrigin), EntryKey, k))
  {
    var r := DayEntries(events, day, withOrigin);
    forall i, j | 0 <= i < j < |r|
      ensures r[j].allDay ==> r[i].allDay
    {
      assert KeyLe(EntryKey(r[i]), EntryKey(r[j]));
    }
  }

  /** `prevEvent && prevEvent.all_day && !event.all_day`. */
  predicate ShowDivider(r: seq<Entry>, i: int)
    requires 0 <= i < |r|
  {
    i > 0 && r[i - 1].allDay && !r[i].allDay
  }

  /** In the sorted list the divider is drawn at most once, between the all-day and the timed entries. */
  lemma DividerAtMostOnce(events: seq<Event>, day: Date, withOrigin: bool)
    requires AllWellFormed(events) && Valid(day)
    ensures var r := DayEntries(events, day, withOrigin);
      && (forall i, j | 0 <= i < |r| && 0 <= j < |r| && ShowDivider(r, i) && ShowDivider(r, j) :: i == j)
      && (forall i | 0 <= i < |r| && ShowDivider(r, i) ::
            (forall k | 0 <= k < i :: r[k].allDay) && (forall k | i <= k < |r| :: !r[k].allDay))
  {
    DayEntriesOrdered(events, day, withOrigin);
    DividerSplits(DayEntries(events, day, withOrigin));
  }

  /** With all-day entries first, a divider can only sit at the one boundary between the two groups. */
  lemma DividerSplits(r: seq<Entry>)
    requires forall i, j | 0 <= i < j < |r| :: r[j].allDay ==> r[i].allDay
    ensures forall i, j | 0 <= i < |r| && 0 <= j < |r| && ShowDivider(r, i) && ShowDivider(r, j) :: i == j
    ensures forall i | 0 <= i < |r| && ShowDivider(r, i) ::
      (forall k | 0 <= k < i :: r[k].allDay) && (forall k | i <= k < |r| :: !r[k].allDay)
  {
  }

  /** The month grid's variant: synthetic entries without `originalId`. */
  function Erase(x: Entry): Entry {
    x.(originalId := None)
  }

  lemma {:induction false} EraseAdditional(events: seq<Event>, day: Date)
    ensures Map(Additional(events, day, true), Erase) == Additional(events, day, false)
  {
    if events != [] {
      var init, last := events[..|events| - 1], events[|events| - 1];
      EraseAdditional(init, day);
      ErasePrepEntries(last, last.preps, day);
      MapConcat(Additional(init, day, true), Extras(last, day, true), Erase);
      MapConcat(PrepEntries(last, last.preps, day, true),
                if HasDeadlineOn(last, day) then [DeadlineEntry(last, true)] else [], Erase);
    }
  }

  lemma {:induction false} ErasePrepEntries(e: Event, preps: seq<PrepDate>, day: Date)
    ensures Map(PrepEntries(e, preps, day, true), Erase) == PrepEntries(e, preps, day, false)
  {
    if preps != [] {
      var init, p := preps[..|preps| - 1], preps[|preps| - 1];
      ErasePrepEntries(e, init, day);
      MapConcat(PrepEntries(e, init, day, true), if SameDay(p.date, day) then [PrepEntry(e, p, true)] else [], Erase);
    }
  }

  lemma {:induction false} EraseMain(events: seq<Event>, day: Date)
    requires AllWellFormed(events) && Valid(day)
    ensures Map(MainEntries(events, day), Erase) == MainEntries(events, day)
  {
    if events != [] {
      EraseMain(events[1..], day);
      MapConcat(if IsMain(events[0], day) then [NormalEntry(events[0])] else [], MainEntries(events[1..], day), Erase);
    }
  }

  /**
   * The month grid and the day sheet list the same entries in the same order for
   * every day: they differ only in the `originalId` the day sheet adds.
   */
  lemma ViewsAgree(events: seq<Event>, day: Date)
    requires AllWellFormed(events) && Valid(day)
    ensures Map(DayEntries(events, day, true), Erase) == DayEntries(events, day, false)
  {
    var main := MainEntries(events, day);
    EraseMain(events, day);
    EraseAdditional(events, day);
    MapConcat(main, Additional(events, day, true), Erase);
    SortByMap(main + Additional(events, day, true), EntryKey, Erase, EntryKey);
  }
}

=== FILE: edit_labels.dfy ===
/**
 * The label editor (`EditLabelsModal`): a copy of the colour presets that the
 * user relabels and reorders by dragging, saved with fresh order indices or
 * discarded on close.  Items are drawn 60 pixels tall; a pointer position is an
 * integer pixel count.
 */
module EditLabels {
  import opened Wrappers
  import opened Lists
  import Arith

  /** `ColorPreset`; `caption` is its `label`. */
  datatype ColorPreset = ColorPreset(id: string, caption: string, color: string, orderIndex: int)

  function PresetId(p: ColorPreset): string { p.id }

  function Ids(s: seq<ColorPreset>): (r: seq<string>)
    ensures |r| == |s| && forall k | 0 <= k < |s| :: r[k] == s[k].id
  {
    seq(|s|, k requires 0 <= k < |s| => s[k].id)
  }

  const ItemHeight := 60

  /** `splice(from, 1)` followed by `splice(to, 0, item)`: the item at `from` moves to `to`. */
  function Move<T>(s: seq<T>, from: nat, to: nat): (r: seq<T>)
    requires from < |s| && to < |s|
    ensures |r| == |s|
    ensures r[to] == s[from]
  {
    var t := WithoutIndex(s, from);
    t[..to] + [s[from]] + t[to..]
  }

  /** The move loses and invents nothing. */
  lemma MovePermutes<T>(s: seq<T>, from: nat, to: nat)
    requires from < |s| && to < |s|
    ensures multiset(Move(s, from, to)) == multiset(s)
  {
    var t := WithoutIndex(s, from);
    assert t == s[..from] + s[from + 1..];
    assert s == s[..from] + [s[from]] + s[from + 1..];
    var r := Move(s, from, to);
    assert r == t[..to] + [s[from]] + t[to..];
    assert t == t[..to] + t[to..];
    calc {
      multiset(r);
      multiset(t[..to]) + multiset{s[from]} + multiset(t[to..]);
      multiset(t) + multiset{s[from]};
      multiset(s[..from]) + multiset(s[from + 1..]) + multiset{s[from]};
      multiset(s);
    }
  }

  /** A move keeps the presets of the list, by id. */
  lemma MoveKeepsIds(s: seq<ColorPreset>, from: nat, to: nat)
    requires from < |s| && to < |s|
    ensures multiset(Ids(Move(s, from, to))) == multiset(Ids(s))
  {
    IdsMove(s, from, to);
    MovePermutes(Ids(s), from, to);
  }

  /** The other items keep their relative order: taking the moved item out of either list leaves the same list. */
  lemma MoveKeepsOthers<T>(s: seq<T>, from: nat, to: nat)
    requires from < |s| && to < |s|
    ensures WithoutIndex(Move(s, from, to), to) == WithoutIndex(s, from)
  {
    var t := WithoutIndex(s, from);
    var r := Move(s, from, to);
    assert r == t[..to] + [s[from]] + t[to..];
    assert r[..to] == t[..to] && r[to + 1..] == t[to..];
    assert WithoutIndex(r, to) == r[..to] + r[to + 1..];
    assert t == t[..to] + t[to..];
  }

  /** Dragging the item back where it came from restores the list. */
  lemma MoveBack<T>(s: seq<T>, from: nat, to: nat)
    requires from < |s| && to < |s|
    ensures Move(Move(s, from, to), to, from) == s
  {
    var r := Move(s, from, to);
    MoveKeepsOthers(s, from, to);
    var t := WithoutIndex(s, from);
    assert s == t[..from] + [s[from]] + t[from..];
  }

  lemma IdsMove(s: seq<ColorPreset>, from: nat, to: nat)
    requires from < |s| && to < |s|
    ensures Ids(Move(s, from, to)) == Move(Ids(s), from, to)
  {
    var t, u := WithoutIndex(s, from), WithoutIndex(Ids(s), from);
    assert Ids(t) == u;
    var a, b := Move(s, from, to), Move(Ids(s), from, to);
    assert a == t[..to] + [s[from]] + t[to..];
    assert b == u[..to] + [s[from].id] + u[to..];
    forall k | 0 <= k < |s| ensures Ids(a)[k] == b[k] {
      if k < to {
        assert a[k] == t[k] && b[k] == u[k];
      } else if k > to {
        assert a[k] == t[k - 1] && b[k] == u[k - 1];
      }
    }
  }

  /**
   * The slot whose band holds the dragged item's centre, when that is another
   * slot of the list: the `i` of the loop that ends in `break`, if any.
   */
  function Target(count: nat, dragged: nat, deltaY: int): (r: Option<nat>)
    ensures r.Some? ==> r.value < count && r.value != dragged
    ensures r.Some? ==> var center := dragged * ItemHeight + deltaY + ItemHeight / 2;
      r.value * ItemHeight <= center < r.value * ItemHeight + ItemHeight
  {
    var center := dragged * ItemHeight + deltaY + ItemHeight / 2;
    if 0 <= center && center / ItemHeight < count && center / ItemHeight != dragged then Some(center / ItemHeight) else None
  }

  /** No other slot's band holds the centre: the target is the only candidate. */
  lemma TargetUnique(count: nat, dragged: nat, deltaY: int, i: nat)
    requires i < count && i != dragged
    requires var center := dragged * ItemHeight + deltaY + ItemHeight / 2;
      i * ItemHeight <= center < i * ItemHeight + ItemHeight
    ensures Target(count, dragged, deltaY) == Some(i)
  {
    var center := dragged * ItemHeight + deltaY + ItemHeight / 2;
    Arith.DivModUnique(center, ItemHeight, i, center - i * ItemHeight);
  }

  /** `editedPresets.map((preset, index) => ({ ...preset, order_index: index }))`. */
  function Numbered(s: seq<ColorPreset>): (r: seq<ColorPreset>)
    ensures |r| == |s|
    ensures forall k | 0 <= k < |s| :: r[k] == s[k].(orderIndex := k)
  {
    seq(|s|, k requires 0 <= k < |s| => s[k].(orderIndex := k))
  }

  function Relabel(caption: string): ColorPreset -> ColorPreset {
    (p: ColorPreset) => p.(caption := caption)
  }

  class LabelEditor {
    /** The `colorPresets` the editor was opened with. */
    var presets: seq<ColorPreset>
    var edited: seq<ColorPreset>
    var draggedIndex: Option<nat>
    var draggedY: int
    var startY: int
    var isDragging: bool
    var modalStartY: Option<int>
    var modalCurrentY: Option<int>

    /** The edited list holds the opened presets (by id), reordered; a dragged index points into it. */
    ghost predicate Valid()
      reads this
    {
      && multiset(Ids(edited)) == multiset(Ids(presets))
      && (draggedIndex.Some? ==> draggedIndex.value < |edited|)
    }

    constructor (colorPresets: seq<ColorPreset>)
      ensures Valid()
      ensures presets == colorPresets && edited == colorPresets
      ensures draggedIndex.None? && draggedY == 0 && startY == 0 && !isDragging
      ensures modalStartY.None? && modalCurrentY.None?
    {
      presets := colorPresets;
      edited := colorPresets;
      draggedIndex := None;
      draggedY := 0;
      startY := 0;
      isDragging := false;
      modalStartY := None;
      modalCurrentY := None;
    }

    /** `handleItemMouseDown` / `handleItemTouchStart` on the item at `index`. */
    method Press(index: nat, y: int)
      requires Valid() && index < |edited|
      modifies this
      ensures Valid()
      ensures draggedIndex == Some(index) && startY == y && draggedY == 0 && isDragging
      ensures presets == old(presets) && edited == old(edited)
      ensures modalStartY == old(modalStartY) && modalCurrentY == old(modalCurrentY)
    {
      draggedIndex := Some(index);
      startY := y;
      draggedY := 0;
      isDragging := true;
    }

    /**
     * `handleItemMouseMove` / `handleItemTouchMove`: follow the pointer and, when
     * the dragged item's centre enters another slot, move it there (once).
     */
    method Drag(currentY: int)
      requires Valid()
      modifies this
      ensures Valid()
      ensures presets == old(presets) && isDragging == old(isDragging)
      ensures modalStartY == old(modalStartY) && modalCurrentY == old(modalCurrentY)
      ensures old(draggedIndex).None? || !old(isDragging) ==>
        && edited == old(edited) && draggedIndex == old(draggedIndex)
        && draggedY == old(draggedY) && startY == old(startY)
      ensures && old(draggedIndex).Some? && old(isDragging)
              && Target(|old(edited)|, old(draggedIndex).value, currentY - old(startY)).None? ==>
        && edited == old(edited) && draggedIndex == old(draggedIndex)
        && draggedY == currentY - old(startY) && startY == old(startY)
      ensures && old(draggedIndex).Some? && old(isDragging)
              && Target(|old(edited)|, old(draggedIndex).value, currentY - old(startY)).Some? ==>
        var i := Target(|old(edited)|, old(draggedIndex).value, currentY - old(startY)).value;
        && edited == Move(old(edited), old(draggedIndex).value, i)
        && draggedIndex == Some(i) && draggedY == 0 && startY == currentY
    {
      if draggedIndex.None? || !isDragging {
        return;
      }
      var dragged := draggedIndex.value;
      var deltaY := currentY - startY;
      draggedY := deltaY;
      var items := |edited|;
      ghost var target := Target(items, dragged, deltaY);
      for i := 0 to items
        invariant edited == old(edited) && draggedIndex == Some(dragged) && startY == old(startY)
        invariant draggedY == deltaY
        invariant target.None? || i <= target.value
      {
        var center := dragged * ItemHeight + deltaY + ItemHeight / 2;
        if center >= i * ItemHeight && center < i * ItemHeight + ItemHeight && i != dragged {
          TargetUnique(items, dragged, deltaY, i);
          MoveKeepsIds(edited, dragged, i);
          edited := Move(edited, dragged, i);
          draggedIndex := Some(i);
          startY := currentY;
          draggedY := 0;
          return;
        }
      }
      assert target.None?;
    }

    /** `handleItemMouseUp` / `handleItemTouchEnd`. */
    method Release()
      requires Valid()
      modifies this
      ensures Valid()
      ensures draggedIndex.None? && draggedY == 0 && !isDragging
      ensures presets == old(presets) && edited == old(edited) && startY == old(startY)
      ensures modalStartY == old(modalStartY) && modalCurrentY == old(modalCurrentY)
    {
      draggedIndex := None;
      draggedY := 0;
      isDragging := false;
    }

    /** `handleLabelChange`: only the caption of the preset with the id changes. */
    method ChangeLabel(id: string, caption: string)
      requires Valid()
      modifies this
      ensures Valid()
      ensures |edited| == |old(edited)|
      ensures forall k | 0 <= k < |edited| ::
        edited[k] == if old(edited)[k].id == id then old(edited)[k].(caption := caption) else old(edited)[k]
      ensures presets == old(presets) && draggedIndex == old(draggedIndex) && isDragging == old(isDragging)
      ensures draggedY == old(draggedY) && startY == old(startY)
      ensures modalStartY == old(modalStartY) && modalCurrentY == old(modalCurrentY)
    {
      var relabelled := UpdateWhere(edited, id, PresetId, Relabel(caption));
      assert Ids(relabelled) == Ids(edited);
      edited := relabelled;
    }

    /** `handleSave`: what goes to `onUpdateLabels`; the editor itself is left as it is. */
    method Save() returns (saved: seq<ColorPreset>)
      requires Valid()
      ensures |saved| == |edited|
      ensures forall k | 0 <= k < |saved| :: saved[k].orderIndex == k
      ensures forall k | 0 <= k < |saved| :: saved[k].(orderIndex := edited[k].orderIndex) == edited[k]
      ensures multiset(Ids(saved)) == multiset(Ids(presets))
    {
      saved := Numbered(edited);
      assert Ids(saved) == Ids(edited);
    }

    /** `handleClose`: the edits are dropped and the opened presets come back. */
    method Close()
      requires Valid()
      modifies this
      ensures Valid()
      ensures edited == presets == old(presets)
      ensures draggedIndex.None? && modalStartY.None? && modalCurrentY.None?
      ensures draggedY == old(draggedY) && startY == old(startY) && isDragging == old(isDragging)
    {
      modalStartY := None;
      modalCurrentY := None;
      draggedIndex := None;
      edited := presets;
    }
  }
}

=== FILE: lists.dfy ===
/**
 * The array methods the pages and editors rebuild their lists with:
 * `filter`, `find`, and `map` with an id test (update by id).
 */
module Lists {
  import opened Wrappers

  /** `s.filter(p)`. */
  function Filter<T>(s: seq<T>, p: T -> bool): (r: seq<T>)
    ensures |r| <= |s|
    ensures forall x | x in r :: x in s && p(x)
    ensures forall x | x in s && p(x) :: x in r
  {
    if s == [] then []
    else (if p(s[0]) then [s[0]] else []) + Filter(s[1..], p)
  }

  /** Filtering keeps the order: the result for a concatenation is the results for its parts, in turn. */
  lemma {:induction false} FilterConcat<T>(a: seq<T>, b: seq<T>, p: T -> bool)
    ensures Filter(a + b, p) == Filter(a, p) + Filter(b, p)
  {
    if a == [] {
      assert a + b == b;
    } else {
      assert (a + b)[1..] == a[1..] + b;
      FilterConcat(a[1..], b, p);
    }
  }

  /** Filtering keeps each passing element as often as the list holds it, and no other. */
  lemma {:induction false} FilterMultiset<T>(s: seq<T>, p: T -> bool, x: T)
    ensures multiset(Filter(s, p))[x] == if p(x) then multiset(s)[x] else 0
  {
    if s != [] {
      FilterMultiset(s[1..], p, x);
      assert s == [s[0]] + s[1..];
    }
  }

  /** A filter every element passes changes nothing. */
  lemma {:induction false} FilterAll<T>(s: seq<T>, p: T -> bool)
    requires forall x | x in s :: p(x)
    ensures Filter(s, p) == s
  {
    if s != [] {
      assert s[0] in s;
      assert forall x | x in s[1..] :: x in s;
      FilterAll(s[1..], p);
    }
  }

  /** A filter no element passes leaves nothing. */
  lemma {:induction false} FilterNone<T>(s: seq<T>, p: T -> bool)
    requires forall x | x in s :: !p(x)
    ensures Filter(s, p) == []
  {
    if s != [] {
      assert s[0] in s;
      assert forall x | x in s[1..] :: x in s;
      FilterNone(s[1..], p);
    }
  }

  /** The number of elements that pass `p`. */
  function Count<T>(s: seq<T>, p: T -> bool): nat {
    if s == [] then 0 else (if p(s[0]) then 1 else 0) + Count(s[1..], p)
  }

  /** Two complementary filters split a list: their lengths add up to its length. */
  lemma {:induction false} FilterSplits<T>(s: seq<T>, p: T -> bool, q: T -> bool)
    requires forall x | x in s :: p(x) != q(x)
    ensures |Filter(s, p)| + |Filter(s, q)| == |s|
    ensures |Filter(s, p)| == Count(s, p)
  {
    if s != [] {
      assert s[0] in s;
      assert forall x | x in s[1..] :: x in s;
      FilterSplits(s[1..], p, q);
    }
  }

  /** `s.find(p)`: the first element that passes, if any. */
  function Find<T>(s: seq<T>, p: T -> bool): (r: Option<T>)
    ensures r.Some? ==> r.value in s && p(r.value)
    ensures r.None? <==> forall x | x in s :: !p(x)
  {
    if s == [] then None
    else if p(s[0]) then Some(s[0])
    else Find(s[1..], p)
  }

  /** What `find` returns comes first: every element before it fails the test. */
  lemma {:induction false} FindIsFirst<T>(s: seq<T>, p: T -> bool)
    requires Find(s, p).Some?
    ensures exists k | 0 <= k < |s| :: s[k] == Find(s, p).value && forall j | 0 <= j < k :: !p(s[j])
  {
    if !p(s[0]) {
      FindIsFirst(s[1..], p);
      var k :| 0 <= k < |s| - 1 && s[1..][k] == Find(s, p).value && forall j | 0 <= j < k :: !p(s[1..][j]);
      assert s[k + 1] == Find(s, p).value;
      assert forall j | 0 <= j < k + 1 :: !p(s[j]) by {
        forall j | 0 <= j < k + 1 ensures !p(s[j]) {
          if j > 0 {
            assert s[j] == s[1..][j - 1];
          }
        }
      }
    } else {
      assert s[0] == Find(s, p).value;
    }
  }

  /**
   * `s.filter((_, i) => i !== index)`, which is `splice(index, 1)` for an index
   * inside the list: the entries before it stay in place and the later ones
   * shift down by one; an index outside the list removes nothing.
   */
  function WithoutIndex<T>(s: seq<T>, index: int): (r: seq<T>)
    ensures 0 <= index < |s| ==> |r| == |s| - 1
    ensures 0 <= index < |s| ==> forall k | 0 <= k < index :: r[k] == s[k]
    ensures 0 <= index < |s| ==> forall k | index <= k < |s| - 1 :: r[k] == s[k + 1]
    ensures !(0 <= index < |s|) ==> r == s
  {
    if 0 <= index < |s| then s[..index] + s[index + 1..] else s
  }

  /** Exactly the entry at `index` goes. */
  lemma WithoutIndexCount<T>(s: seq<T>, index: int)
    requires 0 <= index < |s|
    ensures multiset(WithoutIndex(s, index)) + multiset{s[index]} == multiset(s)
  {
    assert s == s[..index] + [s[index]] + s[index + 1..];
  }

  /** `s.map(x => idOf(x) === id ? patch(x) : x)`. */
  function UpdateWhere<T>(s: seq<T>, id: string, idOf: T -> string, patch: T -> T): (r: seq<T>)
    ensures |r| == |s|
    ensures forall k | 0 <= k < |s| && idOf(s[k]) != id :: r[k] == s[k]
    ensures forall k | 0 <= k < |s| && idOf(s[k]) == id :: r[k] == patch(s[k])
  {
    if s == [] then []
    else
      var head := if idOf(s[0]) == id then patch(s[0]) else s[0];
      [head] + UpdateWhere(s[1..], id, idOf, patch)
  }

  /** `s.filter(x => idOf(x) !== id)`. */
  function RemoveWhere<T>(s: seq<T>, id: string, idOf: T -> string): (r: seq<T>)
    ensures |r| <= |s|
    ensures forall x | x in r :: x in s && idOf(x) != id
    ensures forall x | x in s && idOf(x) != id :: x in r
  {
    Filter(s, x => idOf(x) != id)
  }

  /** A delete works element by element: one element stays exactly when its id differs. */
  lemma RemoveWhereSingle<T>(x: T, id: string, idOf: T -> string)
    ensures RemoveWhere([x], id, idOf) == if idOf(x) != id then [x] else []
  {
    assert [x][1..] == [];
  }

  /** A delete keeps the order: deleting from a concatenation deletes from its parts, in turn. */
  lemma RemoveWhereConcat<T>(a: seq<T>, b: seq<T>, id: string, idOf: T -> string)
    ensures RemoveWhere(a + b, id, idOf) == RemoveWhere(a, id, idOf) + RemoveWhere(b, id, idOf)
  {
    FilterConcat(a, b, x => idOf(x) != id);
  }

  /** A delete keeps every other element as often as it occurs, and no element with the id. */
  lemma RemoveWhereMultiset<T>(s: seq<T>, id: string, idOf: T -> string, x: T)
    ensures multiset(RemoveWhere(s, id, idOf))[x] == if idOf(x) != id then multiset(s)[x] else 0
  {
    FilterMultiset(s, y => idOf(y) != id, x);
  }

  /** The elements with the id and the ones a delete keeps add up to the whole list. */
  lemma RemoveWhereCount<T>(s: seq<T>, id: string, idOf: T -> string)
    ensures |RemoveWhere(s, id, idOf)| + Count(s, x => idOf(x) == id) == |s|
  {
    FilterSplits(s, x => idOf(x) == id, x => idOf(x) != id);
  }

  /**
   * An update that keeps ids touches nothing a delete of the same id would keep:
   * updating and then deleting is deleting.
   */
  lemma {:induction false} RemoveAfterUpdate<T>(s: seq<T>, id: string, idOf: T -> string, patch: T -> T)
    requires forall x | x in s :: idOf(patch(x)) == idOf(x)
    ensures RemoveWhere(UpdateWhere(s, id, idOf, patch), id, idOf) == RemoveWhere(s, id, idOf)
  {
    if s != [] {
      assert s[0] in s;
      assert forall x | x in s[1..] :: x in s;
      RemoveAfterUpdate(s[1..], id, idOf, patch);
      var u := UpdateWhere(s, id, idOf, patch);
      assert u == [u[0]] + UpdateWhere(s[1..], id, idOf, patch);
      assert [u[0]] + UpdateWhere(s[1..], id, idOf, patch) == u;
      FilterConcat([u[0]], UpdateWhere(s[1..], id, idOf, patch), x => idOf(x) != id);
      FilterConcat([s[0]], s[1..], x => idOf(x) != id);
      assert [s[0]] + s[1..] == s;
    }
  }

  /** Removing by the id of an element just put in front of a list without that id gives the list back. */
  lemma RemoveFresh<T>(s: seq<T>, x: T, id: string, idOf: T -> string)
    requires idOf(x) == id
    requires forall y | y in s :: idOf(y) != id
    ensures RemoveWhere([x] + s, id, idOf) == s
  {
    assert ([x] + s)[1..] == s;
    FilterAll(s, x => idOf(x) != id);
  }

  /** A delete for an id no element has changes nothing. */
  lemma RemoveAbsent<T>(s: seq<T>, id: string, idOf: T -> string)
    requires forall x | x in s :: idOf(x) != id
    ensures RemoveWhere(s, id, idOf) == s
  {
    FilterAll(s, x => idOf(x) != id);
  }

  /** An update for an id no element has changes nothing. */
  lemma UpdateAbsent<T>(s: seq<T>, id: string, idOf: T -> string, patch: T -> T)
    requires forall x | x in s :: idOf(x) != id
    ensures UpdateWhere(s, id, idOf, patch) == s
  {
    var r := UpdateWhere(s, id, idOf, patch);
    assert forall k | 0 <= k < |s| :: r[k] == s[k] by {
      forall k | 0 <= k < |s| ensures r[k] == s[k] {
        assert s[k] in s;
      }
    }
  }
}

=== FILE: month_layout.dfy ===
/**
 * The month grid of `CalendarGrid`: how many weeks the month spans, how many
 * entries each day cell can show, the cells that pad the grid before and after
 * the month, and the horizontal swipe that moves to the neighbouring month.
 */
module MonthLayout {
  import opened Wrappers
  import opened CivilDates
  import opened DayOccurrences

  /** `Math.ceil((startDay + daysInMonth) / 7)`. */
  function TotalWeeks(startDay: int, daysInMonth: int): (w: int)
    requires 0 <= startDay < 7 && 28 <= daysInMonth <= 31
    ensures 7 * (w - 1) < startDay + daysInMonth <= 7 * w
    ensures 4 <= w <= 6
  {
    (startDay + daysInMonth + 6) / 7
  }

  /** The per-cell entry budget: 4 slots in a six-week month, 5 in a five-week one, otherwise 6. */
  function MaxEventsPerDay(totalWeeks: int): (n: int)
    ensures 4 <= n <= 6
    ensures totalWeeks >= 6 <==> n == 4
    ensures totalWeeks == 5 <==> n == 5
  {
    if totalWeeks >= 6 then 4 else if totalWeeks == 5 then 5 else 6
  }

  /** What a day cell renders: the first `max` entries and a "+N" count of the rest. */
  datatype DayCell = DayCell(shown: seq<Entry>, overflow: nat)

  function CellContents(entries: seq<Entry>, max: nat): (c: DayCell)
    ensures |c.shown| == if |entries| < max then |entries| else max
    ensures c.shown <= entries
    ensures c.overflow > 0 <==> |entries| > max
    ensures |c.shown| + c.overflow == |entries|
  {
    if |entries| > max then DayCell(entries[..max], |entries| - max)
    else DayCell(entries, 0)
  }

  /** One cell of the grid. */
  datatype Cell = Leading(day: int) | Current(day: int, contents: DayCell) | Trailing(day: int)

  /** `remainingCells`: blanks after the month that complete the last week. */
  function TrailingCount(startDay: int, daysInMonth: int): (r: int)
    ensures 0 <= r < 7
    ensures (startDay + daysInMonth + r) % 7 == 0
  {
    var total := startDay + daysInMonth;
    if total % 7 == 0 then 0 else 7 - total % 7
  }

  /** The month a grid shows, with the facts the three loops use. */
  datatype MonthView = MonthView(year: int, month: int)

  predicate ValidView(v: MonthView) {
    1 <= v.month <= 12
  }

  function PrevMonth(y: int, m: int): (r: (int, int))
    requires 1 <= m <= 12
    ensures 1 <= r.1 <= 12
    ensures 12 * r.0 + r.1 == 12 * y + m - 1
  {
    if m == 1 then (y - 1, 12) else (y, m - 1)
  }

  /** `firstDay.getDay()`. */
  function StartDay(v: MonthView): (s: int)
    requires ValidView(v)
    ensures 0 <= s < 7
  {
    Weekday(Date(v.year, v.month, 1))
  }

  /** `new Date(year, month, 0).getDate()`: the length of the previous month. */
  function PrevMonthLastDay(v: MonthView): int
    requires ValidView(v)
  {
    var p := PrevMonth(v.year, v.month);
    DaysInMonth(p.0, p.1)
  }

  /** The cell at grid position `i`: the tail of the previous month, the month's days, then the next month's first days. */
  function CellAt(v: MonthView, events: seq<Event>, i: int): Cell
    requires ValidView(v) && AllWellFormed(events) && i >= 0
  {
    var s, d := StartDay(v), DaysInMonth(v.year, v.month);
    if i < s then Leading(PrevMonthLastDay(v) - s + 1 + i)
    else if i < s + d then Current(i - s + 1, DayCellOf(v, events, i - s + 1))
    else Trailing(i - s - d + 1)
  }

  /** The contents of the cell of `day`: that day's entries, cut to the month's budget. */
  function DayCellOf(v: MonthView, events: seq<Event>, day: int): DayCell
    requires ValidView(v) && AllWellFormed(events) && 1 <= day <= DaysInMonth(v.year, v.month)
  {
    CellContents(DayEntries(events, Date(v.year, v.month, day), false),
                 MaxEventsPerDay(TotalWeeks(StartDay(v), DaysInMonth(v.year, v.month))))
  }

  /** The first `n` cells of the grid are in place. */
  predicate LaidOut(v: MonthView, events: seq<Event>, cells: seq<Cell>, n: int)
    requires ValidView(v) && AllWellFormed(events)
  {
    |cells| == n && forall k | 0 <= k < |cells| :: cells[k] == CellAt(v, events, k)
  }

  /** Appending the next cell of the grid keeps the prefix laid out. */
  lemma LaidOutGrows(v: MonthView, events: seq<Event>, cells: seq<Cell>, cell: Cell)
    requires ValidView(v) && AllWellFormed(events)
    requires LaidOut(v, events, cells, |cells|) && cell == CellAt(v, events, |cells|)
    ensures LaidOut(v, events, cells + [cell], |cells| + 1)
  {
    var r := cells + [cell];
    forall k | 0 <= k < |r| ensures r[k] == CellAt(v, events, k) {
      if k < |cells| {
        assert r[k] == cells[k];
      } else {
        assert k == |cells| && r[k] == cell;
      }
    }
  }

  /** What the three loops of `renderCalendarDays` produce, cell by cell. */
  predicate IsLayout(v: MonthView, events: seq<Event>, cells: seq<Cell>)
    requires ValidView(v) && AllWellFormed(events)
  {
    var s, d := StartDay(v), DaysInMonth(v.year, v.month);
    LaidOut(v, events, cells, s + d + TrailingCount(s, d))
  }

  /** `renderCalendarDays`: three `push` loops, one per kind of cell. */
  method RenderCalendarDays(v: MonthView, events: seq<Event>) returns (cells: seq<Cell>)
    requires ValidView(v) && AllWellFormed(events)
    ensures IsLayout(v, events, cells)
    ensures |cells| == 7 * TotalWeeks(StartDay(v), DaysInMonth(v.year, v.month))
  {
    cells := PushLeading(v, events);
    cells := PushMonthDays(v, events, cells);
    cells := PushTrailing(v, events, cells);
  }

  /** The first loop: the last `startDay` days of the previous month. */
  method PushLeading(v: MonthView, events: seq<Event>) returns (cells: seq<Cell>)
    requires ValidView(v) && AllWellFormed(events)
    ensures LaidOut(v, events, cells, StartDay(v))
  {
    var startDay := StartDay(v);
    var prevMonthLastDay := PrevMonthLastDay(v);
    cells := [];
    var i := startDay - 1;
    while i >= 0
      invariant -1 <= i < startDay
      invariant LaidOut(v, events, cells, startDay - 1 - i)
    {
      cells := cells + [Leading(prevMonthLastDay - i)];
      i := i - 1;
    }
  }

  /** The second loop: one cell per day of the month, with that day's entries. */
  method PushMonthDays(v: MonthView, events: seq<Event>, leading: seq<Cell>) returns (cells: seq<Cell>)
    requires ValidView(v) && AllWellFormed(events)
    requires LaidOut(v, events, leading, StartDay(v))
    ensures LaidOut(v, events, cells, StartDay(v) + DaysInMonth(v.year, v.month))
  {
    var startDay := StartDay(v);
    var daysInMonth := DaysInMonth(v.year, v.month);
    var max := MaxEventsPerDay(TotalWeeks(startDay, daysInMonth));
    cells := leading;
    for day := 1 to daysInMonth + 1
      invariant LaidOut(v, events, cells, startDay + day - 1)
    {
      var dayEntries := DayEntries(events, Date(v.year, v.month, day), false);
      var cell := Current(day, CellContents(dayEntries, max));
      assert cell == CellAt(v, events, |cells|);
      LaidOutGrows(v, events, cells, cell);
      cells := cells + [cell];
    }
  }

  /** The third loop: the first days of the next month, up to the end of the week. */
  method PushTrailing(v: MonthView, events: seq<Event>, upToMonthEnd: seq<Cell>) returns (cells: seq<Cell>)
    requires ValidView(v) && AllWellFormed(events)
    requires LaidOut(v, events, upToMonthEnd, StartDay(v) + DaysInMonth(v.year, v.month))
    ensures IsLayout(v, events, cells)
  {
    var startDay := StartDay(v);
    var daysInMonth := DaysInMonth(v.year, v.month);
    var remainingCells := TrailingCount(startDay, daysInMonth);
    cells := upToMonthEnd;
    for day := 1 to remainingCells + 1
      invariant LaidOut(v, events, cells, startDay + daysInMonth + day - 1)
    {
      cells := cells + [Trailing(day)];
    }
  }

  /** A month of 28 days that starts on a Sunday fills exactly four weeks; a 31-day month from Friday needs six. */
  lemma WeeksExtremes()
    ensures TotalWeeks(0, 28) == 4 && MaxEventsPerDay(TotalWeeks(0, 28)) == 6
    ensures TotalWeeks(5, 31) == 6 && MaxEventsPerDay(TotalWeeks(5, 31)) == 4
  {
  }

  /** A touch point. */
  datatype Point = Point(x: int, y: int)

  /**
   * `handleTouchEnd`: the month step a swipe asks for (+1 next, -1 previous), or
   * none when a touch point is missing or the swipe is too short or too vertical.
   */
  function SwipeStep(touchStart: Option<Point>, touchEnd: Option<Point>): (r: Option<int>)
    ensures r.Some? ==> r.value == 1 || r.value == -1
  {
    if touchStart.None? || touchEnd.None? then None
    else
      var deltaX := touchStart.value.x - touchEnd.value.x;
      var deltaY := touchStart.value.y - touchEnd.value.y;
      if Abs(deltaX) > Abs(deltaY) && Abs(deltaX) > 50 then
        Some(if deltaX > 0 then 1 else -1)
      else None
  }

  function Abs(n: int): int {
    if n < 0 then -n else n
  }

  /** `new Date(year, month ± 1, 1)`. */
  function StepMonth(v: MonthView, step: int): (r: MonthView)
    requires ValidView(v) && (step == 1 || step == -1)
    ensures ValidView(r)
    ensures 12 * r.year + r.month == 12 * v.year + v.month + step
  {
    var n := if step == 1 then NextMonth(v.year, v.month) else PrevMonth(v.year, v.month);
    MonthView(n.0, n.1)
  }

  /** A swipe changes the month exactly when it is mostly horizontal and longer than 50 pixels; leftward means next. */
  lemma SwipeDecision(a: Point, b: Point)
    ensures SwipeStep(Some(a), Some(b)).Some? <==> Abs(a.x - b.x) > Abs(a.y - b.y) && Abs(a.x - b.x) > 50
    ensures SwipeStep(Some(a), Some(b)) == Some(1) <==> a.x - b.x > 50 && a.x - b.x > Abs(a.y - b.y)
    ensures SwipeStep(Some(b), Some(a)) == Some(-1) <==> SwipeStep(Some(a), Some(b)) == Some(1)
  {
  }

  /** Swiping to the next month and back returns to the month shown before. */
  lemma StepMonthRoundTrip(v: MonthView)
    requires ValidView(v)
    ensures StepMonth(StepMonth(v, 1), -1) == v
    ensures StepMonth(StepMonth(v, -1), 1) == v
  {
  }
}

=== FILE: notification_editor.dfy ===
/**
 * The reminder editor (`NotificationModal`): every handler builds a new list of
 * reminders from the current one with `filter`, `map` or concatenation.
 */
module NotificationEditor {
  import opened Wrappers
  import opened Notifications
  import opened Lists

  /** The entries whose type is not `t`, in order. */
  function WithoutType(s: seq<NotificationConfig>, t: NotificationType): (r: seq<NotificationConfig>)
    ensures forall n | n in r :: n in s && n.kind != t
  {
    Filter(s, (n: NotificationConfig) => n.kind != t)
  }

  /** Dropping a type keeps the other entries in order: it works part by part. */
  lemma WithoutTypeConcat(a: seq<NotificationConfig>, b: seq<NotificationConfig>, t: NotificationType)
    ensures WithoutType(a + b, t) == WithoutType(a, t) + WithoutType(b, t)
  {
    FilterConcat(a, b, (n: NotificationConfig) => n.kind != t);
  }

  /** Dropping a type keeps each other entry exactly as often as it occurs. */
  lemma WithoutTypeMultiset(s: seq<NotificationConfig>, t: NotificationType, n: NotificationConfig)
    ensures multiset(WithoutType(s, t))[n] == if n.kind != t then multiset(s)[n] else 0
  {
    FilterMultiset(s, (m: NotificationConfig) => m.kind != t, n);
  }

  predicate HasType(s: seq<NotificationConfig>, t: NotificationType) {
    exists n | n in s :: n.kind == t
  }

  /** A preset reminder as the toggle adds it: measured from the start, no custom fields. */
  function Preset(t: NotificationType): NotificationConfig {
    NotificationConfig(t, 0, None, Start)
  }

  /** `handlePresetToggle`: drop every entry of the type if there is one, else append the preset. */
  function TogglePreset(s: seq<NotificationConfig>, t: NotificationType): (r: seq<NotificationConfig>)
    ensures HasType(s, t) ==> r == WithoutType(s, t)
    ensures HasType(s, t) ==> !HasType(r, t) && forall n | n in s && n.kind != t :: n in r
    ensures !HasType(s, t) ==> r == s + [Preset(t)]
  {
    if HasType(s, t) then WithoutType(s, t) else s + [Preset(t)]
  }

  /** Switching a preset on and off again restores the list. */
  lemma ToggleTwiceRestores(s: seq<NotificationConfig>, t: NotificationType)
    requires !HasType(s, t)
    ensures TogglePreset(TogglePreset(s, t), t) == s
  {
    var once := s + [Preset(t)];
    assert Preset(t) in once;
    FilterConcat(s, [Preset(t)], (n: NotificationConfig) => n.kind != t);
    FilterAll(s, (n: NotificationConfig) => n.kind != t);
    assert WithoutType([Preset(t)], t) == [];
  }

  /** The custom reminder form. */
  datatype CustomForm = CustomForm(value: int, unit: TimeUnit, referenceTime: ReferenceTime, shown: bool)

  const InitialForm: CustomForm := CustomForm(1, Minute, Start, false)

  /** `handleAddCustom`: append the reminder the form describes and reset the form. */
  function AddCustom(s: seq<NotificationConfig>, form: CustomForm): (r: (seq<NotificationConfig>, CustomForm))
    ensures |r.0| == |s| + 1 && r.0[..|s|] == s
    ensures r.0[|s|] == NotificationConfig(CustomType, form.value, Some(form.unit), form.referenceTime)
    ensures r.1 == CustomForm(1, Minute, Start, false)
  {
    (s + [NotificationConfig(CustomType, form.value, Some(form.unit), form.referenceTime)], InitialForm)
  }

  /** A reminder added with the form's clamped value fires before its reference instant. */
  lemma AddedCustomFiresEarlier(s: seq<NotificationConfig>, form: CustomForm, start: int, end: int)
    requires form.value >= 1
    ensures var n := AddCustom(s, form).0[|s|];
      CalculateNotificationTime(ReferenceInstant(n, start, end), n) < ReferenceInstant(n, start, end)
  {
    var n := AddCustom(s, form).0[|s|];
    CustomFiresEarlier(ReferenceInstant(n, start, end), n);
  }

  /** `handleReferenceTimeChange`: entries of type `t` now measure from `referenceTime`. */
  function ChangeReference(s: seq<NotificationConfig>, t: NotificationType, referenceTime: ReferenceTime): (r: seq<NotificationConfig>)
    ensures |r| == |s|
    ensures forall k | 0 <= k < |s| ::
      r[k] == if s[k].kind == t then s[k].(referenceTime := referenceTime) else s[k]
  {
    if s == [] then []
    else
      var head := if s[0].kind == t then s[0].(referenceTime := referenceTime) else s[0];
      [head] + ChangeReference(s[1..], t, referenceTime)
  }

  /** A reference change touches only the entries of its type, and only their reference. */
  lemma ReferenceChangeIsLocal(s: seq<NotificationConfig>, t: NotificationType, referenceTime: ReferenceTime)
    ensures WithoutType(ChangeReference(s, t, referenceTime), t) == WithoutType(s, t)
    ensures forall k | 0 <= k < |s| ::
      && ChangeReference(s, t, referenceTime)[k].kind == s[k].kind
      && ChangeReference(s, t, referenceTime)[k].customValue == s[k].customValue
      && ChangeReference(s, t, referenceTime)[k].customUnit == s[k].customUnit
  {
    ChangeReferenceFiltered(s, t, referenceTime);
  }

  lemma {:induction false} ChangeReferenceFiltered(s: seq<NotificationConfig>, t: NotificationType, referenceTime: ReferenceTime)
    ensures WithoutType(ChangeReference(s, t, referenceTime), t) == WithoutType(s, t)
  {
    if s != [] {
      var r := ChangeReference(s, t, referenceTime);
      assert r[1..] == ChangeReference(s[1..], t, referenceTime);
      ChangeReferenceFiltered(s[1..], t, referenceTime);
    }
  }

  /** `Math.max(1, parseInt(text) || 1)`, with `None` for text that is not a number. */
  function ClampCustomValue(parsed: Option<int>): (v: int)
    ensures v >= 1
    ensures parsed.Some? && parsed.value >= 1 ==> v == parsed.value
    ensures parsed.None? || parsed.value < 1 ==> v == 1
  {
    var n := if parsed.Some? && parsed.value != 0 then parsed.value else 1;
    if n > 1 then n else 1
  }
}

=== FILE: notifications.dfy ===
/**
 * Notification times of an event (`src/lib/notifications.ts`): the instant each
 * configured reminder fires, and the timer delays `scheduleEventNotifications`
 * sets up.  Instants are milliseconds on the local clock; a day is 1440 minutes
 * (no daylight-saving shifts).
 */
module Notifications {
  import opened Wrappers

  datatype NotificationType = AtTime | Before10Min | Before1Hour | CustomType
  datatype TimeUnit = Minute | Hour | Day | Week
  datatype ReferenceTime = Start | End

  /**
   * `NotificationConfig`; an absent `customValue` is 0 (the source tests it for
   * truthiness).
   */
  datatype NotificationConfig = NotificationConfig(
    kind: NotificationType,
    customValue: int,
    customUnit: Option<TimeUnit>,
    referenceTime: ReferenceTime)

  const MinuteMs: int := 60000

  /** The largest delay `setTimeout` is given. */
  const MaxDelay: int := 2147483647

  function UnitMinutes(u: TimeUnit): (m: int)
    ensures m > 0
  {
    match u
    case Minute => 1
    case Hour => 60
    case Day => 1440
    case Week => 10080
  }

  /**
   * `calculateNotificationTime`: the reference instant moved back by the
   * reminder's lead time, `setMinutes`/`setHours`/`setDate` on a copy of it.
   */
  function CalculateNotificationTime(reference: int, n: NotificationConfig): (t: int)
    ensures n.kind == AtTime ==> t == reference
    ensures n.kind == Before10Min ==> t == reference - 10 * MinuteMs
    ensures n.kind == Before1Hour ==> t == reference - 60 * MinuteMs
    ensures n.kind == CustomType && (n.customValue == 0 || n.customUnit.None?) ==> t == reference
    ensures n.kind == CustomType && n.customValue != 0 && n.customUnit.Some? ==>
      reference - t == n.customValue * UnitMinutes(n.customUnit.value) * MinuteMs
  {
    match n.kind
    case AtTime => reference
    case Before10Min => reference - 10 * MinuteMs
    case Before1Hour => reference - 60 * 60 * 1000
    case CustomType =>
      if n.customValue != 0 && n.customUnit.Some? then
        var value := n.customValue;
        match n.customUnit.value
        case Minute => reference - value * MinuteMs
        case Hour => reference - value * 60 * MinuteMs
        case Day => reference - value * 24 * 60 * MinuteMs
        case Week => reference - value * 7 * 24 * 60 * MinuteMs
      else reference
  }

  /** A positive custom lead time always fires strictly before the reference instant. */
  lemma CustomFiresEarlier(reference: int, n: NotificationConfig)
    requires n.kind == CustomType && n.customValue >= 1 && n.customUnit.Some?
    ensures CalculateNotificationTime(reference, n) <= reference - MinuteMs
  {
    var m := UnitMinutes(n.customUnit.value);
    assert n.customValue * m >= 1 by {
      assert n.customValue * m >= m;
    }
    assert n.customValue * m * MinuteMs >= MinuteMs;
  }

  /** The instant a reminder refers to: the event's start, or else its end. */
  function ReferenceInstant(n: NotificationConfig, start: int, end: int): int {
    if n.referenceTime == Start then start else end
  }

  /** `Math.min(delay, 2147483647)`. */
  function Capped(delay: int): int {
    if delay < MaxDelay then delay else MaxDelay
  }

  /**
   * The delays handed to `setTimeout` for `notifications`, in order: one per
   * reminder whose time is still in the future at `now`.
   */
  function Scheduled(notifications: seq<NotificationConfig>, start: int, end: int, now: int): seq<int> {
    if notifications == [] then []
    else
      var n := notifications[|notifications| - 1];
      var t := CalculateNotificationTime(ReferenceInstant(n, start, end), n);
      Scheduled(notifications[..|notifications| - 1], start, end, now)
      + (if t <= now then [] else [Capped(t - now)])
  }

  /**
   * `scheduleEventNotifications` after the permission request: `granted` is its
   * answer and `now` the clock reading.  Returns the timer delays set up.
   */
  method ScheduleEventNotifications(granted: bool, notifications: Option<seq<NotificationConfig>>,
                                    start: int, end: int, now: int) returns (delays: seq<int>)
    ensures !granted || notifications.None? || notifications == Some([]) ==> delays == []
    ensures granted && notifications.Some? ==> delays == Scheduled(notifications.value, start, end, now)
  {
    delays := [];
    if !granted {
      return;
    }
    if notifications.None? || |notifications.value| == 0 {
      return;
    }
    var ns := notifications.value;
    for i := 0 to |ns|
      invariant delays == Scheduled(ns[..i], start, end, now)
    {
      assert ns[..i + 1][..i] == ns[..i];
      var n := ns[i];
      var referenceTime := if n.referenceTime == Start then start else end;
      var notificationTime := CalculateNotificationTime(referenceTime, n);
      if notificationTime <= now {
        continue;
      }
      var delay := notificationTime - now;
      delays := delays + [if delay < MaxDelay then delay else MaxDelay];
    }
    assert ns[..|ns|] == ns;
  }

  /** Number of reminders still in the future at `now`. */
  function Pending(notifications: seq<NotificationConfig>, start: int, end: int, now: int): nat {
    if notifications == [] then 0
    else
      var n := notifications[0];
      (if CalculateNotificationTime(ReferenceInstant(n, start, end), n) > now then 1 else 0)
      + Pending(notifications[1..], start, end, now)
  }

  lemma {:induction false} PendingSplit(a: seq<NotificationConfig>, b: seq<NotificationConfig>, start: int, end: int, now: int)
    ensures Pending(a + b, start, end, now) == Pending(a, start, end, now) + Pending(b, start, end, now)
  {
    if a != [] {
      assert (a + b)[1..] == a[1..] + b;
      PendingSplit(a[1..], b, start, end, now);
    } else {
      assert a + b == b;
    }
  }

  /**
   * One timer per future reminder and none for a past one; every delay is
   * positive and at most 2147483647 ms, and it is the exact wait when that fits.
   */
  lemma {:induction false} ScheduledDelays(notifications: seq<NotificationConfig>, start: int, end: int, now: int)
    ensures |Scheduled(notifications, start, end, now)| == Pending(notifications, start, end, now)
    ensures forall d | d in Scheduled(notifications, start, end, now) :: 1 <= d <= MaxDelay
    ensures forall n | n in notifications ::
      var t := CalculateNotificationTime(ReferenceInstant(n, start, end), n);
      t > now ==> Capped(t - now) in Scheduled(notifications, start, end, now)
  {
    if notifications != [] {
      var init, last := notifications[..|notifications| - 1], notifications[|notifications| - 1];
      ScheduledDelays(init, start, end, now);
      assert notifications == init + [last];
      PendingSplit(init, [last], start, end, now);
      var s, before := Scheduled(notifications, start, end, now), Scheduled(init, start, end, now);
      var t := CalculateNotificationTime(ReferenceInstant(last, start, end), last);
      var added := if t <= now then [] else [Capped(t - now)];
      assert s == before + added;
      assert [last][1..] == [];
      assert Pending([last], start, end, now) == |added|;
      forall d | d in s ensures 1 <= d <= MaxDelay {
        if d !in before {
          assert d == Capped(t - now);
        }
      }
      forall n | n in notifications
        ensures var tn := CalculateNotificationTime(ReferenceInstant(n, start, end), n);
          tn > now ==> Capped(tn - now) in s
      {
        if n !in init {
          assert n == last;
        }
      }
    }
  }
}

=== FILE: recurrence.dfy ===
/**
 * The recurrence predicate `isRecurringEventOnDate(event, date)`, which the month
 * grid and the day sheet each carry in an identical copy.  It decides whether a
 * recurring event, anchored on the calendar date of its `start_at`, falls on a
 * calendar day: the anchor cut-off, the end conditions (by date, and by count
 * through a forward simulation), then one rule per recurrence type.
 */
module Recurrence {
  import opened Wrappers
  import opened CivilDates
  import Arith

  /** `recurrence_type`. */
  datatype Frequency = NoRepeat | Daily | Weekly | Monthly | Yearly | Custom

  /** `recurrence_end_type`: `never`, `count` or `date`. */
  datatype EndType = Never | ByCount | ByDate

  /**
   * The recurrence attributes of an event.  `interval` and `endCount` are 0 when
   * the field is absent (both are read through a truthiness test in the source).
   */
  datatype Rule = Rule(
    frequency: Option<Frequency>,
    interval: nat,
    endType: Option<EndType>,
    endCount: nat,
    endDate: Option<Date>)

  /** `recurrence_interval || 1`. */
  function Step(rule: Rule): (s: nat)
    ensures s >= 1
    ensures rule.interval != 0 ==> s == rule.interval
  {
    if rule.interval == 0 then 1 else rule.interval
  }

  /** One advance of the simulation cursor by the rule's natural unit. */
  function Advance(f: Frequency, step: nat, c: Date): (r: Date)
    requires Valid(c)
    ensures Valid(r)
  {
    match f
    case Daily => AddDays(c, step)
    case Weekly => AddDays(c, step * 7)
    case Monthly => ShiftMonths(c, step)
    case Yearly => ShiftYears(c, step)
    case _ => c
  }

  /**
   * The `while` loop of the count end condition: from the cursor, count one
   * occurrence and advance while the cursor is not past `check` and the budget
   * is not spent.  Yields the final count and cursor.
   */
  function Simulate(f: Frequency, step: nat, cursor: Date, check: Date, occ: nat, count: nat): (r: (nat, Date))
    requires Valid(cursor) && 1 <= check.month <= 12
    ensures Valid(r.1)
    decreases count - occ
  {
    if Ordinal(cursor) <= Ordinal(check) && occ < count then
      Simulate(f, step, Advance(f, step, cursor), check, occ + 1, count)
    else
      (occ, cursor)
  }

  /** The budget was spent at or before `check`: the test after the loop. */
  predicate CountExhausted(f: Frequency, step: nat, start: Date, check: Date, count: nat)
    requires Valid(start) && 1 <= check.month <= 12
  {
    var (occ, cur) := Simulate(f, step, start, check, 0, count);
    occ >= count && Ordinal(check) >= Ordinal(cur)
  }

  /** The rule match proper, once the end conditions have let `check` through. */
  predicate RuleMatches(f: Frequency, step: nat, start: Date, check: Date)
    requires 1 <= start.month <= 12 && 1 <= check.month <= 12 && step >= 1
  {
    var daysDiff := Ordinal(check) - Ordinal(start);
    match f
    case Daily => daysDiff % step == 0
    case Weekly => (daysDiff / 7) % step == 0 && Weekday(check) == Weekday(start)
    case Monthly => (MonthIndex(check) - MonthIndex(start)) % step == 0 && check.day == start.day
    case Yearly => (check.year - start.year) % step == 0 && check.month == start.month && check.day == start.day
    case _ => false
  }

  /** An end-by-date cut-off that excludes `check`. */
  predicate PastEndDate(rule: Rule, check: Date)
    requires 1 <= check.month <= 12
  {
    rule.endType == Some(ByDate) && rule.endDate.Some? && 1 <= rule.endDate.value.month <= 12
    && Ordinal(check) > Ordinal(rule.endDate.value)
  }

  /**
   * `isRecurringEventOnDate`: `start` is the calendar date of the event's
   * `start_at`, `check` the day asked about.
   */
  predicate OccursOn(rule: Rule, start: Date, check: Date)
    requires Valid(start) && Valid(check)
  {
    && rule.frequency.Some? && rule.frequency.value != NoRepeat
    && Ordinal(check) >= Ordinal(start)
    && !PastEndDate(rule, check)
    && !(rule.endType == Some(ByCount) && rule.endCount != 0
         && CountExhausted(rule.frequency.value, Step(rule), start, check, rule.endCount))
    && RuleMatches(rule.frequency.value, Step(rule), start, check)
  }

  /** The count simulation as the source runs it: a loop that advances a cursor date. */
  method CountExhaustedLoop(f: Frequency, step: nat, start: Date, check: Date, count: nat) returns (exhausted: bool)
    requires Valid(start) && Valid(check)
    ensures exhausted == CountExhausted(f, step, start, check, count)
  {
    var occurrences: nat := 0;
    var current := start;
    while Ordinal(current) <= Ordinal(check) && occurrences < count
      invariant occurrences <= count
      invariant Valid(current)
      invariant Simulate(f, step, current, check, occurrences, count) == Simulate(f, step, start, check, 0, count)
      decreases count - occurrences
    {
      occurrences := occurrences + 1;
      if f == Daily {
        current := AddDays(current, step);
      } else if f == Weekly {
        current := AddDays(current, step * 7);
      } else if f == Monthly {
        current := ShiftMonths(current, step);
      } else if f == Yearly {
        current := ShiftYears(current, step);
      }
    }
    exhausted := occurrences >= count && Ordinal(check) >= Ordinal(current);
  }

  /** `isRecurringEventOnDate` step by step, with its early returns. */
  method IsRecurringEventOnDate(rule: Rule, start: Date, check: Date) returns (occurs: bool)
    requires Valid(start) && Valid(check)
    ensures occurs == OccursOn(rule, start, check)
  {
    if rule.frequency.None? || rule.frequency.value == NoRepeat {
      return false;
    }
    var f := rule.frequency.value;
    if Ordinal(check) < Ordinal(start) {
      return false;
    }
    if rule.endType == Some(ByDate) && rule.endDate.Some? && 1 <= rule.endDate.value.month <= 12 {
      if Ordinal(check) > Ordinal(rule.endDate.value) {
        return false;
      }
    }
    var step := Step(rule);
    if rule.endType == Some(ByCount) && rule.endCount != 0 {
      var exhausted := CountExhaustedLoop(f, step, start, check, rule.endCount);
      if exhausted {
        return false;
      }
    }
    var daysDiff := Ordinal(check) - Ordinal(start);
    if f == Daily {
      return daysDiff % step == 0;
    }
    if f == Weekly {
      var weeksDiff := daysDiff / 7;
      if weeksDiff % step != 0 {
        return false;
      }
      return Weekday(check) == Weekday(start);
    }
    if f == Monthly {
      var monthsDiff := (check.year - start.year) * 12 + (check.month - start.month);
      if monthsDiff % step != 0 {
        return false;
      }
      return check.day == start.day;
    }
    if f == Yearly {
      var yearsDiff := check.year - start.year;
      if yearsDiff % step != 0 {
        return false;
      }
      return check.month == start.month && check.day == start.day;
    }
    return false;
  }

  // ---------------------------------------------------------------------------
  // Properties of the predicate
  // ---------------------------------------------------------------------------

  /** No end condition applies. */
  predicate Unbounded(rule: Rule) {
    || rule.endType.None?
    || rule.endType == Some(Never)
    || (rule.endType == Some(ByCount) && rule.endCount == 0)
    || (rule.endType == Some(ByDate) && rule.endDate.None?)
  }

  /** The anchor cut-off, and the types that never recur. */
  lemma NeverBeforeStartNorUnset(rule: Rule, start: Date, check: Date)
    requires Valid(start) && Valid(check)
    ensures Ordinal(check) < Ordinal(start) ==> !OccursOn(rule, start, check)
    ensures rule.frequency.None? || rule.frequency == Some(NoRepeat) || rule.frequency == Some(Custom)
            ==> !OccursOn(rule, start, check)
  {
  }

  /** Daily rule: every `interval` days from the anchor on. */
  lemma DailyRule(rule: Rule, start: Date, check: Date)
    requires Valid(start) && Valid(check)
    requires rule.frequency == Some(Daily) && Unbounded(rule)
    ensures OccursOn(rule, start, check) <==>
      var d := Ordinal(check) - Ordinal(start); d >= 0 && d % Step(rule) == 0
  {
  }

  /** Same weekday exactly when the day numbers differ by a multiple of 7. */
  lemma SameWeekday(a: Date, b: Date)
    requires 1 <= a.month <= 12 && 1 <= b.month <= 12
    ensures Weekday(a) == Weekday(b) <==> (Ordinal(a) - Ordinal(b)) % 7 == 0
  {
    Residue7(Ordinal(a) + 1, Ordinal(b) + 1);
  }

  lemma Residue7(x: int, y: int)
    ensures x % 7 == y % 7 <==> (x - y) % 7 == 0
  {
  }

  /** Weekly rule: every `7 * interval` days from the anchor on. */
  lemma WeeklyRule(rule: Rule, start: Date, check: Date)
    requires Valid(start) && Valid(check)
    requires rule.frequency == Some(Weekly) && Unbounded(rule)
    ensures OccursOn(rule, start, check) <==>
      var d := Ordinal(check) - Ordinal(start); d >= 0 && d % (7 * Step(rule)) == 0
  {
    var d := Ordinal(check) - Ordinal(start);
    SameWeekday(check, start);
    if d >= 0 {
      Arith.WholeWeeksMultiple(d, Step(rule));
    }
  }

  /** Monthly rule: same day of the month, every `interval` months. */
  lemma MonthlyRule(rule: Rule, start: Date, check: Date)
    requires Valid(start) && Valid(check)
    requires rule.frequency == Some(Monthly) && Unbounded(rule)
    ensures OccursOn(rule, start, check) <==>
      && Ordinal(check) >= Ordinal(start)
      && (MonthIndex(check) - MonthIndex(start)) % Step(rule) == 0
      && check.day == start.day
  {
  }

  /** An event anchored on the 31st never recurs monthly in a shorter month (no clamping to the last day). */
  lemma MonthlyOnThe31st(rule: Rule, start: Date, check: Date)
    requires Valid(start) && Valid(check)
    requires rule.frequency == Some(Monthly) && start.day == 31
    requires DaysInMonth(check.year, check.month) < 31
    ensures !OccursOn(rule, start, check)
  {
  }

  /** Yearly rule: same month and day, every `interval` years. */
  lemma YearlyRule(rule: Rule, start: Date, check: Date)
    requires Valid(start) && Valid(check)
    requires rule.frequency == Some(Yearly) && Unbounded(rule)
    ensures OccursOn(rule, start, check) <==>
      && Ordinal(check) >= Ordinal(start)
      && (check.year - start.year) % Step(rule) == 0
      && check.month == start.month && check.day == start.day
  {
  }

  /**
   * End by date is an inclusive cut-off: nothing occurs after the end date, and
   * on the end date and before it the event occurs exactly as with no end.
   */
  lemma EndDateIsInclusive(rule: Rule, start: Date, check: Date)
    requires Valid(start) && Valid(check)
    requires rule.endType == Some(ByDate) && rule.endDate.Some? && Valid(rule.endDate.value)
    ensures OccursOn(rule, start, check) ==> Ordinal(check) <= Ordinal(rule.endDate.value)
    ensures Ordinal(check) <= Ordinal(rule.endDate.value) ==>
      (OccursOn(rule, start, check) <==> OccursOn(rule.(endType := None), start, check))
  {
  }

  /** The number of occurrences the simulation has counted by the end, `min(count, d / u + 1)`. */
  function CountedByDays(d: int, u: int, count: nat): nat
    requires d >= 0 && u >= 1
  {
    if count <= d / u + 1 then count else d / u + 1
  }

  /**
   * For the day-stepping rules the cursor sits `occ * u` days after the anchor
   * (`u` days per step), and the simulation stops after `min(count, d / u + 1)`
   * steps, `d` being the distance from the anchor to `check`.
   */
  lemma {:induction false} SimulateByDays(f: Frequency, step: nat, u: nat, start: Date, cursor: Date, check: Date, occ: nat, count: nat)
    requires Valid(start) && Valid(cursor) && Valid(check) && step >= 1
    requires (f == Daily && u == step) || (f == Weekly && u == step * 7)
    requires occ <= count
    requires Ordinal(check) >= Ordinal(start)
    requires Ordinal(cursor) - Ordinal(start) == occ * u
    requires occ <= (Ordinal(check) - Ordinal(start)) / u + 1
    ensures var r := Simulate(f, step, cursor, check, occ, count);
      && Ordinal(r.1) - Ordinal(start) == r.0 * u
      && r.0 == CountedByDays(Ordinal(check) - Ordinal(start), u, count)
    decreases count - occ
  {
    var d := Ordinal(check) - Ordinal(start);
    var c := Ordinal(cursor) - Ordinal(start);
    StopPoint(occ, d, u, count);
    if Ordinal(cursor) <= Ordinal(check) && occ < count {
      var next := Advance(f, step, cursor);
      assert Ordinal(next) == Ordinal(cursor) + u;
      assert Ordinal(next) - Ordinal(start) == (occ + 1) * u;
      SimulateByDays(f, step, u, start, next, check, occ + 1, count);
    }
  }

  /** One turn of the simulation, on day distances alone. */
  lemma StopPoint(occ: nat, d: int, u: int, count: nat)
    requires u >= 1 && d >= 0 && occ <= count && occ <= d / u + 1
    ensures (occ * u <= d && occ < count) ==> occ + 1 <= d / u + 1 && (occ + 1) * u == occ * u + u
    ensures !(occ * u <= d && occ < count) ==> occ == CountedByDays(d, u, count)
  {
    Arith.UnitsBelow(occ, d, u);
  }

  /** The count gate of a day-stepping rule shuts once `count` steps fit before `check`. */
  lemma CountGateByDays(f: Frequency, step: nat, u: nat, start: Date, check: Date, count: nat)
    requires Valid(start) && Valid(check) && step >= 1
    requires (f == Daily && u == step) || (f == Weekly && u == step * 7)
    requires Ordinal(check) >= Ordinal(start)
    ensures CountExhausted(f, step, start, check, count) <==> count <= (Ordinal(check) - Ordinal(start)) / u
  {
    var d := Ordinal(check) - Ordinal(start);
    Arith.UnitsBelow(0, d, u);
    SimulateByDays(f, step, u, start, start, check, 0, count);
    var r := Simulate(f, step, start, check, 0, count);
    GateArith(d, u, count, r.0);
  }

  /** The gate test after the loop, on day distances alone. */
  lemma GateArith(d: int, u: int, count: nat, occ: nat)
    requires d >= 0 && u >= 1 && occ == CountedByDays(d, u, count)
    ensures (occ >= count && d >= occ * u) <==> count <= d / u
  {
    Arith.UnitsBelow(occ, d, u);
  }

  /**
   * End by count N on a daily rule admits exactly the days `start + k * interval`
   * with `k < N`.
   */
  lemma DailyCountRule(rule: Rule, start: Date, check: Date)
    requires Valid(start) && Valid(check)
    requires rule.frequency == Some(Daily) && rule.endType == Some(ByCount) && rule.endCount >= 1
    ensures OccursOn(rule, start, check) <==>
      exists k :: 0 <= k < rule.endCount && Ordinal(check) - Ordinal(start) == k * Step(rule)
  {
    var d := Ordinal(check) - Ordinal(start);
    if d >= 0 {
      CountGateByDays(Daily, Step(rule), Step(rule), start, check, rule.endCount);
    }
    FirstMultiples(d, Step(rule), rule.endCount);
  }

  /** End by count N on a weekly rule admits exactly the days `start + k * 7 * interval` with `k < N`. */
  lemma WeeklyCountRule(rule: Rule, start: Date, check: Date)
    requires Valid(start) && Valid(check)
    requires rule.frequency == Some(Weekly) && rule.endType == Some(ByCount) && rule.endCount >= 1
    ensures OccursOn(rule, start, check) <==>
      exists k :: 0 <= k < rule.endCount && Ordinal(check) - Ordinal(start) == k * (7 * Step(rule))
  {
    var d := Ordinal(check) - Ordinal(start);
    var s := Step(rule);
    var unbounded := rule.(endType := None);
    assert OccursOn(rule, start, check) <==>
      OccursOn(unbounded, start, check) && !CountExhausted(Weekly, s, start, check, rule.endCount);
    WeeklyRule(unbounded, start, check);
    if d >= 0 {
      assert s * 7 == 7 * s;
      CountGateByDays(Weekly, s, s * 7, start, check, rule.endCount);
    }
    FirstMultiples(d, 7 * s, rule.endCount);
  }

  /** The first `n` multiples of `s`, described by quotient and remainder. */
  lemma FirstMultiples(d: int, s: int, n: nat)
    requires s >= 1
    ensures (d >= 0 && d % s == 0 && d / s < n) <==> exists k :: 0 <= k < n && d == k * s
  {
    if d >= 0 && d % s == 0 && d / s < n {
      assert d == (d / s) * s;
    }
    if exists k :: 0 <= k < n && d == k * s {
      var k :| 0 <= k < n && d == k * s;
      Arith.DivExact(d, s, k);
    }
  }

  lemma DriftFirstStep()
    ensures ShiftMonths(Date(2024, 1, 31), 1) == Date(2024, 3, 2)
  {
    assert MonthIndex(Date(2024, 1, 31)) + 1 == 12 * 2024 + 1;
    assert (12 * 2024 + 1) / 12 == 2024 && (12 * 2024 + 1) % 12 == 1;
    assert DaysInMonth(2024, 2) == 29;
    assert Normalize(2024, 3, 2) == Date(2024, 3, 2);
    assert Normalize(2024, 2, 31) == Date(2024, 3, 2);
  }

  lemma DriftSecondStep()
    ensures ShiftMonths(Date(2024, 3, 2), 1) == Date(2024, 4, 2)
  {
    assert MonthIndex(Date(2024, 3, 2)) + 1 == 12 * 2024 + 3;
    assert (12 * 2024 + 3) / 12 == 2024 && (12 * 2024 + 3) % 12 == 3;
    assert Normalize(2024, 4, 2) == Date(2024, 4, 2);
  }

  lemma DriftThirdStep()
    ensures ShiftMonths(Date(2024, 4, 2), 1) == Date(2024, 5, 2)
  {
    assert MonthIndex(Date(2024, 4, 2)) + 1 == 12 * 2024 + 4;
    assert (12 * 2024 + 4) / 12 == 2024 && (12 * 2024 + 4) % 12 == 4;
    assert Normalize(2024, 5, 2) == Date(2024, 5, 2);
  }

  /**
   * The count gate counts rule-unit advances, not matches: a monthly series on
   * 31 January 2024 limited to 3 occurrences is advanced to 2 March by the
   * `setMonth` overflow and from there keeps the 2nd, so it occurs on 31 January
   * and 31 March only, and 31 May, its third real occurrence, is already cut off.
   */
  lemma MonthlyCountDrift()
    ensures var rule := Rule(Some(Monthly), 1, Some(ByCount), 3, None);
      && OccursOn(rule, Date(2024, 1, 31), Date(2024, 3, 31))
      && !OccursOn(rule, Date(2024, 1, 31), Date(2024, 5, 31))
  {
    DriftKeepsMarch();
    DriftCutsMay();
  }

  lemma DriftKeepsMarch()
    ensures OccursOn(Rule(Some(Monthly), 1, Some(ByCount), 3, None), Date(2024, 1, 31), Date(2024, 3, 31))
  {
    var rule, start, check := Rule(Some(Monthly), 1, Some(ByCount), 3, None), Date(2024, 1, 31), Date(2024, 3, 31);
    DriftCountByMarch();
    OrdinalOrder(start, check);
    assert Step(rule) == 1 && !PastEndDate(rule, check);
    assert !CountExhausted(Monthly, 1, start, check, 3);
    assert RuleMatches(Monthly, 1, start, check);
  }

  lemma DriftCutsMay()
    ensures !OccursOn(Rule(Some(Monthly), 1, Some(ByCount), 3, None), Date(2024, 1, 31), Date(2024, 5, 31))
  {
    var check := Date(2024, 5, 31);
    DriftCountByMay();
    OrdinalOrder(Date(2024, 5, 2), check);
    assert CountExhausted(Monthly, 1, Date(2024, 1, 31), check, 3);
  }

  /** By 31 March the loop has counted two occurrences and stopped at 2 April. */
  lemma DriftCountByMarch()
    ensures Simulate(Monthly, 1, Date(2024, 1, 31), Date(2024, 3, 31), 0, 3) == (2, Date(2024, 4, 2))
  {
    DriftFirstStep();
    DriftSecondStep();
    var check := Date(2024, 3, 31);
    OrdinalOrder(Date(2024, 4, 2), check);
    OrdinalOrder(Date(2024, 3, 2), check);
    OrdinalOrder(Date(2024, 1, 31), check);
    assert Simulate(Monthly, 1, Date(2024, 4, 2), check, 2, 3) == (2, Date(2024, 4, 2));
    assert Simulate(Monthly, 1, Date(2024, 3, 2), check, 1, 3) == (2, Date(2024, 4, 2));
  }

  /** By 31 May the budget of three is spent, on 2 May. */
  lemma DriftCountByMay()
    ensures Simulate(Monthly, 1, Date(2024, 1, 31), Date(2024, 5, 31), 0, 3) == (3, Date(2024, 5, 2))
  {
    DriftFirstStep();
    DriftSecondStep();
    DriftThirdStep();
    var check := Date(2024, 5, 31);
    OrdinalOrder(Date(2024, 4, 2), check);
    OrdinalOrder(Date(2024, 3, 2), check);
    OrdinalOrder(Date(2024, 1, 31), check);
    assert Simulate(Monthly, 1, Date(2024, 5, 2), check, 3, 3) == (3, Date(2024, 5, 2));
    assert Simulate(Monthly, 1, Date(2024, 4, 2), check, 2, 3) == (3, Date(2024, 5, 2));
    assert Simulate(Monthly, 1, Date(2024, 3, 2), check, 1, 3) == (3, Date(2024, 5, 2));
  }
}

=== FILE: recurrence_editor.dfy ===
/**
 * The recurrence editor (`RecurrenceModal`): every handler builds a new
 * `RecurrenceConfig` from the current one.  Weekday indices here count from
 * Monday (0 = Monday .. 6 = Sunday), unlike the evaluator's `getDay()`.
 */
module RecurrenceEditor {
  import opened Wrappers
  import opened CivilDates
  import opened Sorting
  import opened Lists

  datatype RecurrenceType = NoRepeat | Daily | Weekly | Monthly | Yearly | Custom
  datatype CustomType = DayUnit | WeekUnit | MonthUnit | YearUnit
  datatype MonthlyType = DayOfMonth | DayOfWeek
  datatype EndKind = Never | Count | OnDate

  /** `RecurrenceConfig`; absent optional fields are `None`. */
  datatype RecurrenceConfig = RecurrenceConfig(
    kind: RecurrenceType,
    interval: int,
    customType: Option<CustomType>,
    days: Option<seq<int>>,
    monthlyType: Option<MonthlyType>,
    monthlyDay: Option<int>,
    monthlyWeekday: Option<int>,
    endType: EndKind,
    endCount: Option<int>,
    endDate: Option<string>)

  /** What `getDateInfo` derives from the event's start date. */
  datatype DateInfo = DateInfo(dayOfMonth: int, weekday: int, weekOfMonth: int)

  /** `getDateInfo`: with no start date, the 1st, a Monday, in the first week. */
  function GetDateInfo(startDate: Option<Date>): (info: DateInfo)
    requires startDate.Some? ==> Valid(startDate.value)
    ensures startDate.None? ==> info == DateInfo(1, 0, 1)
    ensures 0 <= info.weekday < 7 && 1 <= info.weekOfMonth <= 5
    ensures startDate.Some? ==>
      && info.dayOfMonth == startDate.value.day
      && 7 * (info.weekOfMonth - 1) < info.dayOfMonth <= 7 * info.weekOfMonth
  {
    if startDate.None? then DateInfo(1, 0, 1)
    else
      var date := startDate.value;
      DateInfo(date.day, (Weekday(date) + 6) % 7, (date.day + 6) / 7)
  }

  /** The editor's Monday-based weekday and the evaluator's Sunday-based one name the same day. */
  lemma WeekdayConventions(d: Date)
    requires Valid(d)
    ensures (GetDateInfo(Some(d)).weekday + 1) % 7 == Weekday(d)
    ensures GetDateInfo(Some(d)).weekday == 0 <==> Weekday(d) == 1
  {
  }

  /** The result of choosing a recurrence type. */
  datatype TypeSelection = TypeSelection(config: RecurrenceConfig, showCustom: bool, saved: Option<RecurrenceConfig>)

  /**
   * `handleTypeSelect`: a plain type is saved at once (and the editor closes);
   * `custom` opens the custom panel with the day unit and saves nothing.
   */
  function HandleTypeSelect(c: RecurrenceConfig, showCustom: bool, t: RecurrenceType): (r: TypeSelection)
    ensures t == Custom ==> r.saved.None? && r.showCustom && r.config.customType == Some(DayUnit)
    ensures t != Custom ==> r.saved == Some(r.config) && r.showCustom == showCustom
    ensures r.config.kind == t
    ensures r.config.(kind := c.kind, customType := c.customType) == c
  {
    if t == Custom then
      TypeSelection(c.(kind := t, customType := Some(DayUnit)), true, None)
    else
      TypeSelection(c.(kind := t), showCustom, Some(c.(kind := t)))
  }

  /** `handleCustomTypeChange`: switching to weeks with no day chosen picks the start's weekday. */
  function HandleCustomTypeChange(c: RecurrenceConfig, ct: CustomType, weekday: int): (r: RecurrenceConfig)
    ensures r.customType == Some(ct)
    ensures ct == WeekUnit && (c.days.None? || c.days == Some([])) ==> r.days == Some([weekday])
    ensures !(ct == WeekUnit && (c.days.None? || c.days == Some([]))) ==> r.days == c.days
    ensures r.(customType := c.customType, days := c.days) == c
  {
    var newConfig := c.(customType := Some(ct));
    if ct == WeekUnit && (c.days.None? || |c.days.value| == 0) then newConfig.(days := Some([weekday]))
    else newConfig
  }

  /** `days.filter(d => d !== x)`. */
  function Without(s: seq<int>, x: int): (r: seq<int>)
    ensures forall y :: y in r <==> y in s && y != x
    ensures |r| <= |s|
  {
    Filter(s, (y: int) => y != x)
  }

  function DayKey(d: int): Key {
    Key(d, 0)
  }

  /** `toggleDay`: drop the index if chosen, otherwise add it and sort. */
  function ToggleDay(c: RecurrenceConfig, dayIndex: int): (r: RecurrenceConfig)
    ensures r.days.Some?
    ensures r.(days := c.days) == c
  {
    var days := c.days.GetOr([]);
    var newDays := if dayIndex in days then Without(days, dayIndex) else SortBy(days + [dayIndex], DayKey);
    c.(days := Some(newDays))
  }

  /** A toggled index flips membership, every other index keeps it, and an added index lands in sorted order. */
  lemma ToggleDayFlips(c: RecurrenceConfig, dayIndex: int)
    ensures var before := c.days.GetOr([]);
      var after := ToggleDay(c, dayIndex).days.value;
      && (dayIndex in after <==> dayIndex !in before)
      && (forall y | y != dayIndex :: y in after <==> y in before)
      && (dayIndex !in before ==> SortedBy(after, DayKey) && multiset(after) == multiset(before) + multiset{dayIndex})
  {
    var before := c.days.GetOr([]);
    if dayIndex !in before {
      var after := SortBy(before + [dayIndex], DayKey);
      assert multiset(after) == multiset(before) + multiset{dayIndex};
      assert forall y :: y in after <==> y in multiset(after);
    }
  }

  /** Toggling an index off and on again gives back the chosen indices, in ascending order. */
  lemma ToggleTwice(c: RecurrenceConfig, dayIndex: int)
    requires c.days.Some? && dayIndex in c.days.value
    ensures multiset(ToggleDay(ToggleDay(c, dayIndex), dayIndex).days.value) ==
            multiset(Without(c.days.value, dayIndex)) + multiset{dayIndex}
    ensures SortedBy(ToggleDay(ToggleDay(c, dayIndex), dayIndex).days.value, DayKey)
  {
  }

  /** The interval stepper's minus button. */
  function DecrementInterval(c: RecurrenceConfig): (r: RecurrenceConfig)
    ensures r.interval >= 1
    ensures c.interval > 1 ==> r.interval == c.interval - 1
    ensures c.interval <= 1 ==> r.interval == 1
    ensures r.(interval := c.interval) == c
  {
    c.(interval := if c.interval - 1 > 1 then c.interval - 1 else 1)
  }

  /** The interval stepper's plus button. */
  function IncrementInterval(c: RecurrenceConfig): (r: RecurrenceConfig)
    ensures r.interval == c.interval + 1
    ensures r.(interval := c.interval) == c
  {
    c.(interval := c.interval + 1)
  }

  /** Plus then minus leaves an interval of at least 1 unchanged; minus at 1 stays at 1. */
  lemma IntervalStepperRoundTrip(c: RecurrenceConfig)
    requires c.interval >= 1
    ensures DecrementInterval(IncrementInterval(c)) == c
    ensures c.interval == 1 ==> DecrementInterval(c) == c
    ensures DecrementInterval(DecrementInterval(c)).interval >= 1
  {
  }

  /** `endCount || 10`: an absent or zero count reads as 10, any other count as itself. */
  function EndCountOrDefault(c: RecurrenceConfig): (n: int)
    ensures c.endCount.None? || c.endCount.value == 0 ==> n == 10
    ensures c.endCount.Some? && c.endCount.value != 0 ==> n == c.endCount.value
  {
    if c.endCount.None? || c.endCount.value == 0 then 10 else c.endCount.value
  }

  function DecrementEndCount(c: RecurrenceConfig): (r: RecurrenceConfig)
    ensures r.endCount.Some? && r.endCount.value >= 1
    ensures EndCountOrDefault(c) > 1 ==> r.endCount.value == EndCountOrDefault(c) - 1
    ensures EndCountOrDefault(c) <= 1 ==> r.endCount == Some(1)
    ensures r.(endCount := c.endCount) == c
  {
    var n := EndCountOrDefault(c) - 1;
    c.(endCount := Some(if n > 1 then n else 1))
  }

  function IncrementEndCount(c: RecurrenceConfig): (r: RecurrenceConfig)
    ensures r.endCount == Some(EndCountOrDefault(c) + 1)
    ensures r.(endCount := c.endCount) == c
  {
    c.(endCount := Some(EndCountOrDefault(c) + 1))
  }

  /** An unset count shows as 10, and the count stepper never leaves the range above 0 once there. */
  lemma EndCountStepper(c: RecurrenceConfig)
    ensures c.endCount.None? ==> IncrementEndCount(c).endCount == Some(11) && DecrementEndCount(c).endCount == Some(9)
    ensures EndCountOrDefault(c) >= 1 ==> DecrementEndCount(IncrementEndCount(c)).endCount == Some(EndCountOrDefault(c))
  {
  }

  /** The end fields agree with the end type: only the field of the chosen kind is set. */
  predicate EndFieldsAgree(c: RecurrenceConfig) {
    match c.endType
    case Never => c.endCount.None? && c.endDate.None?
    case Count => c.endCount.Some? && c.endDate.None?
    case OnDate => c.endDate.Some? && c.endCount.None?
  }

  /** "Never": no end, with both the count and the date cleared. */
  function ChooseNever(c: RecurrenceConfig): (r: RecurrenceConfig)
    ensures r.endType == Never && r.endCount.None? && r.endDate.None?
    ensures r.(endType := c.endType, endCount := c.endCount, endDate := c.endDate) == c
  {
    c.(endType := Never, endCount := None, endDate := None)
  }

  /** "Count": the count entered, or 10 without one (`endCount || 10`); the end date is cleared. */
  function ChooseCount(c: RecurrenceConfig): (r: RecurrenceConfig)
    ensures r.endType == Count
    ensures r.endCount == Some(EndCountOrDefault(c)) && r.endDate.None?
    ensures c.endCount.None? ==> r.endCount == Some(10)
    ensures r.(endType := c.endType, endCount := c.endCount, endDate := c.endDate) == c
  {
    c.(endType := Count, endCount := Some(EndCountOrDefault(c)), endDate := None)
  }

  /** `endDate || dateStr`. */
  function EndDateOrDefault(c: RecurrenceConfig, defaultDate: string): string {
    if c.endDate.None? || c.endDate.value == "" then defaultDate else c.endDate.value
  }

  /** `defaultDate` is the date one month from today, which the source reads from the clock. */
  function ChooseDate(c: RecurrenceConfig, defaultDate: string): (r: RecurrenceConfig)
    ensures r.endType == OnDate
    ensures r.endDate == Some(EndDateOrDefault(c, defaultDate)) && r.endCount.None?
    ensures r.(endType := c.endType, endCount := c.endCount, endDate := c.endDate) == c
  {
    c.(endType := OnDate, endDate := Some(EndDateOrDefault(c, defaultDate)), endCount := None)
  }

  /** The end-date input. */
  function EditEndDate(c: RecurrenceConfig, value: string): (r: RecurrenceConfig)
    ensures r.endDate == Some(value)
    ensures r.(endDate := c.endDate) == c
  {
    c.(endDate := Some(value))
  }

  /**
   * Choosing an end type clears the other kind's field and keeps a count or date
   * already entered; the steppers and the date input, shown only for their kind,
   * keep the end fields in agreement.
   */
  lemma EndTypeSwitching(c: RecurrenceConfig, defaultDate: string, value: string)
    ensures EndFieldsAgree(ChooseNever(c)) && EndFieldsAgree(ChooseCount(c)) && EndFieldsAgree(ChooseDate(c, defaultDate))
    ensures c.endCount.Some? && c.endCount.value != 0 ==> ChooseCount(c).endCount == c.endCount
    ensures c.endDate.Some? && c.endDate.value != "" ==> ChooseDate(c, defaultDate).endDate == c.endDate
    ensures c.endType == Count && EndFieldsAgree(c) ==>
      EndFieldsAgree(IncrementEndCount(c)) && EndFieldsAgree(DecrementEndCount(c))
    ensures c.endType == OnDate && EndFieldsAgree(c) ==> EndFieldsAgree(EditEndDate(c, value))
  {
  }

  /** The three monthly-basis buttons: the day of the month, the n-th weekday, the last weekday (-1). */
  function ChooseDayOfMonth(c: RecurrenceConfig, info: DateInfo): (r: RecurrenceConfig)
    ensures r.monthlyType == Some(DayOfMonth) && r.monthlyDay == Some(info.dayOfMonth)
    ensures r.(monthlyType := c.monthlyType, monthlyDay := c.monthlyDay) == c
  {
    c.(monthlyType := Some(DayOfMonth), monthlyDay := Some(info.dayOfMonth))
  }

  function ChooseNthWeekday(c: RecurrenceConfig, info: DateInfo): (r: RecurrenceConfig)
    ensures r.monthlyType == Some(DayOfWeek) && r.monthlyDay == Some(info.weekOfMonth) && r.monthlyWeekday == Some(info.weekday)
    ensures r.(monthlyType := c.monthlyType, monthlyDay := c.monthlyDay, monthlyWeekday := c.monthlyWeekday) == c
  {
    c.(monthlyType := Some(DayOfWeek), monthlyDay := Some(info.weekOfMonth), monthlyWeekday := Some(info.weekday))
  }

  function ChooseLastWeekday(c: RecurrenceConfig, info: DateInfo): (r: RecurrenceConfig)
    ensures r.monthlyType == Some(DayOfWeek) && r.monthlyDay == Some(-1) && r.monthlyWeekday == Some(info.weekday)
    ensures r.(monthlyType := c.monthlyType, monthlyDay := c.monthlyDay, monthlyWeekday := c.monthlyWeekday) == c
  {
    c.(monthlyType := Some(DayOfWeek), monthlyDay := Some(-1), monthlyWeekday := Some(info.weekday))
  }

  /** The "n-th weekday" and "last weekday" choices are told apart by the day field alone, as the buttons' highlight does. */
  lemma MonthlyChoicesDistinct(c: RecurrenceConfig, info: DateInfo, start: Option<Date>)
    requires start.Some? ==> Valid(start.value)
    requires info == GetDateInfo(start)
    ensures ChooseNthWeekday(c, info).monthlyDay != Some(-1)
    ensures ChooseLastWeekday(c, info).monthlyDay == Some(-1)
  {
  }
}

=== FILE: reference_sites.dfy ===
/**
 * The reference site block (`ReferenceSitesBlock`): a small form that either
 * adds a site or edits one, handing trimmed values to the page, and the link
 * opener that completes a bare host name.
 */
module ReferenceSites {
  import opened Wrappers
  import opened Text
  import opened CompanyTypes

  /** The block's state: adding, the site being edited, and the two inputs. */
  datatype SiteForm = SiteForm(isAddingNew: bool, editing: Option<ReferenceSite>, name: string, url: string)

  const Closed := SiteForm(false, None, "", "")

  /** Both inputs hold something other than white space. */
  predicate Filled(f: SiteForm) {
    !Blank(f.name) && !Blank(f.url)
  }

  /**
   * `handleAddNewSite`: with both inputs filled, `onAddSite` receives the
   * trimmed name and URL and the inputs are cleared; otherwise nothing happens.
   */
  function AddNewSite(f: SiteForm): (r: (SiteForm, Option<(string, string)>))
    ensures Filled(f) ==> r.1 == Some((Trim(f.name), Trim(f.url)))
    ensures Filled(f) ==> r.0 == SiteForm(false, f.editing, "", "")
    ensures !Filled(f) ==> r == (f, None)
  {
    TrimEmptyIffBlank(f.name);
    TrimEmptyIffBlank(f.url);
    if Trim(f.name) != [] && Trim(f.url) != [] then (SiteForm(false, f.editing, "", ""), Some((Trim(f.name), Trim(f.url))))
    else (f, None)
  }

  /** `handleEditSite`: the inputs take the site's name and URL. */
  function EditSite(f: SiteForm, site: ReferenceSite): (r: SiteForm)
    ensures r.editing == Some(site) && r.name == site.name && r.url == site.url
    ensures r.isAddingNew == f.isAddingNew
  {
    f.(editing := Some(site), name := site.name, url := site.url)
  }

  /**
   * `handleUpdateSite`: with a site being edited and both inputs filled,
   * `onUpdateSite` receives that site with the trimmed name and URL, and the
   * form is cleared; otherwise nothing happens.
   */
  function UpdateSite(f: SiteForm): (r: (SiteForm, Option<ReferenceSite>))
    ensures f.editing.Some? && Filled(f) ==>
      && r.1 == Some(ReferenceSite(f.editing.value.id, Trim(f.name), Trim(f.url)))
      && r.0 == SiteForm(f.isAddingNew, None, "", "")
    ensures !(f.editing.Some? && Filled(f)) ==> r == (f, None)
  {
    TrimEmptyIffBlank(f.name);
    TrimEmptyIffBlank(f.url);
    if f.editing.Some? && Trim(f.name) != [] && Trim(f.url) != [] then
      (SiteForm(f.isAddingNew, None, "", ""), Some(f.editing.value.(name := Trim(f.name), url := Trim(f.url))))
    else (f, None)
  }

  /** `handleCancel`: everything goes back to the closed state. */
  function Cancel(f: SiteForm): (r: SiteForm)
    ensures !r.isAddingNew && r.editing.None? && r.name == "" && r.url == ""
  {
    Closed
  }

  /**
   * Editing a site and saving without touching the inputs hands back the same
   * site, once its name and URL carry no surrounding white space.
   */
  lemma EditThenUpdateUnchanged(f: SiteForm, site: ReferenceSite)
    requires site.name != "" && Trim(site.name) == site.name
    requires site.url != "" && Trim(site.url) == site.url
    ensures UpdateSite(EditSite(f, site)).1 == Some(site)
  {
    var g := EditSite(f, site);
    assert Filled(g) by {
      TrimEmptyIffBlank(site.name);
      TrimEmptyIffBlank(site.url);
    }
  }

  /** Saving an edit twice hands the same site over both times: trimmed values are already trimmed. */
  lemma UpdateIsStable(f: SiteForm)
    requires f.editing.Some? && Filled(f)
    ensures var s := UpdateSite(f).1.value;
      UpdateSite(EditSite(f, s)).1 == Some(s)
  {
    var s := UpdateSite(f).1.value;
    TrimIdempotent(f.name);
    TrimIdempotent(f.url);
    TrimEmptyIffBlank(s.name);
    TrimEmptyIffBlank(s.url);
    TrimEmptyIffBlank(f.name);
    TrimEmptyIffBlank(f.url);
  }

  const Http := "http"
  const Https := "https://"

  /**
   * `handleOpenUrl`: the address opened, none for an empty URL; a URL that does
   * not start with `http` gets `https://` in front.
   */
  function OpenUrl(url: string): (r: Option<string>)
    ensures url == "" <==> r.None?
    ensures r.Some? ==> Http <= r.value
    ensures r.Some? && Http <= url ==> r.value == url
    ensures r.Some? && !(Http <= url) ==> r.value == Https + url
  {
    if url == "" then None
    else if Http <= url then Some(url)
    else
      assert (Https + url)[..|Http|] == Http;
      Some(Https + url)
  }

  /** Opening the address already opened changes nothing more. */
  lemma OpenUrlIdempotent(url: string)
    requires url != ""
    ensures OpenUrl(OpenUrl(url).value) == OpenUrl(url)
  {
  }
}

=== FILE: selection_tab.dfy ===
/**
 * The selection tab of a company note (`SelectionTab`): the start and end inputs
 * of a scheduled step, which keep the remembered length `timeDiffMinutes`
 * between them, the checks before adding or updating a step, the split of the
 * steps into the intern and full-time tracks, and the "completed" greying.
 */
module SelectionTab {
  import opened Wrappers
  import opened CivilDates
  import opened CompanyTypes
  import opened Text
  import opened Lists
  import Arith

  /** A `HH:MM` input as minutes after midnight. */
  predicate ValidClock(m: int) {
    0 <= m < 1440
  }

  /** An instant in minutes: a day and a clock reading on it. */
  function At(d: Date, clock: int): int
    requires Valid(d)
  {
    Ordinal(d) * 1440 + clock
  }

  /**
   * `handleEditEvent`: the remembered length from the stored start and end
   * times, reading an end at or before the start as on the next day.
   */
  function TimeDiffOnEdit(start: int, end: int): (d: int)
    requires ValidClock(start) && ValidClock(end)
    ensures 1 <= d <= 1440
    ensures (start + d) % 1440 == end
  {
    var diff := end - start;
    if diff > 0 then
      Arith.DivModUnique(start + diff, 1440, 0, end);
      diff
    else
      Arith.DivModUnique(start + diff + 1440, 1440, 1, end);
      diff + 1440
  }

  /** The end inputs the start inputs determine. */
  datatype EndFields = EndFields(endTime: int, endDate: Date)

  /**
   * The end time `floor(total / 60) % 24 : total % 60` and the end date, moved
   * on by `floor(total / 1440)` days when `total = start + timeDiff` reaches a
   * day.  The end lies exactly `timeDiff` minutes after the start.
   */
  function EndFromStart(startDate: Date, startTime: int, timeDiff: int): (r: EndFields)
    requires Valid(startDate) && ValidClock(startTime) && timeDiff >= 1
    ensures ValidClock(r.endTime) && Valid(r.endDate)
    ensures At(r.endDate, r.endTime) == At(startDate, startTime) + timeDiff
    ensures startTime + timeDiff < 1440 <==> r.endDate == startDate
  {
    var endTotal := startTime + timeDiff;
    var endHours := (endTotal / 60) % 24;
    var endMinutes := endTotal % 60;
    Arith.ClockOfDay(endTotal);
    var endDate := if endTotal >= 1440 then AddDays(startDate, endTotal / 1440) else startDate;
    EndFields(endHours * 60 + endMinutes, endDate)
  }

  /** The fields a focus on an empty start input fills in: the current hour and the next. */
  datatype StartFocus = StartFocus(startTime: int, endTime: int, endDate: Option<Date>)

  /**
   * `onFocus` of an empty start time at hour `hour`: start on the hour, end an
   * hour later, the end date a day after the start date when that crosses midnight.
   */
  function FocusStart(hour: int, startDate: Option<Date>): (r: StartFocus)
    requires 0 <= hour < 24 && (startDate.Some? ==> Valid(startDate.value))
    ensures r.startTime == hour * 60 && ValidClock(r.endTime)
    ensures r.endDate.Some? <==> startDate.Some?
  {
    var newHour := (hour + 1) % 24;
    var newEndDate := if hour + 1 >= 24 && startDate.Some? then Some(AddDays(startDate.value, 1)) else startDate;
    StartFocus(hour * 60, newHour * 60, newEndDate)
  }

  /** Focusing an empty start gives the same end as choosing that start with a one-hour length. */
  lemma FocusStartIsOneHour(hour: int, startDate: Date)
    requires 0 <= hour < 24 && Valid(startDate)
    ensures var f := FocusStart(hour, Some(startDate));
      var e := EndFromStart(startDate, hour * 60, 60);
      f.endTime == e.endTime && f.endDate == Some(e.endDate)
  {
    var total := hour * 60 + 60;
    Arith.DivModUnique(total, 60, hour + 1, 0);
    if hour == 23 {
      Arith.DivModUnique(total, 1440, 1, 0);
    }
  }

  /** The length the end inputs give, when it is positive (only then is it remembered). */
  function PositiveDiff(startDate: Date, startTime: int, endDate: Date, endTime: int): (r: Option<int>)
    requires Valid(startDate) && Valid(endDate)
    ensures r.Some? <==> At(endDate, endTime) > At(startDate, startTime)
    ensures r.Some? ==> At(startDate, startTime) + r.value == At(endDate, endTime)
  {
    var diff := At(endDate, endTime) - At(startDate, startTime);
    if diff > 0 then Some(diff) else None
  }

  /** The start and end inputs of the step form and the remembered length. */
  class ScheduleForm {
    var startDate: Option<Date>
    var startTime: Option<int>
    var endDate: Option<Date>
    var endTime: Option<int>
    var timeDiffMinutes: int

    ghost predicate Valid()
      reads this
    {
      && timeDiffMinutes >= 1
      && (startDate.Some? ==> CivilDates.Valid(startDate.value))
      && (endDate.Some? ==> CivilDates.Valid(endDate.value))
      && (startTime.Some? ==> ValidClock(startTime.value))
      && (endTime.Some? ==> ValidClock(endTime.value))
    }

    constructor ()
      ensures Valid()
      ensures startDate.None? && startTime.None? && endDate.None? && endTime.None?
      ensures timeDiffMinutes == 60
    {
      startDate, startTime, endDate, endTime := None, None, None, None;
      timeDiffMinutes := 60;
    }

    /** `handleEditEvent`: load a stored step; a stored start and end time set the remembered length. */
    method Load(e: SelectionEvent)
      requires e.startDate.Some? ==> CivilDates.Valid(e.startDate.value)
      requires e.endDate.Some? ==> CivilDates.Valid(e.endDate.value)
      requires e.startTime.Some? ==> ValidClock(e.startTime.value)
      requires e.endTime.Some? ==> ValidClock(e.endTime.value)
      requires Valid()
      modifies this
      ensures Valid()
      ensures startDate == e.startDate && startTime == e.startTime && endDate == e.endDate && endTime == e.endTime
      ensures e.startTime.Some? && e.endTime.Some? ==>
        timeDiffMinutes == TimeDiffOnEdit(e.startTime.value, e.endTime.value)
      ensures !(e.startTime.Some? && e.endTime.Some?) ==> timeDiffMinutes == old(timeDiffMinutes)
    {
      if e.startTime.Some? && e.endTime.Some? {
        var diff := e.endTime.value - e.startTime.value;
        timeDiffMinutes := if diff > 0 then diff else diff + 24 * 60;
      }
      startDate, startTime, endDate, endTime := e.startDate, e.startTime, e.endDate, e.endTime;
    }

    /** `onFocus` of the start time at the current hour `hour`. */
    method FocusStartTime(hour: int)
      requires Valid() && 0 <= hour < 24
      modifies this
      ensures Valid()
      ensures old(startTime).Some? ==> unchanged(this)
      ensures old(startTime).None? ==>
        && var f := FocusStart(hour, old(startDate));
        && startTime == Some(f.startTime) && endTime == Some(f.endTime) && endDate == f.endDate
        && startDate == old(startDate) && timeDiffMinutes == old(timeDiffMinutes)
    {
      if startTime.None? {
        var newHour := (hour + 1) % 24;
        var newEndDate := startDate;
        if hour + 1 >= 24 && startDate.Some? {
          newEndDate := Some(AddDays(startDate.value, 1));
        }
        startTime, endTime, endDate := Some(hour * 60), Some(newHour * 60), newEndDate;
      }
    }

    /** `onChange` of the start time: with a start date, the end follows at the remembered length. */
    method ChangeStartTime(value: Option<int>)
      requires Valid() && (value.Some? ==> ValidClock(value.value))
      modifies this
      ensures Valid()
      ensures startTime == value && startDate == old(startDate) && timeDiffMinutes == old(timeDiffMinutes)
      ensures value.None? || startDate.None? ==> endTime == old(endTime) && endDate == old(endDate)
      ensures value.Some? && startDate.Some? ==>
        && endTime.Some? && endDate.Some?
        && EndFields(endTime.value, endDate.value) == EndFromStart(startDate.value, value.value, timeDiffMinutes)
        && At(endDate.value, endTime.value) == At(startDate.value, value.value) + timeDiffMinutes
    {
      startTime := value;
      if value.None? || startDate.None? {
        return;
      }
      var startTotalMinutes := value.value;
      var endTotalMinutes := startTotalMinutes + timeDiffMinutes;
      var endHours := (endTotalMinutes / 60) % 24;
      var endMinutes := endTotalMinutes % 60;
      var newEndDate := startDate.value;
      if endTotalMinutes >= 24 * 60 {
        newEndDate := AddDays(startDate.value, endTotalMinutes / (24 * 60));
      }
      endTime, endDate := Some(endHours * 60 + endMinutes), Some(newEndDate);
    }

    /** `onChange` of the end date: a later end sets the remembered length. */
    method ChangeEndDate(value: Option<Date>)
      requires Valid() && (value.Some? ==> CivilDates.Valid(value.value))
      modifies this
      ensures Valid()
      ensures endDate == value
      ensures startDate == old(startDate) && startTime == old(startTime) && endTime == old(endTime)
      ensures timeDiffMinutes == NewLength(startDate, startTime, value, endTime, old(timeDiffMinutes))
    {
      if startTime.Some? && endTime.Some? && startDate.Some? && value.Some? {
        var diff := At(value.value, endTime.value) - At(startDate.value, startTime.value);
        if diff > 0 {
          timeDiffMinutes := diff;
        }
      }
      endDate := value;
    }

    /** `onChange` of the end time: a later end sets the remembered length. */
    method ChangeEndTime(value: Option<int>)
      requires Valid() && (value.Some? ==> ValidClock(value.value))
      modifies this
      ensures Valid()
      ensures endTime == value
      ensures startDate == old(startDate) && startTime == old(startTime) && endDate == old(endDate)
      ensures timeDiffMinutes == NewLength(startDate, startTime, endDate, value, old(timeDiffMinutes))
    {
      if value.Some? && startTime.Some? && startDate.Some? && endDate.Some? {
        var diff := At(endDate.value, value.value) - At(startDate.value, startTime.value);
        if diff > 0 {
          timeDiffMinutes := diff;
        }
      }
      endTime := value;
    }

    /** `onFocus` of an empty end time: the end at the remembered length, or else on the current hour. */
    method FocusEndTime(hour: int)
      requires Valid() && 0 <= hour < 24
      modifies this
      ensures Valid()
      ensures startDate == old(startDate) && startTime == old(startTime) && timeDiffMinutes == old(timeDiffMinutes)
      ensures old(endTime).Some? ==> unchanged(this)
      ensures old(endTime).None? && startTime.Some? && startDate.Some? ==>
        && endTime.Some? && endDate.Some?
        && EndFields(endTime.value, endDate.value) == EndFromStart(startDate.value, startTime.value, timeDiffMinutes)
      ensures old(endTime).None? && !(startTime.Some? && startDate.Some?) ==>
        endTime == Some(hour * 60) && endDate == old(endDate)
    {
      if endTime.None? && startTime.Some? && startDate.Some? {
        var e := EndFromStart(startDate.value, startTime.value, timeDiffMinutes);
        endTime, endDate := Some(e.endTime), Some(e.endDate);
      } else if endTime.None? {
        endTime := Some(hour * 60);
      }
    }
  }

  /** The remembered length after an end input changed: the new positive length, or the old one. */
  function NewLength(startDate: Option<Date>, startTime: Option<int>, endDate: Option<Date>, endTime: Option<int>, old_: int): (r: int)
    requires startDate.Some? ==> Valid(startDate.value)
    requires endDate.Some? ==> Valid(endDate.value)
    ensures old_ >= 1 ==> r >= 1
  {
    if startDate.Some? && startTime.Some? && endDate.Some? && endTime.Some? then
      var d := PositiveDiff(startDate.value, startTime.value, endDate.value, endTime.value);
      if d.Some? then d.value else old_
    else old_
  }

  /**
   * Setting the end after the start and then moving the start keeps that length:
   * the new end lies as far after the new start as the chosen end did after the old one.
   */
  lemma EndThenStartKeepsLength(startDate: Date, startTime: int, endDate: Date, endTime: int, newStart: int, old_: int)
    requires Valid(startDate) && Valid(endDate) && ValidClock(startTime) && ValidClock(newStart) && ValidClock(endTime)
    requires At(endDate, endTime) > At(startDate, startTime) && old_ >= 1
    ensures var len := NewLength(Some(startDate), Some(startTime), Some(endDate), Some(endTime), old_);
      var e := EndFromStart(startDate, newStart, len);
      At(e.endDate, e.endTime) - At(startDate, newStart) == At(endDate, endTime) - At(startDate, startTime)
  {
  }

  /** The step form's other fields. */
  datatype EventForm = EventForm(
    eventType: string,
    title: string,
    deadlineDate: Option<Date>,
    deadlineTime: Option<int>,
    startDate: Option<Date>,
    startTime: Option<int>,
    endDate: Option<Date>,
    endTime: Option<int>,
    status: Status,
    memo: string)

  /** The early returns of `handleAddEvent` and `handleUpdateEvent`, negated. */
  predicate Complete(f: EventForm, dateType: DateType) {
    && Trim(f.title) != ""
    && !(dateType == DeadlineDate && f.deadlineDate.None?)
    && !(dateType == Schedule && (f.startDate.None? || f.endDate.None?))
  }

  /** The `disabled` expression of the submit button. */
  predicate SubmitDisabled(f: EventForm, dateType: DateType) {
    || Trim(f.title) == ""
    || (dateType == DeadlineDate && f.deadlineDate.None?)
    || (dateType == Schedule && (f.startDate.None? || f.endDate.None?))
  }

  /** The fields a submit writes into a step (`{...e, ...updates}`); the id and calendar link are kept. */
  function WithForm(e: SelectionEvent, f: EventForm, dateType: DateType, track: Track): (r: SelectionEvent)
    ensures r.id == e.id && r.calendarEventId == e.calendarEventId
    ensures r.title == f.title && r.dateType == dateType && r.track == track
  {
    e.(track := track, eventType := f.eventType, title := f.title, dateType := dateType,
       deadlineDate := f.deadlineDate, deadlineTime := f.deadlineTime,
       startDate := f.startDate, startTime := f.startTime, endDate := f.endDate, endTime := f.endTime,
       status := f.status, memo := f.memo)
  }

  /** The empty step a new one is built on; storage assigns the id. */
  const NewEvent: SelectionEvent :=
    SelectionEvent("", Intern, "", "", DeadlineDate, None, None, None, None, None, None, Pending, "", None)

  /** `handleAddEvent`: the new step, or nothing when the form is incomplete. */
  function HandleAddEvent(f: EventForm, dateType: DateType, track: Track): (r: Option<SelectionEvent>)
    ensures r.Some? <==> Complete(f, dateType)
    ensures r.Some? ==> r.value == WithForm(NewEvent, f, dateType, track)
  {
    if !Complete(f, dateType) then None else Some(WithForm(NewEvent, f, dateType, track))
  }

  /** An update of the step with id `id`. */
  datatype EventUpdate = EventUpdate(id: string, form: EventForm, dateType: DateType, track: Track)

  /** `handleUpdateEvent`: nothing without a step being edited or with an incomplete form. */
  function HandleUpdateEvent(editingId: Option<string>, f: EventForm, dateType: DateType, track: Track): (r: Option<EventUpdate>)
    ensures r.Some? <==> editingId.Some? && editingId.value != "" && Complete(f, dateType)
    ensures r.Some? ==> r.value == EventUpdate(editingId.value, f, dateType, track)
  {
    if editingId.None? || editingId.value == "" then None
    else if !Complete(f, dateType) then None
    else Some(EventUpdate(editingId.value, f, dateType, track))
  }

  /** The button is enabled exactly when a submit goes through, for adding and for updating. */
  lemma SubmitMatchesGuard(f: EventForm, dateType: DateType, track: Track, editingId: string)
    requires editingId != ""
    ensures HandleAddEvent(f, dateType, track).Some? <==> !SubmitDisabled(f, dateType)
    ensures HandleUpdateEvent(Some(editingId), f, dateType, track).Some? <==> !SubmitDisabled(f, dateType)
    ensures !SubmitDisabled(f, dateType) ==> !Text.Blank(f.title)
  {
    TrimEmptyIffBlank(f.title);
  }

  function IsTrack(t: Track): SelectionEvent -> bool {
    (e: SelectionEvent) => e.track == t
  }

  /** `internEvents` and `fulltimeEvents`. */
  function TrackEvents(events: seq<SelectionEvent>, t: Track): seq<SelectionEvent> {
    Filter(events, IsTrack(t))
  }

  /**
   * The two tracks split the steps: each step is in exactly one of them, the
   * two lengths add up, and each keeps the steps' order.
   */
  lemma TracksPartition(events: seq<SelectionEvent>, a: seq<SelectionEvent>, b: seq<SelectionEvent>)
    ensures forall e | e in events :: e in TrackEvents(events, Intern) <==> e !in TrackEvents(events, Fulltime)
    ensures |TrackEvents(events, Intern)| + |TrackEvents(events, Fulltime)| == |events|
    ensures TrackEvents(a + b, Intern) == TrackEvents(a, Intern) + TrackEvents(b, Intern)
  {
    FilterSplits(events, IsTrack(Intern), IsTrack(Fulltime));
    FilterConcat(a, b, IsTrack(Intern));
  }

  /** The date a step is listed under: its start for a scheduled step that has one, else its deadline. */
  function ListedDate(e: SelectionEvent): Option<Date> {
    if e.dateType == Schedule && e.startDate.Some? then e.startDate else e.deadlineDate
  }

  /** `isCompleted`: the listed day is before today (a step without a date is never completed). */
  predicate IsCompleted(e: SelectionEvent, today: Date)
    requires Valid(today) && (ListedDate(e).Some? ==> Valid(ListedDate(e).value))
  {
    ListedDate(e).Some? && Ordinal(ListedDate(e).value) < Ordinal(today)
  }

  /** A step is completed exactly when its day comes earlier in the calendar than today. */
  lemma CompletedIsBefore(e: SelectionEvent, today: Date)
    requires Valid(today) && ListedDate(e).Some? && Valid(ListedDate(e).value)
    ensures IsCompleted(e, today) <==> Before(ListedDate(e).value, today)
    ensures IsCompleted(e, today) ==> ListedDate(e).value != today
  {
    OrdinalOrder(ListedDate(e).value, today);
  }
}

=== FILE: sorting.dfy ===
/**
 * `Array.prototype.sort` with a comparator that orders by a two-part key,
 * the way the calendar orders a day's entries (all-day first, then by start)
 * and the company page orders progress (by passed date, then by creation).
 * The sort the browser runs is stable, so it is specified here as: sorted by the
 * key, a permutation of the input, and, for each key value, the elements carrying
 * that key in the same order as in the input.
 */
module Sorting {

  /** A lexicographically ordered pair of integers. */
  datatype Key = Key(major: int, minor: int)

  predicate KeyLe(a: Key, b: Key) {
    a.major < b.major || (a.major == b.major && a.minor <= b.minor)
  }

  predicate SortedBy<T>(s: seq<T>, key: T -> Key) {
    forall i, j :: 0 <= i < j < |s| ==> KeyLe(key(s[i]), key(s[j]))
  }

  /** The elements whose key is `k`, in order. */
  function WithKey<T>(s: seq<T>, key: T -> Key, k: Key): seq<T> {
    if s == [] then []
    else (if key(s[0]) == k then [s[0]] else []) + WithKey(s[1..], key, k)
  }

  /** `[x] ++ s`, seen through `WithKey`. */
  lemma WithKeyCons<T>(x: T, s: seq<T>, key: T -> Key, k: Key)
    ensures WithKey([x] + s, key, k) == (if key(x) == k then [x] else []) + WithKey(s, key, k)
  {
    assert ([x] + s)[1..] == s;
  }

  /** Places `x` before the first element whose key is not below `key(x)`. */
  function Insert<T>(x: T, s: seq<T>, key: T -> Key): (r: seq<T>)
    ensures multiset(r) == multiset(s) + multiset{x}
  {
    if s == [] then [x]
    else if KeyLe(key(x), key(s[0])) then [x] + s
    else
      assert s == [s[0]] + s[1..];
      [s[0]] + Insert(x, s[1..], key)
  }

  lemma {:induction false} InsertSorted<T>(x: T, s: seq<T>, key: T -> Key)
    requires SortedBy(s, key)
    ensures SortedBy(Insert(x, s, key), key)
  {
    if s != [] && !KeyLe(key(x), key(s[0])) {
      var rest := Insert(x, s[1..], key);
      assert Insert(x, s, key) == [s[0]] + rest;
      InsertSorted(x, s[1..], key);
      InsertKeepsBound(x, s[1..], key, key(s[0]));
    }
  }

  /** A lower bound of `x` and of every element of `s` bounds the result too. */
  lemma {:induction false} InsertKeepsBound<T>(x: T, s: seq<T>, key: T -> Key, b: Key)
    requires KeyLe(b, key(x))
    requires forall j :: 0 <= j < |s| ==> KeyLe(b, key(s[j]))
    ensures forall j :: 0 <= j < |Insert(x, s, key)| ==> KeyLe(b, key(Insert(x, s, key)[j]))
  {
    if s != [] && !KeyLe(key(x), key(s[0])) {
      InsertKeepsBound(x, s[1..], key, b);
      assert Insert(x, s, key) == [s[0]] + Insert(x, s[1..], key);
    }
  }

  /** Among the elements sharing a key, `x` comes first. */
  lemma {:induction false} InsertWithKey<T>(x: T, s: seq<T>, key: T -> Key, k: Key)
    ensures WithKey(Insert(x, s, key), key, k) == (if key(x) == k then [x] else []) + WithKey(s, key, k)
  {
    if s == [] {
      WithKeyCons(x, [], key, k);
    } else if KeyLe(key(x), key(s[0])) {
      WithKeyCons(x, s, key, k);
    } else {
      var rest := Insert(x, s[1..], key);
      assert Insert(x, s, key) == [s[0]] + rest;
      InsertWithKey(x, s[1..], key, k);
      WithKeyCons(s[0], rest, key, k);
      assert WithKey(s, key, k) == (if key(s[0]) == k then [s[0]] else []) + WithKey(s[1..], key, k);
    }
  }

  /**
   * A stable sort by `key`: the result is ordered, holds the same elements, and
   * keeps the input order among elements with equal keys.
   */
  function SortBy<T>(s: seq<T>, key: T -> Key): (r: seq<T>)
    ensures SortedBy(r, key)
    ensures multiset(r) == multiset(s)
    ensures forall k :: WithKey(r, key, k) == WithKey(s, key, k)
  {
    if s == [] then []
    else
      var sorted := SortBy(s[1..], key);
      var r := Insert(s[0], sorted, key);
      InsertSorted(s[0], sorted, key);
      assert s == [s[0]] + s[1..];
      assert forall k :: WithKey(r, key, k) == WithKey(s, key, k) by {
        forall k
          ensures WithKey(r, key, k) == WithKey(s, key, k)
        {
          InsertWithKey(s[0], sorted, key, k);
          WithKeyCons(s[0], s[1..], key, k);
        }
      }
      r
  }

  /** `s.map(f)`. */
  function Map<A, B>(s: seq<A>, f: A -> B): (r: seq<B>)
    ensures |r| == |s|
    ensures forall i :: 0 <= i < |s| ==> r[i] == f(s[i])
  {
    if s == [] then [] else [f(s[0])] + Map(s[1..], f)
  }

  lemma MapConcat<A, B>(a: seq<A>, b: seq<A>, f: A -> B)
    ensures Map(a + b, f) == Map(a, f) + Map(b, f)
  {
  }

  /** Inserting commutes with a map that keeps keys. */
  lemma {:induction false} InsertMap<A, B>(x: A, s: seq<A>, keyA: A -> Key, f: A -> B, keyB: B -> Key)
    requires forall a :: keyB(f(a)) == keyA(a)
    ensures Map(Insert(x, s, keyA), f) == Insert(f(x), Map(s, f), keyB)
  {
    if s == [] {
    } else {
      var m := Map(s, f);
      assert m[0] == f(s[0]) && m[1..] == Map(s[1..], f);
      if !KeyLe(keyA(x), keyA(s[0])) {
        InsertMap(x, s[1..], keyA, f, keyB);
        MapConcat([s[0]], Insert(x, s[1..], keyA), f);
      } else {
        MapConcat([x], s, f);
      }
    }
  }

  /** Sorting commutes with a map that keeps keys: relabelling the elements does not reorder them. */
  lemma {:induction false} SortByMap<A, B>(s: seq<A>, keyA: A -> Key, f: A -> B, keyB: B -> Key)
    requires forall a :: keyB(f(a)) == keyA(a)
    ensures Map(SortBy(s, keyA), f) == SortBy(Map(s, f), keyB)
  {
    if s != [] {
      var m := Map(s, f);
      assert m[0] == f(s[0]) && m[1..] == Map(s[1..], f);
      SortByMap(s[1..], keyA, f, keyB);
      InsertMap(s[0], SortBy(s[1..], keyA), keyA, f, keyB);
    }
  }
}

=== FILE: text.dfy ===
/**
 * The string operations the pages apply to user input: `trim`, `toLowerCase`
 * (on the ASCII letters) and `includes`.
 */
module Text {

  /** The characters `String.prototype.trim` removes: white space and line terminators. */
  predicate IsSpace(c: char) {
    || c == ' ' || c == '\t' || c == '\n' || c == '\r' || c == '\U{0B}' || c == '\U{0C}'
    || c == '\U{A0}' || c == '\U{1680}' || ('\U{2000}' <= c <= '\U{200A}')
    || c == '\U{2028}' || c == '\U{2029}' || c == '\U{202F}' || c == '\U{205F}'
    || c == '\U{3000}' || c == '\U{FEFF}'
  }

  /** `s` without its leading white space. */
  function TrimStart(s: string): (r: string)
    ensures |r| <= |s| && r == s[|s| - |r|..]
    ensures forall i | 0 <= i < |s| - |r| :: IsSpace(s[i])
    ensures r == [] || !IsSpace(r[0])
  {
    if s != [] && IsSpace(s[0]) then TrimStart(s[1..]) else s
  }

  /** `s` without its trailing white space. */
  function TrimEnd(s: string): (r: string)
    ensures |r| <= |s| && r == s[..|r|]
    ensures forall i | |r| <= i < |s| :: IsSpace(s[i])
    ensures r == [] || !IsSpace(r[|r| - 1])
  {
    if s != [] && IsSpace(s[|s| - 1]) then TrimEnd(s[..|s| - 1]) else s
  }

  predicate Blank(s: string) {
    forall i | 0 <= i < |s| :: IsSpace(s[i])
  }

  /** `s.trim()`: the part of `s` between white space at its start and at its end. */
  function Trim(s: string): (r: string)
    ensures |r| <= |s|
    ensures exists a, b | 0 <= a <= b <= |s| :: r == s[a..b] && Blank(s[..a]) && Blank(s[b..])
    ensures r == [] || (!IsSpace(r[0]) && !IsSpace(r[|r| - 1]))
  {
    var t := TrimStart(s);
    var r := TrimEnd(t);
    var a, b := |s| - |t|, |s| - |t| + |r|;
    assert r == s[a..b] && Blank(s[..a]) by {
      assert t[..|r|] == s[a..b];
    }
    assert Blank(s[b..]) by {
      forall i | 0 <= i < |s| - b ensures IsSpace(s[b..][i]) {
        assert s[b..][i] == t[|r| + i];
      }
    }
    r
  }

  /** `!s.trim()` holds exactly for text made of white space only (the empty text included). */
  lemma TrimEmptyIffBlank(s: string)
    ensures Trim(s) == [] <==> Blank(s)
  {
    var t := TrimStart(s);
    if t != [] {
      assert TrimEnd(t)[0] == t[0] || TrimEnd(t) == [];
    }
  }

  /** Trimming twice changes nothing more. */
  lemma TrimIdempotent(s: string)
    ensures Trim(Trim(s)) == Trim(s)
  {
    var r := Trim(s);
    if r != [] {
      assert TrimStart(r) == r;
      assert TrimEnd(r) == r;
    }
  }

  /** `toLowerCase` on the ASCII capitals; other characters are kept. */
  function LowerChar(c: char): char {
    if 'A' <= c <= 'Z' then (c as int + 32) as char else c
  }

  function Lower(s: string): (r: string)
    ensures |r| == |s|
    ensures forall i | 0 <= i < |s| :: r[i] == LowerChar(s[i])
  {
    if s == [] then [] else [LowerChar(s[0])] + Lower(s[1..])
  }

  /** `s.includes(q)`. */
  predicate Contains(s: string, q: string) {
    exists i | 0 <= i <= |s| - |q| :: q <= s[i..]
  }

  /** Every text contains the empty text, and contains itself. */
  lemma ContainsTrivial(s: string)
    ensures Contains(s, "") && Contains(s, s)
  {
    assert s[0..] == s;
  }

  /** Lower-casing is idempotent, so a lower-cased query matches itself. */
  lemma LowerIdempotent(s: string)
    ensures Lower(Lower(s)) == Lower(s)
  {
  }
}

=== FILE: wrappers.dfy ===
/** Optional values, standing for the `undefined`/`null` fields of the records. */
module Wrappers {

  datatype Option<+T> = None | Some(value: T) {

    /** The value, or `default` when there is none (JavaScript's `x || default` on an optional field). */
    function GetOr(default: T): T {
      match this
      case Some(v) => v
      case None => default
    }
  }
}
